=== FILE: README.md ===
# xv6 network stack, buffer cache, allocator, mmap and xargs in Dafny

A functional model of the core of an xv6 (RISC-V) lab kernel and one of its
user programs:

- the e1000 network driver's transmit and receive descriptor rings
  (`kernel/e1000.c`);
- the UDP/ARP network layer (`kernel/net.c`): socket binding, packet
  queues, `recv`, `send` with the IP header checksum, `ip_rx`, `arp_rx` and
  `net_rx`;
- the hashed buffer cache with bucket-to-bucket buffer stealing
  (`kernel/bio.c`);
- the physical page allocator with its separate superpage pool
  (`kernel/kalloc.c`);
- the file-descriptor helpers and the `mmap`/`munmap` system calls with the
  lazy page-fault handler (`kernel/sysfile.c`);
- the `xargs` user program (`user/xargs.c`).

Kernel state is an immutable value; each system call or kernel routine is a
function or method from the old state (and its arguments) to the new state
and a return value. Locks, sleeping and waking, device registers, disk I/O
and the user-memory copies are outside the model; their outcomes enter as
parameters (a page `kalloc` returned, whether `copyout` succeeded, whether
`readi` failed). The core's unsigned and signed integers are
unbounded `int`s with the wrap-around written out where the source relies on
it (`Trunc16`, `Trunc32`, `Int32`, reference counts modulo 2^32, file offsets
modulo 2^64).

Modules, one per file: `Bytes` (bytes, `Option`, big-endian encoding),
`Checksum` (`in_cksum`), `Wire` (Ethernet, IP, UDP and ARP layouts),
`E1000`, `Sockets`, `Net`, `BufCache`, `Kalloc`, `SysFile`, `Xargs`.

Constants defined in header files that are not part of this model
(`param.h`, `riscv.h`, `memlayout.h`, `net.h`, `e1000_dev.h`, `fcntl.h`)
take the standard xv6 values: NBUF = 30, NOFILE = 16, NVMA = 16,
MAXARG = 32, PGSIZE = 4096, PHYSTOP = 0x8800_0000, MAXVA = 2^38,
TRAPFRAME = MAXVA - 2 * PGSIZE, superpages of 2 MiB, descriptor bits
DD = 0x01, EOP = 0x01, RS = 0x08, PTE_R/W/X/U = 2/4/8/16,
PROT_READ/WRITE/EXEC = 1/2/4, MAP_SHARED = 1.

## Model

| member | source | states |
|---|---|---|
| Bytes.Be16RoundTrip | kernel/net.c:285-287 | reading back a 16-bit field written in network byte order yields the value modulo 2^16 |
| Bytes.Be32RoundTrip | kernel/net.c:280-281 | reading back a 32-bit field written in network byte order yields the value modulo 2^32 |
| Bytes.Get16At | kernel/net.c:326-327 | a 16-bit field read at its offset in a larger frame is the value that was stored there, whatever surrounds it |
| Bytes.Get32At | kernel/net.c:328 | a 32-bit field read at its offset in a larger frame is the value that was stored there |
| Checksum.OnesFold | kernel/net.c:229-231 | folding carries keeps the sum within 16 bits, congruent to it modulo 0xffff, and zero exactly when the sum is zero |
| Checksum.CarryFold | kernel/net.c:229-231 | the two carry-add steps on a 32-bit accumulator produce exactly the ones'-complement fold of the sum |
| Checksum.InCksum | kernel/net.c:205-235 | the loop over 16-bit words plus the odd trailing byte computes the complement of the folded little-endian word sum, and the 32-bit accumulator cannot wrap for inputs up to 128 KiB |
| Checksum.ChecksumVerifies | kernel/net.c:272-282 | storing the checksum of a header whose checksum field is zero makes the checksum of the completed header zero |
| Checksum.AddingComplementFolds | kernel/net.c:229-233 | adding a sum's folded complement to it folds to 0xffff (the ones'-complement zero) |
| Checksum.SumsZeroTogether | kernel/net.c:217-226 | the little-endian and big-endian word sums of the same bytes are zero together |
| Checksum.ByteOrderIndependent | kernel/net.c:205-235 | the checksum computed on little-endian words and stored little-endian equals, byte for byte, the RFC 1071 checksum computed on big-endian words |
| Checksum.ComplementSwap | kernel/net.c:233 | complementing commutes with swapping the two bytes of a 16-bit word |
| Wire.IpHeaderFields | kernel/net.c:272-282 | the IPv4 header built by send has version/IHL 0x45, TTL 100, protocol UDP, the right total length, source and destination, and a checksum that verifies |
| Wire.EthHeaderFields | kernel/net.c:267-270 | the Ethernet header carries the destination MAC, source MAC and type in that order |
| Wire.UdpHeaderFields | kernel/net.c:284-287 | the UDP header carries the source port, destination port and payload length plus 8 |
| Wire.UdpFrameFields | kernel/net.c:266-294 | every field a receiver parses from a built frame (MACs, type, protocol, addresses, ports, length) is the one send stored, and the payload follows the 42 header bytes unchanged |
| Wire.ArpReplyFields | kernel/net.c:415-432 | the ARP reply goes to the querier's MAC, names this host's MAC and IP as sender and echoes the querier's MAC and IP as target |
| Wire.ArpBodyFields | kernel/net.c:420-430 | the ARP body has hardware type Ethernet, protocol IP, address lengths 6 and 4 and opcode reply |
| E1000.TxInit | kernel/e1000.c:42-51 | after initialisation every transmit descriptor is marked done and owns no buffer, and the tail is 0 |
| E1000.RxInit | kernel/e1000.c:54-65 | initialisation fails exactly when some page allocation failed; otherwise every receive slot owns its page, no descriptor is done and the tail is the last slot |
| E1000.Transmit | kernel/e1000.c:95-137 | transmit fails exactly when the tail descriptor is not done; otherwise only the tail slot changes: it holds the new buffer and length with EOP and RS set, its previous buffer is released, and the tail advances modulo the ring size |
| E1000.DeviceSetsDone | kernel/e1000.c:112-116 | the device completing a descriptor marks it done and leaves the ring's buffers and tail alone |
| E1000.TransmitManyClears | kernel/e1000.c:119-133 | n successful transmits from a tail leave the n slots after it owned by the device and the tail n slots further |
| E1000.SeventeenthTransmitFails | kernel/e1000.c:112-116 | after a full ring's worth of successful transmits with no completions, every slot is owned by the device and the next transmit fails |
| E1000.Recv | kernel/e1000.c:140-191 | the receive loop hands over, in ring order, exactly the done slots after the tail up to the first one that is not done, restocks each with the next allocated page and clears its status, leaves every slot it did not reach unchanged, and panics exactly when it reaches a done slot whose allocation fails |
| E1000.DrainedNoPanic | kernel/e1000.c:150-180 | when the loop stops at a slot that is not done (or after a full ring) with every allocation so far successful, no earlier or later slot can be the one that panics |
| Sockets.NetInit | kernel/net.c:44-55 | after initialisation every socket slot is unused with an empty queue, and the table invariant holds |
| Sockets.FindPort | kernel/net.c:76-81 | the lookup returns the first used slot bound to the port, or reports that none is |
| Sockets.FindFree | kernel/net.c:84-93 | the lookup returns the first unused slot, or reports that every slot is used |
| Sockets.Bind | kernel/net.c:64-97 | bind fails exactly when the port is out of range, already bound or the table is full, and then changes nothing; otherwise it binds the first unused slot with an empty queue; the table invariant (unique ports) is kept |
| Sockets.Unbind | kernel/net.c:103-112 | unbind is a stub: it returns 0 and leaves the socket table unchanged |
| Sockets.BindTwiceFails | kernel/net.c:105-112 | binding a port twice fails, and so does binding it again after unbind, since unbind does not release the slot |
| Sockets.IpRx | kernel/net.c:302-387 | a packet is queued exactly when it is UDP, long enough, addressed to a bound port whose queue is not full, and its buffer was allocated; then it is appended to that socket's queue and nothing else changes |
| Sockets.RecvCopyLenAsWritten | kernel/net.c:184-185 | the copy length as written is the smaller of the caller's maximum and the header's UDP length minus 8, with no lower bound and no check against the frame |
| Sockets.RecvCopyLenAsWrittenOverruns | kernel/net.c:184-185 | a UDP length below 8 makes the copy length negative, and a length field larger than the frame makes it run past the received bytes |
| Sockets.RecvCopyLen | kernel/net.c:184-194 | the corrected copy length is never negative, never above the caller's maximum, never past the received payload, and agrees with the source whenever the length field is consistent |
| Sockets.Recv | kernel/net.c:130-200 | recv fails on a bad port or length or an unbound port, would sleep on an empty queue, and otherwise dequeues the head packet of that socket only and returns the number of payload bytes copied, which is the corrected copy length `RecvCopyLen` (at most maxlen and within the received payload), together with exactly those bytes, or -1 when the copy to user space fails |
| Sockets.Run | kernel/net.c:129-200 | any sequence of arrivals and receives keeps the table invariant and never changes which ports are bound |
| Sockets.FifoDelivery | kernel/net.c:172-174 | over any sequence of arrivals and receives, the packets received followed by those still queued are the queue's original packets followed by the ones that arrived: delivery is first in, first out |
| Sockets.ArriveKeepsOrder | kernel/net.c:364-381 | an arrival appends to the end of the socket's queue only |
| Sockets.TakeKeepsOrder | kernel/net.c:172-174 | a receive removes the head of the queue only |
| Sockets.FullQueueDrops | kernel/net.c:349-354 | a packet for a socket whose queue is full is dropped and the table is unchanged |
| Sockets.RecvUnboundFails | kernel/net.c:154-164 | recv on a port nobody bound returns an error |
| Net.Enqueue | kernel/net.c:296 | handing a frame to the driver advances the ring when the tail slot is free and leaves it unchanged otherwise |
| Net.Int32 | kernel/net.c:248-256 | conversion to C `int` keeps values in the 32-bit range and is congruent to the original modulo 2^32 |
| Net.SendAdmitsAsWritten | kernel/net.c:256-258 | the source's admission check, with the header-extended length truncated to a C `int`, admits exactly the lengths whose true total is at most a page and also those whose total reaches 2^31 and wraps negative |
| Net.SendGuardAsWrittenAdmitsBadLengths | kernel/net.c:256-258 | the length check as written admits a negative length, which becomes a huge unsigned copy size, and a length of 2^31 - 1, whose frame cannot fit a page |
| Net.SendAdmitsAgrees | kernel/net.c:256-258 | the corrected check agrees with the source's on every non-negative length that does not overflow, and every length it admits fits the 16-bit IP and UDP length fields exactly |
| Net.Send | kernel/net.c:241-299 | send succeeds exactly when the length is admitted, the page allocation succeeded and the user buffer holds that many bytes; the frame handed to the driver is then exactly the frame built from the ports, destination and the user's first `len` bytes, with version/IHL 0x45, TTL 100, total length 28 + len, protocol UDP, a verifying IP checksum, the addresses, ports and UDP length as a receiver parses them, and the user's bytes as payload; on failure the ring is unchanged |
| Net.SentFrame | kernel/net.c:266-294 | a frame built for an admitted payload fits a page, carries version/IHL 0x45, TTL 100 and total length 28 + len, and a receiver parses back exactly the addresses, ports, UDP length and payload it was built from |
| Net.ArpRx | kernel/net.c:397-435 | only the first ARP packet is answered; later ones change nothing; answering panics when the page allocation fails; the reply is exactly the reply frame built for the query: addressed back to the querier, an Ethernet/IPv4 ARP reply (hrd 1, pro 0x0800, hln 6, pln 4) with the kernel's MAC and IP as sender and the querier's MAC and IP as target |
| Net.NetRx | kernel/net.c:438-451 | a frame is dispatched to ARP or IP processing by its Ethernet type and length; anything else is dropped without changing state |
| Net.ArpRepliesOnce | kernel/net.c:401-404 | after one ARP reply has been sent, every later ARP packet is ignored |
| Net.SendRecvRoundTrip | kernel/net.c:241-299 | a datagram sent to a bound port on this host and received back is delivered to that port with the sender's port and address and the first min(len, maxlen) bytes of the sent payload, leaving the socket table as it was |
| Net.DeliverAndReceive | kernel/net.c:302-387 | any well-formed UDP frame for a bound, empty socket is queued and then returned by recv with its payload truncated to the caller's maximum |
| Net.QueuedOnEmpty | kernel/net.c:364-381 | a UDP packet arriving at an idle bound socket becomes that socket's only queued packet |
| Net.DequeueOnly | kernel/net.c:172-185 | receiving from a socket holding one packet empties its queue and returns that packet with the corrected copy length |
| BufCache.Hash | kernel/bio.c:41-44 | the bucket index is below the bucket count and congruent to the 32-bit unsigned sum of dev and blockno: to dev + blockno when it fits, and to dev + blockno - 2^32 when it wraps |
| BufCache.Inc | kernel/bio.c:89-96 | incrementing a reference count wraps modulo 2^32 like a C `uint` |
| BufCache.Dec | kernel/bio.c:195-208 | decrementing a reference count wraps modulo 2^32 like a C `uint` |
| BufCache.Binit | kernel/bio.c:47-74 | initialisation puts every buffer, zeroed, in bucket 0 and leaves the other buckets empty, establishing the invariant that each buffer sits in exactly one bucket, the one its block hashes to |
| BufCache.FirstMatch | kernel/bio.c:89-96 | the bucket scan finds the first buffer caching the block, or reports that none in the bucket does |
| BufCache.LastFree | kernel/bio.c:99-109 | the free-buffer scan finds the last unreferenced buffer of a bucket, or reports that all are referenced |
| BufCache.StealScan | kernel/bio.c:133-164 | stealing takes the first other bucket that has an unreferenced buffer, and every bucket skipped had none |
| BufCache.BGet | kernel/bio.c:80-168 | a returned buffer caches the requested block and sits in that block's bucket, no other buffer changes, and the invariant is kept |
| BufCache.StealKeepsWf | kernel/bio.c:145-158 | moving a stolen buffer to the head of the target bucket keeps every buffer in exactly one bucket, the one its block hashes to |
| BufCache.StealKeepsIds | kernel/bio.c:145-158 | moving a buffer between buckets keeps the set of buffers across all buckets |
| BufCache.BGetHit | kernel/bio.c:89-96 | for a cached block, bget returns the first buffer in the bucket caching it, increments its reference count, and changes nothing else |
| BufCache.BGetMiss | kernel/bio.c:99-164 | for an uncached block, bget recycles an unreferenced buffer as the block's (invalid, referenced once): when the block's own bucket has one, it is the last unreferenced buffer of that bucket and no bucket changes; otherwise it is the last unreferenced buffer of the lowest-numbered other bucket that has one, unlinked there and pushed at the head of the block's bucket |
| BufCache.BGetPanics | kernel/bio.c:166-167 | bget panics exactly when the block is not cached and every buffer is referenced |
| BufCache.BRead | kernel/bio.c:172-182 | bread returns a valid buffer for the block, reading the disk exactly when bget's buffer was not yet valid, and panics exactly when bget does |
| BufCache.GetIsFirst | kernel/bio.c:89-96 | the buffer bget returns is the first one in its bucket that caches the block |
| BufCache.BReadTwiceReadsOnce | kernel/bio.c:172-182 | reading the same block twice returns the same buffer and reads the disk at most the first time |
| BufCache.BRelse | kernel/bio.c:195-208 | release decrements only that buffer's reference count and keeps every buffer in its bucket |
| BufCache.BPin | kernel/bio.c:211-218 | pinning increments only that buffer's reference count |
| BufCache.BUnpin | kernel/bio.c:221-228 | unpinning has the same effect as a release |
| BufCache.PinUnpin | kernel/bio.c:211-228 | unpinning undoes pinning exactly |
| BufCache.HitThenRelease | kernel/bio.c:89-96 | getting a cached block and then releasing it restores the cache exactly |
| Kalloc.PgRoundUp | kernel/kalloc.c:80 | rounding up gives the least page-aligned address not below the argument |
| Kalloc.SuperRoundUp | kernel/kalloc.c:52 | rounding up gives a superpage-aligned address not below the argument and less than one superpage above it |
| Kalloc.KFree | kernel/kalloc.c:90-106 | kfree panics exactly on an unaligned address or one outside [end, PHYSTOP), and otherwise pushes the page on the free list |
| Kalloc.KAlloc | kernel/kalloc.c:112-125 | kalloc pops the head of the free list, or returns 0 and changes nothing when the list is empty |
| Kalloc.FreeThenAlloc | kernel/kalloc.c:90-125 | freeing a valid page and then allocating returns that page and restores the allocator |
| Kalloc.AllocZeroIffEmpty | kernel/kalloc.c:112-125 | when every free page is a valid kernel address, kalloc returns 0 exactly when memory is exhausted |
| Kalloc.DescMembers | kernel/kalloc.c:77-83 | the pages freerange frees are exactly the page-aligned steps of the range |
| Kalloc.DescDescending | kernel/kalloc.c:77-83 | pushing the pages of a range in ascending order leaves them on the list highest first, each once |
| Kalloc.DescendingConcat | kernel/kalloc.c:65-69 | the pages of the upper range pushed in front of those of the lower range keep the whole list highest first |
| Kalloc.FreeRange | kernel/kalloc.c:77-83 | freerange panics exactly when some whole page of the range is not freeable; otherwise it puts exactly the whole pages of the range, highest first and each once, in front of the old free list |
| Kalloc.SuperAlloc | kernel/kalloc.c:132-147 | superalloc pops the head superpage and decrements the count, or returns 0 and changes nothing; the count stays equal to the list length |
| Kalloc.SuperFree | kernel/kalloc.c:151-168 | superfree panics exactly on a bad superpage address, and otherwise pushes it and increments the count |
| Kalloc.SuperFreeThenAlloc | kernel/kalloc.c:132-168 | freeing a superpage and then allocating one returns it and restores the pool |
| Kalloc.SuperCountInvariant | kernel/kalloc.c:132-168 | any sequence of superpage operations keeps the count equal to the number of free superpages |
| Kalloc.KInit | kernel/kalloc.c:42-74 | when the superpage region fits below PHYSTOP, kinit reserves 8 distinct aligned superpages in it and frees exactly the other whole pages between the kernel end and PHYSTOP; otherwise it reserves none and frees every whole page; either way the page list holds each page once, highest first |
| Kalloc.SplitRange | kernel/kalloc.c:65-69 | the two freerange calls together cover exactly the pages outside the superpage region |
| SysFile.ArgFd | kernel/sysfile.c:22-36 | a descriptor resolves exactly when it is in range and open, and then to the open file |
| SysFile.FdAlloc | kernel/sysfile.c:40-53 | allocation fails exactly when every slot is open; otherwise it installs the file in the lowest free slot, which then resolves to it |
| SysFile.FindVma | kernel/sysfile.c:609-616 | the lookup returns the first used VMA containing the address, or reports that none does |
| SysFile.FreeVma | kernel/sysfile.c:547-555 | the lookup returns the first unused VMA slot, or reports that all are used |
| SysFile.CheckConflict | kernel/sysfile.c:563-575 | the inner scan reports a conflict exactly when the range meets a used VMA or runs past the trapframe |
| SysFile.FindVa | kernel/sysfile.c:558-582 | the search returns the highest aligned candidate whose range is free, or a value below the heap top exactly when every candidate above the heap conflicts |
| SysFile.Mmap | kernel/sysfile.c:509-595 | mmap succeeds exactly when the address hint is 0, the length positive, the descriptor open, the permissions allowed, a VMA slot free and a free range exists above the heap; it then records the mapping at the highest free range in the first free slot, overlapping no other mapping; on failure nothing changes; disjointness of mappings is kept |
| SysFile.InsertKeepsWf | kernel/sysfile.c:585-592 | recording a non-overlapping mapping between the heap and the trapframe keeps the mappings disjoint |
| SysFile.PgRoundDown | kernel/sysfile.c:627 | rounding down gives the page containing the address |
| SysFile.FileOffset | kernel/sysfile.c:746 | the file offset of an address in a mapping is congruent modulo 2^64 to the mapping's offset plus the signed distance from its start, and equals it when that sum lies in [0, 2^64), including for an address below an unaligned start |
| SysFile.UnmapVmaAsWritten | kernel/sysfile.c:692-704 | the bookkeeping as written frees the VMA when the whole mapping is unmapped, keeps the file and flags otherwise, and keeps lengths in 64 bits |
| SysFile.MunmapAsWrittenWraps | kernel/sysfile.c:692-704 | unmapping two pages from the start of a one-page mapping passes the guard and wraps the 64-bit length, so the slot stays in use while its end wraps below its start: no address passes the lookup of kernel/sysfile.c:609-616 any more, so the slot can never be unmapped and its file never closed |
| SysFile.UnmapVma | kernel/sysfile.c:692-704 | the corrected bookkeeping leaves exactly the addresses of the mapping outside the unmapped range, with their file offsets unchanged |
| SysFile.UnmapVmaAgrees | kernel/sysfile.c:692-704 | the corrected bookkeeping agrees with the source whenever no 64-bit field wraps |
| SysFile.MappedFromMembers | kernel/sysfile.c:641-657 | the dirty-page scan visits exactly the mapped pages of the range |
| SysFile.MappedFromSorted | kernel/sysfile.c:641-657 | the scan visits pages in ascending order |
| SysFile.CollectDirty | kernel/sysfile.c:641-657 | the collected pages are the first 16 mapped pages of the range, in ascending order |
| SysFile.WriteBackLen | kernel/sysfile.c:666-671 | a write-back never exceeds a page or goes past the end of the file, writes a full page when one fits, ends exactly at the file end otherwise, and is empty exactly when the offset is at or past the end |
| SysFile.Writes | kernel/sysfile.c:660-680 | every write-back writes exactly the bytes of its page that lie before the file's end: non-empty, at most a page, and inside the file |
| SysFile.WritesMembers | kernel/sysfile.c:660-680 | the write-backs are exactly the non-empty ones of the collected pages, each at its page's file offset |
| SysFile.NoWritesPastEnd | kernel/sysfile.c:666-675 | pages at or past the end of the file are not written back |
| SysFile.WritesPrefix | kernel/sysfile.c:660-680 | when the pages' file offsets increase, the k-th write-back is the k-th page's, and every page without one lies at or past the file's end |
| SysFile.DirtyOffsetsIncrease | kernel/sysfile.c:641-657 | the pages munmap collects have strictly increasing file offsets |
| SysFile.SharedWriteBack | kernel/sysfile.c:641-680 | munmap writes back, in order, the collected pages that start before the file's end, each at its file offset and cut at the file's end |
| SysFile.Unmapped | kernel/sysfile.c:683-689 | unmapping removes exactly the pages in the range from the mapped set |
| SysFile.Munmap | kernel/sysfile.c:597-707 | munmap fails, changing nothing, exactly when no mapping holds the address, the range neither starts at the mapping's start nor ends at its end, or it runs past the mapping (this last check is the correction listed under Findings); otherwise it shrinks or frees the mapping, unmaps exactly the pages of the range, for a shared mapping writes back exactly the write-backs of the first 16 mapped pages of the range, cut at the file's size, and none for a private one, and keeps mappings disjoint |
| SysFile.ShrinkKeepsWf | kernel/sysfile.c:692-704 | replacing a mapping by one covering a subset of its addresses keeps the mappings disjoint |
| SysFile.Perm | kernel/sysfile.c:757-761 | the page permissions carry read, write and execute exactly as the protection bits ask, always the user bit, never the valid bit |
| SysFile.PermRoundTrip | kernel/sysfile.c:757-761 | the protection can be read back from the page permissions |
| SysFile.HandleMmapFault | kernel/sysfile.c:710-770 | the fault handler fails exactly when no mapping holds the address, its page is already mapped, the allocation, the file read or the page-table update fails; otherwise it maps that page with the permissions built from the mapping's protection, filled from the corresponding file offset |
| SysFile.FaultTwiceFails | kernel/sysfile.c:729-736 | a second fault on a page already faulted in fails |
| SysFile.FaultReadsBackingOffset | kernel/sysfile.c:746-749 | for an aligned mapping the faulted page lies in the mapping and is read from the file at the mapping's offset plus the page's distance from its start |
| SysFile.FaultThenMunmap | kernel/sysfile.c:597-770 | after a page is faulted in, a successful munmap leaves it mapped exactly when it lies outside the page-rounded range, and a failed munmap leaves it mapped |
| Xargs.NlIndex | user/xargs.c:33 | the index found is the first newline, or the end when there is none |
| Xargs.Split | user/xargs.c:32-79 | standard input is cut into newline-free complete lines and a newline-free tail that rebuild it |
| Xargs.SplitUnique | user/xargs.c:32-79 | there is only one such cut, so the lines xargs sees are determined by the input |
| Xargs.Keep | user/xargs.c:61-63 | a line keeps exactly its first 511 characters when it is longer, and is unchanged when it is not |
| Xargs.CStr | user/xargs.c:36-43 | the argument passed to exec is the buffer up to its first NUL |
| Xargs.PerLine | user/xargs.c:33-58 | each complete line gives one argument vector: the command and its arguments, then the line |
| Xargs.Xargs | user/xargs.c:9-81 | without a command xargs exits with status 1 and runs nothing; otherwise it runs, in order, one command per complete line and one more for a non-empty trailing segment, each with the line appended as the last argument |
| Xargs.CommandCount | user/xargs.c:32-79 | the number of commands run is the number of newlines in the input, plus one when text follows the last newline |
| Xargs.LinesAreNewlines | user/xargs.c:33 | every complete line ends at exactly one newline |
| Xargs.CommandShape | user/xargs.c:26-43 | every command keeps xargs' own arguments in front and ends with a NUL-free argument of at most 511 characters taken from the start of its line |
| Xargs.EmptyLineRuns | user/xargs.c:33-58 | an empty line ended by a newline still runs the command, while an empty tail does not |

## Left out

- Locks, `sleep`/`wakeup` and interrupts: every operation is one atomic step; `recv` on an empty queue returns a "would block" result instead of sleeping.
- `bget`'s second scan of the target bucket after taking the lock (`kernel/bio.c:116-130`) finds nothing new in a sequential model, so it is folded into the first scan.
- Disk I/O (`virtio_disk_rw`, `bwrite`), the e1000 MMIO registers and `e1000_init`'s register writes, `e1000_intr`, `printf` and `memset` junk fills: not part of this model.
- `holdingsleep` panics in `brelse`, `bwrite`, `bpin` and `bunpin`: the model has no sleep-locks; callers are assumed to hold them.
- User memory: `copyin`, `copyout` and `readi`/`writei` contents are parameters (success flags and the user's bytes), not modelled memory.
- E1000.Transmit: the ring stores buffer addresses and lengths, not frame bytes; the bytes are the frame `Net.Send` returns.
- Net.Send: when the transmit ring is full the source ignores the error and leaks the page; the model leaves the ring unchanged and does not track the leaked page.
- Net.Send: admission follows the corrected length check (`Net.SendAdmits`); the source's check is modelled separately as `SendAdmitsAsWritten`.
- Sockets.Recv: uses the corrected copy length `RecvCopyLen`; the source's computation is `RecvCopyLenAsWritten`.
- SysFile.Mmap: `PGROUNDUP(len)` and `p->sz + sz` are unbounded integers, so the 64-bit wrap-around of those sums for lengths near 2^64 is not modelled.
- SysFile.Munmap: uses the corrected bookkeeping `UnmapVma`, which requires the range to stay inside the mapping; the source's wrapping version is `UnmapVmaAsWritten`. Written-back bytes are reported as (offset, length) writes, not applied to a file model, and `uvmunmap` is the change to the mapped-page set.
- SysFile.Mmap: `filedup` (kernel/sysfile.c:591) is not modelled; the mapping records the file, but file reference counts are outside the model.
- SysFile.Munmap: `fileclose` (kernel/sysfile.c:694) is not modelled, since file reference counts are outside the model. The inode size read at kernel/sysfile.c:667 enters as the parameter `fileSize`, taken as unchanged across the write-back loop, where one writer holds the log.
- Net.ArpRx: like `sys_send`, `arp_rx` ignores the result of `e1000_transmit` (kernel/net.c:432); when the transmit ring is full the model leaves the ring unchanged and does not track the leaked reply page.
- SysFile.HandleMmapFault: the outcomes of `kalloc`, `readi` and `mappages` are boolean and address parameters; the page's contents are not modelled.
- Xargs.Xargs: `fork` and `exec` are assumed to succeed and `wait` to return; the child's failure paths and the program's output are not modelled. It requires fewer than MAXARG arguments, which the kernel's `exec` guarantees, so the appended line always has a slot in `child_argv`.
- BufCache.Inc and BufCache.Dec: reference counts are modelled modulo 2^32 like the source's `uint`; the model does not exclude underflow, just as the source does not.

## Findings

| source | as written | input that shows it | evidently intended | confidence | as-written member | corrected member |
|---|---|---|---|---|---|---|
| kernel/net.c:184-185 | the copy length is `min(maxlen, ntohs(udp->ulen) - 8)` with no lower bound and no check against the received length | a queued packet whose UDP length field is 0 gives -8; one whose field is 0xffff in a 42-byte frame gives a length past the frame | copy at most the payload bytes actually received, never a negative count | not executed | Sockets.RecvCopyLenAsWrittenOverruns | Sockets.RecvCopyLen |
| kernel/net.c:256-258 | `len + headers > PGSIZE` is the only check on the signed `int len` | len = -1 passes and becomes a copy of 2^64 - 1 bytes; len = 2^31 - 1 passes because the sum wraps negative | reject negative lengths and lengths whose frame exceeds a page | not executed | Net.SendGuardAsWrittenAdmitsBadLengths | Net.SendAdmitsAgrees |
| kernel/sysfile.c:692-704 | when the range starts at the mapping's start, `vma->len -= len` runs without checking `len <= vma->len` | a one-page mapping at 0x1000_0000 and munmap(0x1000_0000, 8192): the guard passes, the length becomes 2^64 - 4096 and the slot stays in use with its end wrapped below its start, so no later lookup finds it | reject ranges that run past the end of the mapping | not executed | SysFile.MunmapAsWrittenWraps | SysFile.UnmapVma |

=== FILE: BufCache.dfy ===
/** The hashed buffer cache of kernel/bio.c: NBUF buffers spread over
    NBUCKETS bucket lists, each bucket holding the buffers whose
    (dev, blockno) hash to it. A bucket list is the sequence of buffer ids
    from `head.next` to `head.prev`; the per-bucket and global spinlocks and
    the buffers' sleep locks are not modelled (the cache is taken to run
    one operation at a time), nor is the disk transfer of `bread`. */
module BufCache {
  import opened Bytes

  const NBUF: nat := 30
  const NBUCKETS: nat := 13

  type uint = x: int | 0 <= x < 0x1_0000_0000

  /** A buffer's bookkeeping: the block it caches, whether its data has
      been read, and its (unsigned) reference count. */
  datatype Buf = Buf(dev: uint, blockno: uint, valid: bool, refcnt: uint)

  datatype Cache = Cache(bufs: seq<Buf>, buckets: seq<seq<nat>>)

  /** `hash(dev, blockno)`: the unsigned sum reduced modulo NBUCKETS. */
  function Hash(dev: uint, blockno: uint): (h: nat)
    ensures h < NBUCKETS
    ensures dev + blockno < U32 ==> (dev + blockno - h) % NBUCKETS == 0
    ensures dev + blockno >= U32 ==> (dev + blockno - U32 - h) % NBUCKETS == 0
  {
    ((dev + blockno) % U32) % NBUCKETS
  }

  /** Unsigned increment and decrement of a reference count. */
  function Inc(x: uint): (r: uint)
    ensures (r - x - 1) % U32 == 0
  {
    (x + 1) % U32
  }

  function Dec(x: uint): (r: uint)
    ensures (r - x + 1) % U32 == 0
  {
    (x - 1) % U32
  }

  /** The bucket lists concatenated in bucket order. */
  ghost function AllIds(bks: seq<seq<nat>>): seq<nat>
  {
    if |bks| == 0 then [] else AllIds(bks[..|bks| - 1]) + bks[|bks| - 1]
  }

  /** The cache invariant: NBUF buffers and NBUCKETS buckets; every buffer
      id occurs in exactly one bucket, exactly once; and each buffer sits in
      the bucket its (dev, blockno) hashes to. */
  ghost predicate Wf(c: Cache) {
    && |c.bufs| == NBUF && |c.buckets| == NBUCKETS
    && multiset(AllIds(c.buckets)) == multiset(seq(NBUF, i => i))
    && forall b, k :: 0 <= b < |c.buckets| && 0 <= k < |c.buckets[b]| ==>
         c.buckets[b][k] < NBUF && Hash(c.bufs[c.buckets[b][k]].dev, c.bufs[c.buckets[b][k]].blockno) == b
  }

  /** `binit`: each buffer is pushed at the head of bucket 0 in index order,
      so bucket 0 lists them from the highest index down; all other buckets
      are empty, and every buffer is the zeroed static storage. */
  function Binit(): (c: Cache)
    ensures Wf(c)
    ensures |c.buckets[0]| == NBUF && forall b :: 1 <= b < NBUCKETS ==> c.buckets[b] == []
    ensures forall i :: 0 <= i < NBUF ==> c.bufs[i] == Buf(0, 0, false, 0)
  {
    BinitWf(InitBuckets());
    Cache(seq(NBUF, _ => Buf(0, 0, false, 0)), InitBuckets())
  }

  /** Bucket 0 holds every id from the highest down; the others are empty. */
  function InitBuckets(): (bks: seq<seq<nat>>)
    ensures |bks| == NBUCKETS && bks[0] == seq(NBUF, k => NBUF - 1 - k)
    ensures forall b :: 1 <= b < NBUCKETS ==> bks[b] == []
  {
    seq(NBUCKETS, b => if b == 0 then seq(NBUF, k => NBUF - 1 - k) else [])
  }

  lemma BinitWf(bks: seq<seq<nat>>)
    requires |bks| == NBUCKETS && bks[0] == seq(NBUF, k => NBUF - 1 - k)
    requires forall b :: 1 <= b < NBUCKETS ==> bks[b] == []
    ensures Wf(Cache(seq(NBUF, _ => Buf(0, 0, false, 0)), bks))
  {
    assert AllIds(bks) == bks[0] by {
      AllIdsEmptyTail(bks, NBUCKETS);
      assert bks[..NBUCKETS] == bks;
    }
    ReverseMultiset();
    var c := Cache(seq(NBUF, _ => Buf(0, 0, false, 0)), bks);
    forall b, k | 0 <= b < |c.buckets| && 0 <= k < |c.buckets[b]|
      ensures c.buckets[b][k] < NBUF && Hash(c.bufs[c.buckets[b][k]].dev, c.bufs[c.buckets[b][k]].blockno) == b
    {
      assert b == 0;
    }
  }

  lemma {:induction false} AllIdsEmptyTail(bks: seq<seq<nat>>, n: nat)
    requires 1 <= n <= |bks| && forall b :: 1 <= b < |bks| ==> bks[b] == []
    ensures AllIds(bks[..n]) == bks[0]
  {
    if n == 1 {
      assert bks[..1][..0] == [];
    } else {
      AllIdsEmptyTail(bks, n - 1);
      assert bks[..n][..n - 1] == bks[..n - 1];
    }
  }

  lemma ReverseMultiset()
    ensures multiset(seq(NBUF, k => NBUF - 1 - k)) == multiset(seq(NBUF, i => i))
  {
    var r := seq(NBUF, k => NBUF - 1 - k);
    var s := seq(NBUF, i => i);
    forall x: nat ensures multiset(r)[x] == multiset(s)[x] {
      if x < NBUF {
        assert r[NBUF - 1 - x] == x && s[x] == x;
        CountOnce(r, x);
        CountOnce(s, x);
      } else {
        assert x !in r && x !in s;
      }
    }
  }

  /** In a sequence without repetitions every element occurs once. */
  lemma {:induction false} CountOnce(s: seq<nat>, x: nat)
    requires forall i, j :: 0 <= i < j < |s| ==> s[i] != s[j]
    requires x in s
    ensures multiset(s)[x] == 1
    decreases |s|
  {
    var n := |s| - 1;
    assert s == s[..n] + [s[n]];
    if s[n] == x {
      assert x !in s[..n];
    } else {
      CountOnce(s[..n], x);
    }
  }

  /** Two distinct positions holding the same value make it occur twice. */
  lemma TwoPositions(s: seq<nat>, k1: nat, k2: nat)
    requires k1 < k2 < |s| && s[k1] == s[k2]
    ensures multiset(s)[s[k1]] >= 2
  {
    assert s == s[..k2] + [s[k2]] + s[k2 + 1..];
    assert s[k1] in s[..k2];
  }

  lemma {:induction false} InAllIds(bks: seq<seq<nat>>, b: nat, k: nat)
    requires b < |bks| && k < |bks[b]|
    ensures bks[b][k] in multiset(AllIds(bks))
    decreases |bks|
  {
    var n := |bks| - 1;
    if b < n {
      assert bks[..n][b] == bks[b];
      InAllIds(bks[..n], b, k);
    } else {
      assert bks[b][k] in bks[n];
    }
  }

  /** Some bucket holds every id of the concatenation. */
  lemma {:induction false} FromAllIds(bks: seq<seq<nat>>, x: nat) returns (b: nat, k: nat)
    requires x in multiset(AllIds(bks))
    ensures b < |bks| && k < |bks[b]| && bks[b][k] == x
    decreases |bks|
  {
    var n := |bks| - 1;
    if x in bks[n] {
      b := n;
      k :| 0 <= k < |bks[n]| && bks[n][k] == x;
    } else {
      b, k := FromAllIds(bks[..n], x);
      assert bks[..n][b] == bks[b];
    }
  }

  lemma {:induction false} AtMostOnce(bks: seq<seq<nat>>, b1: nat, k1: nat, b2: nat, k2: nat)
    requires b1 < |bks| && k1 < |bks[b1]| && b2 < |bks| && k2 < |bks[b2]|
    requires bks[b1][k1] == bks[b2][k2] && (b1 < b2 || (b1 == b2 && k1 < k2))
    ensures multiset(AllIds(bks))[bks[b1][k1]] >= 2
    decreases |bks|
  {
    var n := |bks| - 1;
    var x := bks[b1][k1];
    assert AllIds(bks) == AllIds(bks[..n]) + bks[n];
    if b2 < n {
      assert bks[..n][b1] == bks[b1] && bks[..n][b2] == bks[b2];
      AtMostOnce(bks[..n], b1, k1, b2, k2);
    } else if b1 < n {
      assert bks[..n][b1] == bks[b1];
      InAllIds(bks[..n], b1, k1);
      assert x in multiset(bks[n]);
    } else {
      TwoPositions(bks[n], k1, k2);
    }
  }

  /** Under the invariant a buffer id sits at exactly one position. */
  lemma OnePosition(c: Cache, b1: nat, k1: nat, b2: nat, k2: nat)
    requires Wf(c)
    requires b1 < NBUCKETS && k1 < |c.buckets[b1]| && b2 < NBUCKETS && k2 < |c.buckets[b2]|
    requires c.buckets[b1][k1] == c.buckets[b2][k2]
    ensures b1 == b2 && k1 == k2
  {
    var x := c.buckets[b1][k1];
    assert seq(NBUF, i => i)[x] == x;
    CountOnce(seq(NBUF, i => i), x);
    if b1 < b2 || (b1 == b2 && k1 < k2) {
      AtMostOnce(c.buckets, b1, k1, b2, k2);
    } else if b2 < b1 || (b1 == b2 && k2 < k1) {
      AtMostOnce(c.buckets, b2, k2, b1, k1);
    }
  }

  /** Under the invariant every buffer is in some bucket. */
  lemma SomePosition(c: Cache, x: nat) returns (b: nat, k: nat)
    requires Wf(c) && x < NBUF
    ensures b < NBUCKETS && k < |c.buckets[b]| && c.buckets[b][k] == x
  {
    assert seq(NBUF, i => i)[x] == x;
    b, k := FromAllIds(c.buckets, x);
  }

  /** Replacing one bucket changes the concatenation's multiset by exactly
      the two lists' difference. */
  lemma {:induction false} AllIdsUpdate(bks: seq<seq<nat>>, i: nat, s: seq<nat>)
    requires i < |bks|
    ensures multiset(AllIds(bks[i := s])) + multiset(bks[i]) == multiset(AllIds(bks)) + multiset(s)
    decreases |bks|
  {
    var n := |bks| - 1;
    var upd := bks[i := s];
    assert AllIds(bks) == AllIds(bks[..n]) + bks[n];
    assert AllIds(upd) == AllIds(upd[..n]) + upd[n];
    if i == n {
      assert upd[..n] == bks[..n];
    } else {
      assert upd[..n] == bks[..n][i := s];
      assert upd[n] == bks[n] && bks[..n][i] == bks[i];
      AllIdsUpdate(bks[..n], i, s);
      var a := multiset(AllIds(upd[..n]));
      var m := multiset(AllIds(bks[..n]));
      assert a + multiset(bks[i]) == m + multiset(s);
      assert multiset(AllIds(upd)) == a + multiset(bks[n]);
      assert multiset(AllIds(bks)) == m + multiset(bks[n]);
      AddBoth(a, multiset(bks[i]), m, multiset(s), multiset(bks[n]));
    }
  }

  lemma AddBoth(a: multiset<nat>, b: multiset<nat>, m: multiset<nat>, s: multiset<nat>, n: multiset<nat>)
    requires a + b == m + s
    ensures (a + n) + b == (m + n) + s
  {
    forall x ensures ((a + n) + b)[x] == ((m + n) + s)[x] {
      assert (a + b)[x] == (m + s)[x];
    }
  }

  predicate Caches(b: Buf, dev: uint, blockno: uint) {
    b.dev == dev && b.blockno == blockno
  }

  /** The bucket scan from `head.next`: the first position at or after
      `from` whose buffer caches (dev, blockno). */
  function FirstMatch(ids: seq<nat>, bufs: seq<Buf>, dev: uint, blockno: uint, from: nat): (r: Option<nat>)
    requires from <= |ids| && forall k :: 0 <= k < |ids| ==> ids[k] < |bufs|
    ensures r.Some? ==> from <= r.value < |ids| && Caches(bufs[ids[r.value]], dev, blockno)
                        && forall j :: from <= j < r.value ==> !Caches(bufs[ids[j]], dev, blockno)
    ensures r.None? ==> forall j :: from <= j < |ids| ==> !Caches(bufs[ids[j]], dev, blockno)
    decreases |ids| - from
  {
    if from == |ids| then None
    else if Caches(bufs[ids[from]], dev, blockno) then Some(from)
    else FirstMatch(ids, bufs, dev, blockno, from + 1)
  }

  /** The bucket scan from `head.prev`: the last position before `n` whose
      buffer is unreferenced. */
  function LastFree(ids: seq<nat>, bufs: seq<Buf>, n: nat): (r: Option<nat>)
    requires n <= |ids| && forall k :: 0 <= k < |ids| ==> ids[k] < |bufs|
    ensures r.Some? ==> r.value < n && bufs[ids[r.value]].refcnt == 0
                        && forall j :: r.value < j < n ==> bufs[ids[j]].refcnt != 0
    ensures r.None? ==> forall j :: 0 <= j < n ==> bufs[ids[j]].refcnt != 0
  {
    if n == 0 then None
    else if bufs[ids[n - 1]].refcnt == 0 then Some(n - 1)
    else LastFree(ids, bufs, n - 1)
  }

  /** The steal loop: the first bucket from `b` on, other than `h`, holding
      an unreferenced buffer, with that buffer's position in it. */
  function StealScan(c: Cache, h: nat, b: nat): (r: Option<(nat, nat)>)
    requires Wf(c) && b <= NBUCKETS
    ensures r.Some? ==>
              var (o, k) := r.value;
              && b <= o < NBUCKETS && o != h && k < |c.buckets[o]|
              && LastFree(c.buckets[o], c.bufs, |c.buckets[o]|) == Some(k)
              && forall o2, j :: b <= o2 < o && o2 != h && 0 <= j < |c.buckets[o2]| ==>
                   c.bufs[c.buckets[o2][j]].refcnt != 0
    ensures r.None? ==>
              forall o2, j :: b <= o2 < NBUCKETS && o2 != h && 0 <= j < |c.buckets[o2]| ==>
                c.bufs[c.buckets[o2][j]].refcnt != 0
    decreases NBUCKETS - b
  {
    if b == NBUCKETS then None
    else if b == h then StealScan(c, h, b + 1)
    else match LastFree(c.buckets[b], c.bufs, |c.buckets[b]|)
      case Some(k) => Some((b, k))
      case None => StealScan(c, h, b + 1)
  }

  function Remove(s: seq<nat>, k: nat): (r: seq<nat>)
    requires k < |s|
    ensures |r| == |s| - 1
    ensures s == r[..k] + [s[k]] + r[k..]
  {
    s[..k] + s[k + 1..]
  }

  datatype GetResult = GetPanic | Got(cache: Cache, id: nat)

  /** `bget(dev, blockno)`: a hit in the block's bucket takes another
      reference; otherwise an unreferenced buffer is recycled, from the
      block's own bucket first (scanning from its tail) and else from the
      first other bucket that has one, which is unlinked there and pushed at
      the head of the block's bucket; with no unreferenced buffer anywhere
      the kernel panics. */
  function BGet(c: Cache, dev: uint, blockno: uint): (r: GetResult)
    requires Wf(c)
    ensures r.Got? ==>
              && Wf(r.cache) && r.id < NBUF
              && Caches(r.cache.bufs[r.id], dev, blockno)
              && r.id in r.cache.buckets[Hash(dev, blockno)]
              && forall j :: 0 <= j < NBUF && j != r.id ==> r.cache.bufs[j] == c.bufs[j]
  {
    var h := Hash(dev, blockno);
    var ids := c.buckets[h];
    match FirstMatch(ids, c.bufs, dev, blockno, 0)
    case Some(k) =>
      var id := ids[k];
      var c' := c.(bufs := c.bufs[id := c.bufs[id].(refcnt := Inc(c.bufs[id].refcnt))]);
      KeepsWf(c, c', id, h, k);
      Got(c', id)
    case None =>
      match LastFree(ids, c.bufs, |ids|)
      case Some(k) =>
        var id := ids[k];
        var c' := c.(bufs := c.bufs[id := Buf(dev, blockno, false, 1)]);
        KeepsWf(c, c', id, h, k);
        Got(c', id)
      case None =>
        match StealScan(c, h, 0)
        case None => GetPanic
        case Some((o, k)) =>
          var id := c.buckets[o][k];
          var c' := Cache(c.bufs[id := Buf(dev, blockno, false, 1)],
                          c.buckets[o := Remove(c.buckets[o], k)][h := [id] + c.buckets[h]]);
          StealKeepsWf(c, dev, blockno, o, k);
          Got(c', id)
  }

  /** Changing one buffer's record, keeping it in its bucket, keeps the
      invariant when the record still hashes to that bucket. */
  lemma KeepsWf(c: Cache, c': Cache, id: nat, h: nat, k: nat)
    requires Wf(c) && h < NBUCKETS && k < |c.buckets[h]| && c.buckets[h][k] == id
    requires c'.buckets == c.buckets && |c'.bufs| == NBUF
    requires forall j :: 0 <= j < NBUF && j != id ==> c'.bufs[j] == c.bufs[j]
    requires Hash(c'.bufs[id].dev, c'.bufs[id].blockno) == h
    ensures Wf(c')
    ensures id in c'.buckets[h]
  {
    forall b, j | 0 <= b < NBUCKETS && 0 <= j < |c.buckets[b]|
      ensures Hash(c'.bufs[c.buckets[b][j]].dev, c'.bufs[c.buckets[b][j]].blockno) == b
    {
      if c.buckets[b][j] == id {
        OnePosition(c, b, j, h, k);
      }
    }
  }

  lemma StealKeepsWf(c: Cache, dev: uint, blockno: uint, o: nat, k: nat)
    requires Wf(c) && o < NBUCKETS && o != Hash(dev, blockno) && k < |c.buckets[o]|
    ensures var h := Hash(dev, blockno);
            var id := c.buckets[o][k];
            var c' := Cache(c.bufs[id := Buf(dev, blockno, false, 1)],
                            c.buckets[o := Remove(c.buckets[o], k)][h := [id] + c.buckets[h]]);
            Wf(c') && id in c'.buckets[h]
  {
    var h := Hash(dev, blockno);
    var id := c.buckets[o][k];
    var bks2 := c.buckets[o := Remove(c.buckets[o], k)][h := [id] + c.buckets[h]];
    var bufs2 := c.bufs[id := Buf(dev, blockno, false, 1)];
    StealKeepsIds(c.buckets, o, k, h);
    StealPlacement(c, dev, blockno, o, k);
    var c' := Cache(bufs2, bks2);
    assert |c'.bufs| == NBUF && |c'.buckets| == NBUCKETS;
    assert multiset(AllIds(c'.buckets)) == multiset(seq(NBUF, i => i));
    assert bks2[h][0] == id;
  }

  /** After a steal every buffer still sits in the bucket it hashes to. */
  lemma StealPlacement(c: Cache, dev: uint, blockno: uint, o: nat, k: nat)
    requires Wf(c) && o < NBUCKETS && o != Hash(dev, blockno) && k < |c.buckets[o]|
    ensures var h := Hash(dev, blockno);
            var id := c.buckets[o][k];
            var bks2 := c.buckets[o := Remove(c.buckets[o], k)][h := [id] + c.buckets[h]];
            var bufs2 := c.bufs[id := Buf(dev, blockno, false, 1)];
            forall b, j :: 0 <= b < |bks2| && 0 <= j < |bks2[b]| ==>
              bks2[b][j] < NBUF && Hash(bufs2[bks2[b][j]].dev, bufs2[bks2[b][j]].blockno) == b
  {
    var h := Hash(dev, blockno);
    var id := c.buckets[o][k];
    var bks2 := c.buckets[o := Remove(c.buckets[o], k)][h := [id] + c.buckets[h]];
    var bufs2 := c.bufs[id := Buf(dev, blockno, false, 1)];
    forall b, j | 0 <= b < |bks2| && 0 <= j < |bks2[b]|
      ensures bks2[b][j] < NBUF && Hash(bufs2[bks2[b][j]].dev, bufs2[bks2[b][j]].blockno) == b
    {
      var b0, j0 := StealOrigin(c.buckets, o, k, h, b, j);
      if b0 == o && j0 == k {
      } else {
        assert bks2[b][j] == c.buckets[b0][j0];
        if c.buckets[b0][j0] == id {
          OnePosition(c, b0, j0, o, k);
        }
      }
    }
  }

  /** Unlinking a buffer from one bucket and pushing it on another keeps the
      multiset of all ids. */
  lemma StealKeepsIds(bks: seq<seq<nat>>, o: nat, k: nat, h: nat)
    requires o < |bks| && h < |bks| && o != h && k < |bks[o]|
    ensures var id := bks[o][k];
            multiset(AllIds(bks[o := Remove(bks[o], k)][h := [id] + bks[h]])) == multiset(AllIds(bks))
  {
    var id := bks[o][k];
    var rem := Remove(bks[o], k);
    var bks1 := bks[o := rem];
    var bks2 := bks1[h := [id] + bks[h]];
    var m0 := multiset(AllIds(bks));
    var m1 := multiset(AllIds(bks1));
    var m2 := multiset(AllIds(bks2));
    AllIdsUpdate(bks, o, rem);
    assert m1 + multiset(bks[o]) == m0 + multiset(rem);
    assert bks1[h] == bks[h];
    AllIdsUpdate(bks1, h, [id] + bks[h]);
    assert m2 + multiset(bks[h]) == m1 + multiset([id] + bks[h]);
    assert multiset([id] + bks[h]) == multiset{id} + multiset(bks[h]);
    assert multiset(bks[o]) == multiset(rem) + multiset{id} by {
      assert bks[o] == rem[..k] + [id] + rem[k..];
      assert rem == rem[..k] + rem[k..];
    }
    forall x ensures m2[x] == m0[x] {
      assert (m2 + multiset(bks[h]))[x] == (m1 + multiset([id] + bks[h]))[x];
      assert (m1 + multiset(bks[o]))[x] == (m0 + multiset(rem))[x];
    }
  }

  /** Where a position of the relinked buckets came from: the stolen buffer
      itself, or an unchanged position of the old buckets. */
  lemma StealOrigin(bks: seq<seq<nat>>, o: nat, k: nat, h: nat, b: nat, j: nat) returns (b0: nat, j0: nat)
    requires o < |bks| && h < |bks| && o != h && k < |bks[o]|
    requires b < |bks| && j < |bks[o := Remove(bks[o], k)][h := [bks[o][k]] + bks[h]][b]|
    ensures b0 < |bks| && j0 < |bks[b0]|
    ensures bks[o := Remove(bks[o], k)][h := [bks[o][k]] + bks[h]][b][j] == bks[b0][j0]
    ensures b0 == o && j0 == k <==> (b == h && j == 0)
  {
    var bks2 := bks[o := Remove(bks[o], k)][h := [bks[o][k]] + bks[h]];
    if b == h {
      if j == 0 {
        b0, j0 := o, k;
      } else {
        b0, j0 := h, j - 1;
      }
    } else if b == o {
      b0, j0 := o, if j < k then j else j + 1;
    } else {
      b0, j0 := b, j;
    }
  }

  /** A hit: when some buffer already caches the block, `bget` returns the
      first such buffer of the block's bucket with one more reference,
      relinking nothing and keeping its data. */
  lemma BGetHit(c: Cache, dev: uint, blockno: uint, i: nat)
    requires Wf(c) && i < NBUF && Caches(c.bufs[i], dev, blockno)
    ensures var r := BGet(c, dev, blockno);
            && r.Got? && r.cache.buckets == c.buckets && Caches(c.bufs[r.id], dev, blockno)
            && r.cache.bufs[r.id] == c.bufs[r.id].(refcnt := Inc(c.bufs[r.id].refcnt))
            && exists k :: 0 <= k < |c.buckets[Hash(dev, blockno)]| && c.buckets[Hash(dev, blockno)][k] == r.id
                           && forall j :: 0 <= j < k ==> !Caches(c.bufs[c.buckets[Hash(dev, blockno)][j]], dev, blockno)
  {
    var b, k := SomePosition(c, i);
    assert FirstMatch(c.buckets[Hash(dev, blockno)], c.bufs, dev, blockno, 0).Some?;
  }

  /** Position `k` of `ids` is the last unreferenced buffer: the scan from
      the tail stops there. */
  ghost predicate TailmostFree(ids: seq<nat>, bufs: seq<Buf>, k: nat)
    requires forall j :: 0 <= j < |ids| ==> ids[j] < |bufs|
  {
    k < |ids| && bufs[ids[k]].refcnt == 0 && forall j :: k < j < |ids| ==> bufs[ids[j]].refcnt != 0
  }

  /** Bucket `o` is the lowest-numbered bucket other than `h` that holds an
      unreferenced buffer. */
  ghost predicate FirstStealable(c: Cache, h: nat, o: nat)
    requires Wf(c)
  {
    && o < NBUCKETS && o != h && (exists k :: 0 <= k < |c.buckets[o]| && c.bufs[c.buckets[o][k]].refcnt == 0)
    && forall o2, j :: 0 <= o2 < o && o2 != h && 0 <= j < |c.buckets[o2]| ==> c.bufs[c.buckets[o2][j]].refcnt != 0
  }

  /** A miss: when no buffer caches the block, the buffer `bget` returns was
      unreferenced and now holds the block, unread, with one reference. If
      the block's own bucket has an unreferenced buffer, it is the last one
      in that bucket and nothing is relinked; otherwise it is the last
      unreferenced buffer of the lowest-numbered other bucket that has one,
      unlinked there and pushed at the head of the block's bucket. */
  lemma BGetMiss(c: Cache, dev: uint, blockno: uint)
    requires Wf(c) && forall i :: 0 <= i < NBUF ==> !Caches(c.bufs[i], dev, blockno)
    ensures var r := BGet(c, dev, blockno);
            var h := Hash(dev, blockno);
            && (r.Got? ==> c.bufs[r.id].refcnt == 0 && r.cache.bufs[r.id] == Buf(dev, blockno, false, 1))
            && ((exists k :: 0 <= k < |c.buckets[h]| && c.bufs[c.buckets[h][k]].refcnt == 0) ==>
                  && r.Got? && r.cache.buckets == c.buckets
                  && exists k: nat :: TailmostFree(c.buckets[h], c.bufs, k) && c.buckets[h][k] == r.id)
            && (r.Got? && r.id !in c.buckets[h] ==>
                  exists o: nat, k: nat :: && FirstStealable(c, h, o) && TailmostFree(c.buckets[o], c.bufs, k)
                                 && c.buckets[o][k] == r.id
                                 && r.cache.buckets == c.buckets[o := Remove(c.buckets[o], k)][h := [r.id] + c.buckets[h]])
  {
    var h := Hash(dev, blockno);
    var ids := c.buckets[h];
    assert FirstMatch(ids, c.bufs, dev, blockno, 0).None?;
    match LastFree(ids, c.bufs, |ids|)
    case Some(k) =>
      assert TailmostFree(ids, c.bufs, k);
    case None =>
      match StealScan(c, h, 0)
      case None =>
      case Some((o, k)) =>
        assert TailmostFree(c.buckets[o], c.bufs, k);
        assert c.bufs[c.buckets[o][k]].refcnt == 0;
        assert FirstStealable(c, h, o);
  }

  /** `bget` panics exactly when no buffer caches the block and every
      buffer is referenced. */
  lemma BGetPanics(c: Cache, dev: uint, blockno: uint)
    requires Wf(c)
    ensures BGet(c, dev, blockno).GetPanic? <==>
              (forall i :: 0 <= i < NBUF ==> !Caches(c.bufs[i], dev, blockno) && c.bufs[i].refcnt != 0)
  {
    var h := Hash(dev, blockno);
    var ids := c.buckets[h];
    if BGet(c, dev, blockno).GetPanic? {
      assert FirstMatch(ids, c.bufs, dev, blockno, 0).None?;
      assert LastFree(ids, c.bufs, |ids|).None?;
      assert StealScan(c, h, 0).None?;
      forall i | 0 <= i < NBUF ensures !Caches(c.bufs[i], dev, blockno) && c.bufs[i].refcnt != 0 {
        var b, k := SomePosition(c, i);
      }
    }
  }

  datatype ReadResult = ReadPanic | ReadOk(cache: Cache, id: nat, diskRead: bool)

  /** `bread(dev, blockno)`: `bget`, then a disk read (not modelled beyond
      the flag `diskRead`) when the buffer's data is not valid; the buffer
      returned is always valid. */
  function BRead(c: Cache, dev: uint, blockno: uint): (r: ReadResult)
    requires Wf(c)
    ensures r.ReadPanic? <==> BGet(c, dev, blockno).GetPanic?
    ensures r.ReadOk? ==>
              && Wf(r.cache) && r.id < NBUF && r.cache.bufs[r.id].valid
              && Caches(r.cache.bufs[r.id], dev, blockno)
              && r.id == BGet(c, dev, blockno).id
              && (r.diskRead <==> !BGet(c, dev, blockno).cache.bufs[r.id].valid)
              && r.cache.buckets == BGet(c, dev, blockno).cache.buckets
              && forall j :: 0 <= j < NBUF && j != r.id ==> r.cache.bufs[j] == c.bufs[j]
  {
    match BGet(c, dev, blockno)
    case GetPanic => ReadPanic
    case Got(c1, id) =>
      var c2 := c1.(bufs := c1.bufs[id := c1.bufs[id].(valid := true)]);
      SameBlockKeepsWf(c1, c2, id);
      ReadOk(c2, id, !c1.bufs[id].valid)
  }

  /** `id` is the buffer the hit scan of the block's bucket finds first. */
  ghost predicate FirstCacher(c: Cache, dev: uint, blockno: uint, id: nat)
    requires Wf(c)
  {
    var ids := c.buckets[Hash(dev, blockno)];
    exists k :: 0 <= k < |ids| && ids[k] == id && Caches(c.bufs[id], dev, blockno)
                && forall j :: 0 <= j < k ==> !Caches(c.bufs[ids[j]], dev, blockno)
  }

  /** Whatever path `bget` takes, the buffer it returns is the one a later
      lookup of the same block finds first. */
  lemma GetIsFirst(c: Cache, dev: uint, blockno: uint)
    requires Wf(c) && BGet(c, dev, blockno).Got?
    ensures FirstCacher(BGet(c, dev, blockno).cache, dev, blockno, BGet(c, dev, blockno).id)
  {
    var r := BGet(c, dev, blockno);
    var h := Hash(dev, blockno);
    var ids := c.buckets[h];
    match FirstMatch(ids, c.bufs, dev, blockno, 0)
    case Some(k) =>
      assert r.cache.buckets[h][k] == r.id;
      assert forall j :: 0 <= j < k ==> Caches(r.cache.bufs[ids[j]], dev, blockno) == Caches(c.bufs[ids[j]], dev, blockno);
    case None =>
      match LastFree(ids, c.bufs, |ids|)
      case Some(k) =>
        forall j | 0 <= j < k ensures !Caches(r.cache.bufs[ids[j]], dev, blockno) {
          if ids[j] == r.id {
            OnePosition(c, h, j, h, k);
          }
        }
        assert r.cache.buckets[h][k] == r.id;
      case None =>
        assert r.cache.buckets[h][0] == r.id;
  }

  /** Reading a block a second time, with no release in between, finds the
      same buffer, now valid, so the disk is not read again. */
  lemma BReadTwiceReadsOnce(c: Cache, dev: uint, blockno: uint)
    requires Wf(c) && BRead(c, dev, blockno).ReadOk?
    ensures var r1 := BRead(c, dev, blockno);
            var r2 := BRead(r1.cache, dev, blockno);
            r2.ReadOk? && r2.id == r1.id && !r2.diskRead
  {
    var r1 := BRead(c, dev, blockno);
    var g1 := BGet(c, dev, blockno);
    var h := Hash(dev, blockno);
    GetIsFirst(c, dev, blockno);
    var k :| 0 <= k < |g1.cache.buckets[h]| && g1.cache.buckets[h][k] == g1.id
             && Caches(g1.cache.bufs[g1.id], dev, blockno)
             && forall j :: 0 <= j < k ==> !Caches(g1.cache.bufs[g1.cache.buckets[h][j]], dev, blockno);
    assert forall j :: 0 <= j < k ==> !Caches(r1.cache.bufs[r1.cache.buckets[h][j]], dev, blockno);
    var m := FirstMatch(r1.cache.buckets[h], r1.cache.bufs, dev, blockno, 0);
    assert m == Some(k);
  }

  /** Changing one buffer's reference count, the operation behind `brelse`,
      `bpin` and `bunpin`. */
  function SetRef(c: Cache, id: nat, n: uint): (c': Cache)
    requires Wf(c) && id < NBUF
    ensures Wf(c')
    ensures c'.buckets == c.buckets && c'.bufs[id].refcnt == n
    ensures Caches(c'.bufs[id], c.bufs[id].dev, c.bufs[id].blockno) && c'.bufs[id].valid == c.bufs[id].valid
    ensures forall j :: 0 <= j < NBUF && j != id ==> c'.bufs[j] == c.bufs[j]
  {
    var c' := c.(bufs := c.bufs[id := c.bufs[id].(refcnt := n)]);
    SameBlockKeepsWf(c, c', id);
    c'
  }

  /** Changing a buffer's flags or count but not its block keeps the
      invariant. */
  lemma SameBlockKeepsWf(c: Cache, c': Cache, id: nat)
    requires Wf(c) && id < NBUF && c'.buckets == c.buckets && |c'.bufs| == NBUF
    requires forall j :: 0 <= j < NBUF && j != id ==> c'.bufs[j] == c.bufs[j]
    requires Caches(c'.bufs[id], c.bufs[id].dev, c.bufs[id].blockno)
    ensures Wf(c')
  {
    var b, k := SomePosition(c, id);
    KeepsWf(c, c', id, b, k);
  }

  /** `brelse(b)`: drops one reference (unsigned). */
  function BRelse(c: Cache, id: nat): (c': Cache)
    requires Wf(c) && id < NBUF
    ensures Wf(c') && c'.buckets == c.buckets
    ensures (c'.bufs[id].refcnt - c.bufs[id].refcnt + 1) % U32 == 0
    ensures forall j :: 0 <= j < NBUF && j != id ==> c'.bufs[j] == c.bufs[j]
  {
    SetRef(c, id, Dec(c.bufs[id].refcnt))
  }

  /** `bpin(b)`: takes one reference (unsigned). */
  function BPin(c: Cache, id: nat): (c': Cache)
    requires Wf(c) && id < NBUF
    ensures Wf(c') && c'.buckets == c.buckets
    ensures (c'.bufs[id].refcnt - c.bufs[id].refcnt - 1) % U32 == 0
    ensures forall j :: 0 <= j < NBUF && j != id ==> c'.bufs[j] == c.bufs[j]
  {
    SetRef(c, id, Inc(c.bufs[id].refcnt))
  }

  /** `bunpin(b)`: drops one reference, exactly as `brelse` does. */
  function BUnpin(c: Cache, id: nat): (c': Cache)
    requires Wf(c) && id < NBUF
    ensures Wf(c') && c' == BRelse(c, id)
  {
    SetRef(c, id, Dec(c.bufs[id].refcnt))
  }

  /** Pinning then unpinning a buffer restores the cache exactly. */
  lemma PinUnpin(c: Cache, id: nat)
    requires Wf(c) && id < NBUF
    ensures BUnpin(BPin(c, id), id) == c
  {
    var c1 := BPin(c, id);
    var c2 := BUnpin(c1, id);
    assert c2.bufs[id] == c.bufs[id];
    assert c2.bufs == c.bufs;
  }

  /** Releasing the buffer a hit returned gives back the cache `bget`
      started from. */
  lemma HitThenRelease(c: Cache, dev: uint, blockno: uint, i: nat)
    requires Wf(c) && i < NBUF && Caches(c.bufs[i], dev, blockno)
    ensures var r := BGet(c, dev, blockno);
            r.Got? && BRelse(r.cache, r.id) == c
  {
    BGetHit(c, dev, blockno, i);
    var r := BGet(c, dev, blockno);
    var c2 := BRelse(r.cache, r.id);
    assert c2.bufs[r.id] == c.bufs[r.id];
    assert c2.bufs == c.bufs;
  }
}

=== FILE: Bytes.dfy ===
/** Bytes, optional values and the network-order (big-endian) integer
    encodings that the kernel's htons/htonl/ntohs/ntohl perform. Frames are
    modelled as byte sequences rather than struct overlays. */
module Bytes {

  type byte = x: int | 0 <= x < 256

  datatype Option<T> = None | Some(value: T)

  const U16: int := 0x1_0000
  const U32: int := 0x1_0000_0000
  const U64: int := 0x1_0000_0000_0000_0000

  /** A C `int` converted to `uint16`: the value modulo 2^16. */
  function Trunc16(x: int): (r: nat)
    ensures r < U16
    ensures 0 <= x < U16 ==> r == x
    ensures (r - x) % U16 == 0
  {
    x % U16
  }

  /** A C `int` converted to `uint32`: the value modulo 2^32. */
  function Trunc32(x: int): (r: nat)
    ensures r < U32
    ensures 0 <= x < U32 ==> r == x
    ensures (r - x) % U32 == 0
  {
    x % U32
  }

  /** htons: the low 16 bits of `x`, most significant byte first. */
  function Be16(x: int): (r: seq<byte>)
    ensures |r| == 2
  {
    var v := x % U16;
    [v / 256, v % 256]
  }

  /** htonl: the low 32 bits of `x`, most significant byte first. */
  function Be32(x: int): (r: seq<byte>)
    ensures |r| == 4
  {
    var v := x % U32;
    [v / 0x100_0000, (v / 0x1_0000) % 256, (v / 256) % 256, v % 256]
  }

  /** ntohs of the two bytes at `off`. */
  function Get16(s: seq<byte>, off: nat): (r: nat)
    requires off + 2 <= |s|
    ensures r < U16
  {
    (s[off] as int) * 256 + s[off + 1]
  }

  /** ntohl of the four bytes at `off`. */
  function Get32(s: seq<byte>, off: nat): (r: nat)
    requires off + 4 <= |s|
    ensures r < U32
  {
    (s[off] as int) * 0x100_0000 + (s[off + 1] as int) * 0x1_0000 + (s[off + 2] as int) * 256 + s[off + 3]
  }

  /** ntohs(htons(x)) recovers the 16-bit value. */
  lemma Be16RoundTrip(x: int)
    ensures Get16(Be16(x), 0) == x % U16
  {
  }

  /** ntohl(htonl(x)) recovers the 32-bit value. */
  lemma Be32RoundTrip(x: int)
    ensures Get32(Be32(x), 0) == x % U32
  {
    var v := x % U32;
    var q1, b3 := v / 256, v % 256;
    var q2, b2 := q1 / 256, q1 % 256;
    var b0, b1 := q2 / 256, q2 % 256;
    DivTwice(v);
    DivThrice(v);
    assert v == b0 * 0x100_0000 + b1 * 0x1_0000 + b2 * 256 + b3;
  }

  /** Shifting right by 8 twice is shifting right by 16. */
  lemma DivTwice(x: nat)
    ensures x / 256 / 256 == x / 0x1_0000
  {
    var q, r := x / 0x1_0000, x % 0x1_0000;
    assert x / 256 == q * 256 + r / 256;
  }

  /** Shifting right by 8 three times is shifting right by 24. */
  lemma DivThrice(x: nat)
    ensures x / 256 / 256 / 256 == x / 0x100_0000
  {
    var q, r := x / 0x100_0000, x % 0x100_0000;
    assert x / 256 == q * 0x1_0000 + r / 256;
    DivTwice(x / 256);
    assert x / 256 / 0x1_0000 == q;
  }

  /** Encoding is injective on 16-bit values: decoding an encoding at any
      offset of a larger sequence reads back the value. */
  lemma Get16At(pre: seq<byte>, x: int, post: seq<byte>)
    ensures Get16(pre + Be16(x) + post, |pre|) == x % U16
  {
    var s := pre + Be16(x) + post;
    assert s[|pre|] == Be16(x)[0] && s[|pre| + 1] == Be16(x)[1];
    Be16RoundTrip(x);
  }

  lemma Get32At(pre: seq<byte>, x: int, post: seq<byte>)
    ensures Get32(pre + Be32(x) + post, |pre|) == x % U32
  {
    var s := pre + Be32(x) + post;
    assert s[|pre|..|pre| + 4] == Be32(x);
    assert s[|pre|] == Be32(x)[0] && s[|pre| + 1] == Be32(x)[1];
    assert s[|pre| + 2] == Be32(x)[2] && s[|pre| + 3] == Be32(x)[3];
    Be32RoundTrip(x);
  }
}

=== FILE: Checksum.dfy ===
/** The Internet checksum of kernel/net.c (`in_cksum`): the one's-complement
    sum of 16-bit words (RFC 1071, section 1), with an odd trailing byte padded
    by zero, a 32-bit accumulator, end-around-carry folding and a final
    complement truncated to 16 bits.

    The kernel runs on a little-endian machine and loads each pair of bytes as
    a little-endian word; section 2(B) of RFC 1071 (byte-order independence)
    is why the bytes it stores are nevertheless the network-order checksum.
    Both facts are proved below. */
module Checksum {
  import opened Bytes

  /** Sum of the buffer as a little-endian CPU loads it: word k is
      s[2k] + 256 * s[2k+1]; a trailing odd byte is the low byte of a word
      whose high byte is zero. Unbounded (no accumulator wrap). */
  function WordSumLE(s: seq<byte>): nat
    decreases |s|
  {
    if |s| == 0 then 0
    else if |s| == 1 then s[0]
    else s[0] + 256 * (s[1] as int) + WordSumLE(s[2..])
  }

  /** The RFC 1071 sum over network-order (big-endian) words: word k is
      256 * s[2k] + s[2k+1]; a trailing odd byte is padded on the right. */
  function WordSumBE(s: seq<byte>): nat
    decreases |s|
  {
    if |s| == 0 then 0
    else if |s| == 1 then 256 * (s[0] as int)
    else 256 * (s[0] as int) + s[1] + WordSumBE(s[2..])
  }

  /** The end-around-carry reduction of a sum: the representative of the sum
      modulo 0xffff in 1..0xffff, or 0 for a zero sum (one's-complement
      addition never produces negative zero from non-zero words). */
  function OnesFold(sum: nat): (r: nat)
    ensures r <= 0xffff
    ensures r % 0xffff == sum % 0xffff
    ensures r == 0 <==> sum == 0
  {
    if sum == 0 then 0 else (sum - 1) % 0xffff + 1
  }

  /** The two carry-folding statements of `in_cksum` on a 32-bit accumulator,
      followed by truncation to 16 bits, compute the end-around-carry
      reduction. */
  lemma CarryFold(sum: nat)
    requires sum < 0x1_0000_0000
    ensures var s1 := sum % 0x1_0000 + sum / 0x1_0000;
            var s2 := s1 + s1 / 0x1_0000;
            s2 % 0x1_0000 == OnesFold(sum)
  {
    var s1 := sum % 0x1_0000 + sum / 0x1_0000;
    var s2 := s1 + s1 / 0x1_0000;
    assert sum == s1 + 0xffff * (sum / 0x1_0000);
    ModMul(s1, sum / 0x1_0000);
    var r := s2 % 0x1_0000;
    assert s1 < 0x1_0000 ==> r == s1;
    assert s1 >= 0x1_0000 ==> r == s1 - 0xffff;
    ModMul(s1 - 0xffff, 1);
    assert r % 0xffff == sum % 0xffff;
    assert r <= 0xffff;
    assert r == 0 <==> sum == 0;
    Representative(r, OnesFold(sum));
  }

  /** Two values in 1..0xffff that agree modulo 0xffff are equal. */
  lemma Representative(a: int, b: int)
    requires 0 <= a <= 0xffff && 0 <= b <= 0xffff
    requires a % 0xffff == b % 0xffff
    requires a == 0 <==> b == 0
    ensures a == b
  {
  }

  /** `~sum` truncated to 16 bits. */
  function Complement16(x: nat): (r: nat)
    requires x <= 0xffff
    ensures r <= 0xffff && r + x == 0xffff
  {
    0xffff - x
  }

  /** What `in_cksum` returns for `data`: the accumulator wraps modulo 2^32. */
  function InCksumValue(data: seq<byte>): (r: nat)
    ensures r <= 0xffff
  {
    Complement16(OnesFold(WordSumLE(data) % 0x1_0000_0000))
  }

  /** The RFC 1071 checksum computed over big-endian words (no wrap: the
      caller guarantees the sum fits). */
  function RfcChecksum(data: seq<byte>): (r: nat)
    requires WordSumBE(data) < 0x1_0000_0000
    ensures r <= 0xffff
  {
    Complement16(OnesFold(WordSumBE(data)))
  }

  /** The bytes in memory after storing a 16-bit value through an
      `unsigned short` on a little-endian machine. */
  function StoreLE16(x: nat): (r: seq<byte>)
    requires x <= 0xffff
    ensures |r| == 2 && r[0] + 256 * (r[1] as int) == x
  {
    [x % 256, x / 256]
  }

  /** The accumulator loop of `in_cksum`, with the 32-bit wrap of
      `unsigned int sum` written out. */
  method InCksum(data: seq<byte>) returns (answer: nat)
    ensures answer == InCksumValue(data)
    ensures |data| <= 0x2_0000 ==> WordSumLE(data) < 0x1_0000_0000 && answer == Complement16(OnesFold(WordSumLE(data)))
  {
    var nleft := |data|;
    var i := 0;
    var sum := 0;
    while nleft > 1
      invariant 0 <= i <= |data| && nleft == |data| - i
      invariant 0 <= sum < 0x1_0000_0000
      invariant (sum + WordSumLE(data[i..])) % 0x1_0000_0000 == WordSumLE(data) % 0x1_0000_0000
    {
      var w := (data[i] as int) + 256 * (data[i + 1] as int);
      SumStep(data, i, sum);
      sum := (sum + w) % 0x1_0000_0000;
      i := i + 2;
      nleft := nleft - 2;
    }
    SumLast(data, i, sum);
    if nleft == 1 {
      sum := (sum + data[i]) % 0x1_0000_0000;
    }
    var s1 := sum % 0x1_0000 + sum / 0x1_0000;
    var s2 := s1 + s1 / 0x1_0000;
    answer := 0xffff - s2 % 0x1_0000;
    CarryFold(sum);
    if |data| <= 0x2_0000 {
      NoWrap(data);
    }
  }

  /** One iteration of the accumulator loop keeps the running sum congruent
      to the whole buffer's sum modulo 2^32. */
  lemma SumStep(data: seq<byte>, i: nat, sum: int)
    requires i + 2 <= |data|
    requires (sum + WordSumLE(data[i..])) % 0x1_0000_0000 == WordSumLE(data) % 0x1_0000_0000
    ensures var w := (data[i] as int) + 256 * (data[i + 1] as int);
            ((sum + w) % 0x1_0000_0000 + WordSumLE(data[i + 2..])) % 0x1_0000_0000
            == WordSumLE(data) % 0x1_0000_0000
  {
    var w := (data[i] as int) + 256 * (data[i + 1] as int);
    assert data[i..][2..] == data[i + 2..];
    assert WordSumLE(data[i..]) == w + WordSumLE(data[i + 2..]);
    ModAdd32(sum + w, WordSumLE(data[i + 2..]));
  }

  /** The odd byte (if any) completes the sum. */
  lemma SumLast(data: seq<byte>, i: nat, sum: int)
    requires i <= |data| && |data| - i <= 1 && 0 <= sum < 0x1_0000_0000
    requires (sum + WordSumLE(data[i..])) % 0x1_0000_0000 == WordSumLE(data) % 0x1_0000_0000
    ensures |data| - i == 1 ==> (sum + data[i]) % 0x1_0000_0000 == WordSumLE(data) % 0x1_0000_0000
    ensures |data| - i == 0 ==> sum == WordSumLE(data) % 0x1_0000_0000
  {
    if |data| - i == 1 {
      assert WordSumLE(data[i..]) == data[i];
    } else {
      assert data[i..] == [];
    }
  }

  /** For buffers up to 128 KiB the 32-bit accumulator does not wrap. */
  lemma NoWrap(data: seq<byte>)
    requires |data| <= 0x2_0000
    ensures WordSumLE(data) < 0x1_0000_0000
  {
    WordSumLEBound(data);
    var k := (|data| + 1) / 2;
    assert k <= 0x1_0000;
    assert WordSumLE(data) <= 0xffff * k;
  }

  lemma SmallMod32(x: int)
    requires 0 <= x < 0x1_0000_0000
    ensures x % 0x1_0000_0000 == x
  {
  }

  lemma ModAdd32(a: int, b: int)
    ensures (a % 0x1_0000_0000 + b) % 0x1_0000_0000 == (a + b) % 0x1_0000_0000
  {
  }

  lemma ModMul(a: int, q: int)
    ensures (a + q * 0xffff) % 0xffff == a % 0xffff
  {
  }

  /** The sum of |s| bytes as words stays below 65536 * ceil(|s|/2), so the
      32-bit accumulator never wraps for buffers up to 128 KiB. */
  lemma {:induction false} WordSumLEBound(s: seq<byte>)
    ensures WordSumLE(s) <= 0xffff * ((|s| + 1) / 2)
  {
    if |s| >= 2 {
      WordSumLEBound(s[2..]);
    }
  }

  lemma {:induction false} WordSumBEBound(s: seq<byte>)
    ensures WordSumBE(s) <= 0xffff * ((|s| + 1) / 2)
  {
    if |s| >= 2 {
      WordSumBEBound(s[2..]);
    }
  }

  /** Writing a word into a zeroed, word-aligned field adds exactly that word
      to the little-endian sum. */
  lemma {:induction false} WordSumLEFill(s: seq<byte>, k: nat, lo: byte, hi: byte)
    requires k % 2 == 0 && k + 2 <= |s|
    requires s[k] == 0 && s[k + 1] == 0
    ensures WordSumLE(s[k := lo][k + 1 := hi]) == WordSumLE(s) + lo + 256 * (hi as int)
  {
    var t := s[k := lo][k + 1 := hi];
    if k == 0 {
      assert t[2..] == s[2..];
    } else {
      assert t[2..] == s[2..][k - 2 := lo][k - 1 := hi];
      WordSumLEFill(s[2..], k - 2, lo, hi);
    }
  }

  /** A header whose checksum field holds the value `in_cksum` computed over
      it with the field zeroed re-checksums to 0 (the receiver's check). */
  lemma ChecksumVerifies(h: seq<byte>, k: nat)
    requires |h| <= 0x2_0000
    requires k % 2 == 0 && k + 2 <= |h| && h[k] == 0 && h[k + 1] == 0
    ensures var c := InCksumValue(h);
            InCksumValue(h[k := StoreLE16(c)[0]][k + 1 := StoreLE16(c)[1]]) == 0
  {
    var c := InCksumValue(h);
    var st := StoreLE16(c);
    var h' := h[k := st[0]][k + 1 := st[1]];
    var sum := WordSumLE(h);
    assert sum <= 0xffff_0000 && c == Complement16(OnesFold(sum)) by {
      NoWrap(h);
      WordSumLEBound(h);
    }
    assert WordSumLE(h') == sum + c by {
      WordSumLEFill(h, k, st[0], st[1]);
    }
    var t := sum + Complement16(OnesFold(sum));
    assert t < 0x1_0000_0000 && OnesFold(t) == 0xffff by {
      AddingComplementFolds(sum);
    }
    assert WordSumLE(h') % 0x1_0000_0000 == t;
    assert InCksumValue(h') == Complement16(OnesFold(t));
  }

  /** Adding the complemented fold of a sum to that sum gives a sum that
      folds to 0xffff (negative zero), whose complement is 0. */
  lemma AddingComplementFolds(s: nat)
    requires s <= 0xffff_0000
    ensures s + Complement16(OnesFold(s)) < 0x1_0000_0000
    ensures OnesFold(s + Complement16(OnesFold(s))) == 0xffff
  {
    var f := OnesFold(s);
    var t := s + (0xffff - f);
    assert f % 0xffff == s % 0xffff;
    ModAdd(f, s, 0xffff - f);
    ModMul(0, 1);
    assert t % 0xffff == 0;
    assert t > 0;
    var g := OnesFold(t);
    assert g % 0xffff == 0 && g != 0 && g <= 0xffff;
  }

  /** Each big-endian word is 256 times the little-endian word, modulo
      0xffff (RFC 1071, section 2(B)). */
  lemma {:induction false} SwapCongruence(s: seq<byte>)
    ensures WordSumBE(s) % 0xffff == (256 * WordSumLE(s)) % 0xffff
  {
    if |s| >= 2 {
      SwapCongruence(s[2..]);
      var a: int := s[0];
      var b: int := s[1];
      var le := WordSumLE(s[2..]);
      var be := WordSumBE(s[2..]);
      assert 256 * (a + 256 * b + le) == 256 * a + b + 256 * le + b * 0xffff;
      ModMul(256 * a + b + 256 * le, b);
      ModAdd(be, 256 * le, 256 * a + b);
    }
  }

  lemma ModAdd(x: int, y: int, c: int)
    requires x % 0xffff == y % 0xffff
    ensures (x + c) % 0xffff == (y + c) % 0xffff
  {
    ModMul(c + x % 0xffff, x / 0xffff);
    ModMul(c + y % 0xffff, y / 0xffff);
  }

  /** The byte swap of a 16-bit value. */
  function Swap16(x: nat): (r: nat)
    requires x <= 0xffff
    ensures r <= 0xffff
    ensures r % 0xffff == (256 * x) % 0xffff
    ensures r == 0 <==> x == 0
  {
    assert 256 * x == 256 * (x % 256) + 0xffff * (x / 256) + x / 256;
    (x % 256) * 256 + x / 256
  }

  lemma {:induction false} SumsZeroTogether(s: seq<byte>)
    ensures WordSumLE(s) == 0 <==> WordSumBE(s) == 0
  {
    if |s| >= 2 {
      SumsZeroTogether(s[2..]);
    }
  }

  /** Byte-order independence: the two bytes `in_cksum` stores (a
      little-endian value) are exactly the network-order encoding of the
      RFC 1071 checksum taken over big-endian words. */
  lemma ByteOrderIndependent(data: seq<byte>)
    requires |data| <= 0x2_0000
    ensures WordSumBE(data) < 0x1_0000_0000
    ensures StoreLE16(InCksumValue(data)) == Be16(RfcChecksum(data))
  {
    NoWrap(data);
    assert WordSumBE(data) < 0x1_0000_0000 by {
      WordSumBEBound(data);
    }
    var le := WordSumLE(data);
    var be := WordSumBE(data);
    assert be % 0xffff == (256 * le) % 0xffff && (le == 0 <==> be == 0) by {
      SwapCongruence(data);
      SumsZeroTogether(data);
    }
    var f := OnesFold(le);
    assert InCksumValue(data) == Complement16(f) by {
      SmallMod32(le);
    }
    assert RfcChecksum(data) == Complement16(Swap16(f)) by {
      SwapFold(le, be);
    }
    ComplementSwap(f);
  }

  /** The reduction of the big-endian sum is the byte swap of the reduction
      of the little-endian sum. */
  lemma SwapFold(le: nat, be: nat)
    requires be % 0xffff == (256 * le) % 0xffff
    requires le == 0 <==> be == 0
    ensures OnesFold(be) == Swap16(OnesFold(le))
  {
    var fl := OnesFold(le);
    var fb := OnesFold(be);
    var sw := Swap16(fl);
    assert (256 * fl) % 0xffff == (256 * le) % 0xffff by {
      ScaleCongruence(fl, le);
    }
    Representative(fb, sw);
  }

  /** Storing the complement of x little-endian writes the same two bytes as
      storing the complement of the swapped x big-endian. */
  lemma ComplementSwap(x: nat)
    requires x <= 0xffff
    ensures StoreLE16(Complement16(x)) == Be16(Complement16(Swap16(x)))
  {
    var h, l := x / 256, x % 256;
    var c := 0xffff - x;
    assert c == 256 * (255 - h) + (255 - l);
    assert c % 256 == 255 - l && c / 256 == 255 - h;
    assert Swap16(x) == 256 * l + h;
    var cb := 0xffff - Swap16(x);
    assert cb == 256 * (255 - l) + (255 - h);
    assert cb / 256 == 255 - l && cb % 256 == 255 - h;
  }

  lemma ScaleCongruence(a: int, b: int)
    requires a % 0xffff == b % 0xffff
    ensures (256 * a) % 0xffff == (256 * b) % 0xffff
  {
    ModMul(256 * (a % 0xffff), 256 * (a / 0xffff));
    ModMul(256 * (b % 0xffff), 256 * (b / 0xffff));
  }
}

=== FILE: E1000.dfy ===
/** The E1000 descriptor rings of kernel/e1000.c (Intel 8254x developer's
    manual, sections 14.4 and 14.5): a transmit and a receive ring of 16
    descriptors, each with a shadow array of the buffers the driver owns.

    Buffers are abstract page ids; 0 is the null pointer (the page allocator
    never hands out page 0). The tail registers TDT and RDT are the only
    device registers kept. The device itself appears only as the step
    `DeviceSetsDone`, which may set the DD bit of any descriptor. */
module E1000 {
  import opened Bytes

  const TX_RING_SIZE: nat := 16
  const RX_RING_SIZE: nat := 16

  /** Descriptor status / command bits (DD is bit 0 of the status byte;
      EOP and RS are bits 0 and 3 of the command byte). */
  const STAT_DD: nat := 0x01
  const TXD_CMD_EOP: nat := 0x01
  const TXD_CMD_RS: nat := 0x08

  datatype TxDesc = TxDesc(addr: nat, length: nat, cmd: nat, status: nat)
  datatype RxDesc = RxDesc(addr: nat, length: nat, status: nat)

  /** `tx_ring`, `tx_bufs` and the TDT register. */
  datatype TxRing = TxRing(desc: seq<TxDesc>, bufs: seq<nat>, tdt: nat)

  /** `rx_ring`, `rx_bufs` and the RDT register. */
  datatype RxRing = RxRing(desc: seq<RxDesc>, bufs: seq<nat>, rdt: nat)

  /** `(status & DD) != 0` */
  predicate Done(status: nat) {
    status % 2 == 1
  }

  ghost predicate TxWf(r: TxRing) {
    |r.desc| == TX_RING_SIZE && |r.bufs| == TX_RING_SIZE && r.tdt < TX_RING_SIZE
  }

  /** Every receive slot owns a non-null buffer whose address is in its
      descriptor: the driver keeps RX_RING_SIZE buffers outstanding. */
  ghost predicate RxWf(r: RxRing) {
    && |r.desc| == RX_RING_SIZE && |r.bufs| == RX_RING_SIZE && r.rdt < RX_RING_SIZE
    && forall i :: 0 <= i < RX_RING_SIZE ==> r.bufs[i] != 0 && r.desc[i].addr == r.bufs[i]
  }

  /** Transmit-ring initialisation: every descriptor zeroed with DD set,
      every shadow pointer null, TDT = 0. */
  function TxInit(): (r: TxRing)
    ensures TxWf(r) && r.tdt == 0
    ensures forall i :: 0 <= i < TX_RING_SIZE ==> Done(r.desc[i].status) && r.bufs[i] == 0
  {
    TxRing(seq(TX_RING_SIZE, _ => TxDesc(0, 0, 0, STAT_DD)), seq(TX_RING_SIZE, _ => 0), 0)
  }

  /** Receive-ring initialisation. `pages[i]` is what the i-th `kalloc`
      returned (0 on failure); a failure panics (None). */
  function RxInit(pages: seq<nat>): (r: Option<RxRing>)
    requires |pages| == RX_RING_SIZE
    ensures r.None? <==> exists i :: 0 <= i < RX_RING_SIZE && pages[i] == 0
    ensures r.Some? ==> RxWf(r.value) && r.value.rdt == RX_RING_SIZE - 1
                        && r.value.bufs == pages
                        && forall i :: 0 <= i < RX_RING_SIZE ==> !Done(r.value.desc[i].status)
  {
    if exists i :: 0 <= i < RX_RING_SIZE && pages[i] == 0 then None
    else Some(RxRing(seq(RX_RING_SIZE, i requires 0 <= i < RX_RING_SIZE => RxDesc(pages[i], 0, 0)),
                     pages, RX_RING_SIZE - 1))
  }

  datatype TxResult = TxFull | TxQueued(ring: TxRing, freed: Option<nat>)

  /** `e1000_transmit`'s return value. */
  function TxRet(t: TxResult): int {
    if t.TxFull? then -1 else 0
  }

  /** `e1000_transmit(buf, len)`: fails when the descriptor at TDT is still
      owned by the device; otherwise releases that slot's previous buffer,
      installs the new one and advances TDT. */
  function Transmit(r: TxRing, buf: nat, len: int): (t: TxResult)
    requires TxWf(r)
    ensures t.TxFull? <==> !Done(r.desc[r.tdt].status)
    ensures t.TxQueued? ==>
      && TxWf(t.ring)
      && t.ring.tdt == (r.tdt + 1) % TX_RING_SIZE
      && t.ring.desc[r.tdt] == TxDesc(buf, Trunc16(len), TXD_CMD_EOP + TXD_CMD_RS, 0)
      && !Done(t.ring.desc[r.tdt].status)
      && t.ring.bufs[r.tdt] == buf
      && (t.freed.Some? <==> r.bufs[r.tdt] != 0)
      && (t.freed.Some? ==> t.freed.value == r.bufs[r.tdt])
      && forall i :: 0 <= i < TX_RING_SIZE && i != r.tdt ==>
           t.ring.desc[i] == r.desc[i] && t.ring.bufs[i] == r.bufs[i]
  {
    var tdt := r.tdt;
    if !Done(r.desc[tdt].status) then TxFull
    else
      var freed := if r.bufs[tdt] != 0 then Some(r.bufs[tdt]) else None;
      var d := TxDesc(buf, Trunc16(len), TXD_CMD_EOP + TXD_CMD_RS, 0);
      TxQueued(TxRing(r.desc[tdt := d], r.bufs[tdt := buf], (tdt + 1) % TX_RING_SIZE), freed)
  }

  /** The device finishes with transmit descriptor i (sets DD). */
  function DeviceSetsDone(r: TxRing, i: nat): (r': TxRing)
    requires TxWf(r) && i < TX_RING_SIZE
    ensures TxWf(r') && Done(r'.desc[i].status) && r'.bufs == r.bufs && r'.tdt == r.tdt
  {
    r.(desc := r.desc[i := r.desc[i].(status := STAT_DD)])
  }

  /** A sequence of transmits with no device completions in between; returns
      the final ring and each call's return value. */
  function TransmitMany(r: TxRing, reqs: seq<(nat, int)>): (res: (TxRing, seq<int>))
    requires TxWf(r)
    ensures TxWf(res.0) && |res.1| == |reqs|
    decreases |reqs|
  {
    if |reqs| == 0 then (r, [])
    else
      var (r1, rets) := TransmitMany(r, reqs[..|reqs| - 1]);
      var t := Transmit(r1, reqs[|reqs| - 1].0, reqs[|reqs| - 1].1);
      (if t.TxQueued? then t.ring else r1, rets + [TxRet(t)])
  }

  /** The ring position j slots after `tdt`. */
  function TxSlot(tdt: nat, j: nat): (i: nat)
    ensures i < TX_RING_SIZE
  {
    (tdt + j) % TX_RING_SIZE
  }

  /** After k <= 16 successful transmits with no completions, the k slots
      starting at the old TDT are all owned by the device and TDT moved on
      by k. */
  lemma {:induction false} TransmitManyClears(r: TxRing, reqs: seq<(nat, int)>)
    requires TxWf(r) && |reqs| <= TX_RING_SIZE
    requires forall j :: 0 <= j < |reqs| ==> TransmitMany(r, reqs).1[j] == 0
    ensures var r' := TransmitMany(r, reqs).0;
            && r'.tdt == TxSlot(r.tdt, |reqs|)
            && forall j :: 0 <= j < |reqs| ==> !Done(r'.desc[TxSlot(r.tdt, j)].status)
  {
    if |reqs| > 0 {
      var n := |reqs|;
      var pre := reqs[..n - 1];
      var res1 := TransmitMany(r, pre);
      var r1 := res1.0;
      var t := Transmit(r1, reqs[n - 1].0, reqs[n - 1].1);
      assert TransmitMany(r, reqs) == (if t.TxQueued? then t.ring else r1, res1.1 + [TxRet(t)]);
      forall j | 0 <= j < |pre|
        ensures res1.1[j] == 0
      {
        assert TransmitMany(r, reqs).1[j] == res1.1[j];
      }
      TransmitManyClears(r, pre);
      assert TxRet(t) == TransmitMany(r, reqs).1[n - 1] == 0;
      assert t.TxQueued?;
      var r' := t.ring;
      assert r1.tdt == TxSlot(r.tdt, n - 1);
      assert r'.tdt == TxSlot(r.tdt, n) by {
        assert r'.tdt == (r1.tdt + 1) % TX_RING_SIZE;
        SuccMod16(r.tdt + n - 1);
      }
      forall j | 0 <= j < n
        ensures !Done(r'.desc[TxSlot(r.tdt, j)].status)
      {
        if j < n - 1 {
          assert TxSlot(r.tdt, j) != r1.tdt;
          assert r'.desc[TxSlot(r.tdt, j)] == r1.desc[TxSlot(r.tdt, j)];
        }
      }
    }
  }

  lemma SuccMod16(a: nat)
    ensures (a % 16 + 1) % 16 == (a + 1) % 16
  {
  }

  /** Ring saturation: with no device completions, sixteen successful
      transmits leave every descriptor owned by the device, so the
      seventeenth fails. */
  lemma SeventeenthTransmitFails(r: TxRing, reqs: seq<(nat, int)>, buf: nat, len: int)
    requires TxWf(r) && |reqs| == TX_RING_SIZE
    requires forall j :: 0 <= j < |reqs| ==> TransmitMany(r, reqs).1[j] == 0
    ensures forall i :: 0 <= i < TX_RING_SIZE ==> !Done(TransmitMany(r, reqs).0.desc[i].status)
    ensures Transmit(TransmitMany(r, reqs).0, buf, len).TxFull?
  {
    TransmitManyClears(r, reqs);
    var r' := TransmitMany(r, reqs).0;
    forall i | 0 <= i < TX_RING_SIZE
      ensures !Done(r'.desc[i].status)
    {
      var j := if i >= r.tdt then i - r.tdt else i + TX_RING_SIZE - r.tdt;
      assert TxSlot(r.tdt, j) == i;
    }
  }

  datatype RxOutcome =
    | RxPanic
    | Drained(ring: RxRing, frames: seq<(nat, nat)>)

  /** The ring position of the j-th slot after `rdt`. */
  function SlotAfter(rdt: nat, j: nat): (i: nat)
    ensures i < RX_RING_SIZE
  {
    (rdt + 1 + j) % RX_RING_SIZE
  }

  /** The k-th kalloc of a receive call fails. */
  predicate AllocFails(allocs: seq<nat>, k: nat) {
    k >= |allocs| || allocs[k] == 0
  }

  /** The receive loop reaches slot `k` after RDT with every slot up to it
      done, every earlier allocation succeeded, and the k-th fails. */
  predicate PanicsAt(r: RxRing, allocs: seq<nat>, k: nat) {
    && |r.desc| == RX_RING_SIZE
    && (forall j :: 0 <= j <= k ==> Done(r.desc[SlotAfter(r.rdt, j)].status))
    && (forall j :: 0 <= j < k ==> !AllocFails(allocs, j))
    && AllocFails(allocs, k)
  }

  /** `e1000_recv`: starting after RDT, hand every slot whose DD bit is set
      to the network stack (buffer and length, in ring order), restock it
      with a fresh buffer, clear its status and make it the new RDT; stop at
      the first slot whose DD bit is clear. `allocs[k]` is the page the k-th
      `kalloc` in this call returns (0, or running out, is a failed
      allocation, which panics). */
  method Recv(r: RxRing, allocs: seq<nat>) returns (out: RxOutcome)
    requires RxWf(r)
    ensures out.Drained? ==>
      var k := |out.frames|;
      && RxWf(out.ring)
      && k <= RX_RING_SIZE
      && out.ring.rdt == (r.rdt + k) % RX_RING_SIZE
      && (forall j :: 0 <= j < k ==>
            && Done(r.desc[SlotAfter(r.rdt, j)].status)
            && out.frames[j] == (r.bufs[SlotAfter(r.rdt, j)], r.desc[SlotAfter(r.rdt, j)].length)
            && j < |allocs| && out.ring.bufs[SlotAfter(r.rdt, j)] == allocs[j]
            && out.ring.desc[SlotAfter(r.rdt, j)].status == 0)
      && (k < RX_RING_SIZE ==> !Done(r.desc[SlotAfter(r.rdt, k)].status))
      && forall i :: 0 <= i < RX_RING_SIZE && (forall j :: 0 <= j < k ==> SlotAfter(r.rdt, j) != i) ==>
           out.ring.desc[i] == r.desc[i] && out.ring.bufs[i] == r.bufs[i]
    ensures out.RxPanic? <==> exists k :: 0 <= k < RX_RING_SIZE && PanicsAt(r, allocs, k)
  {
    var ring := r;
    var frames: seq<(nat, nat)> := [];
    var k := 0;
    while true
      invariant RxWf(ring)
      invariant k <= RX_RING_SIZE && |frames| == k
      invariant ring.rdt == (r.rdt + k) % RX_RING_SIZE
      invariant forall j :: 0 <= j < k ==>
                  && Done(r.desc[SlotAfter(r.rdt, j)].status)
                  && frames[j] == (r.bufs[SlotAfter(r.rdt, j)], r.desc[SlotAfter(r.rdt, j)].length)
                  && j < |allocs| && ring.bufs[SlotAfter(r.rdt, j)] == allocs[j]
                  && ring.desc[SlotAfter(r.rdt, j)].status == 0
      invariant forall i :: 0 <= i < RX_RING_SIZE && (forall j :: 0 <= j < k ==> SlotAfter(r.rdt, j) != i) ==>
                  ring.desc[i] == r.desc[i] && ring.bufs[i] == r.bufs[i]
      invariant forall j :: 0 <= j < k ==> !AllocFails(allocs, j)
      decreases RX_RING_SIZE - k
    {
      var next := (ring.rdt + 1) % RX_RING_SIZE;
      assert next == SlotAfter(r.rdt, k);
      SlotWraps(r.rdt);
      if !Done(ring.desc[next].status) {
        if k < RX_RING_SIZE {
          NotYetVisited(r.rdt, k, next);
        }
        break;
      }
      NotYetVisited(r.rdt, k, next);
      var buf := ring.bufs[next];
      var len := ring.desc[next].length;
      if k >= |allocs| || allocs[k] == 0 {
        assert k < RX_RING_SIZE && PanicsAt(r, allocs, k);
        return RxPanic;
      }
      var page := allocs[k];
      ring := RxRing(ring.desc[next := ring.desc[next].(addr := page, status := 0)],
                     ring.bufs[next := page], next);
      frames := frames + [(buf, len)];
      k := k + 1;
    }
    DrainedNoPanic(r, allocs, k);
    out := Drained(ring, frames);
    assert out.frames == frames && out.ring == ring;
  }

  /** A loop that stopped at slot `k` after `k` successful allocations
      cannot have panicked at any slot. */
  lemma DrainedNoPanic(r: RxRing, allocs: seq<nat>, k: nat)
    requires k <= RX_RING_SIZE && |r.desc| == RX_RING_SIZE
    requires forall j :: 0 <= j < k ==> !AllocFails(allocs, j)
    requires k < RX_RING_SIZE ==> !Done(r.desc[SlotAfter(r.rdt, k)].status)
    ensures forall k' :: 0 <= k' < RX_RING_SIZE ==> !PanicsAt(r, allocs, k')
  {
    forall k' | 0 <= k' < RX_RING_SIZE ensures !PanicsAt(r, allocs, k') {
      if k' >= k {
        assert !Done(r.desc[SlotAfter(r.rdt, k)].status);
      }
    }
  }

  /** Sixteen slots on, the ring is back where it started. */
  lemma SlotWraps(rdt: nat)
    ensures SlotAfter(rdt, RX_RING_SIZE) == SlotAfter(rdt, 0)
  {
  }

  /** Slots visited so far are distinct from the next one. */
  lemma NotYetVisited(rdt: nat, k: nat, next: nat)
    requires k < RX_RING_SIZE && next == SlotAfter(rdt, k)
    ensures forall j :: 0 <= j < k ==> SlotAfter(rdt, j) != next
  {
  }
}

=== FILE: Kalloc.dfy ===
/** The physical page allocator of kernel/kalloc.c: a LIFO free list of
    4096-byte pages between the end of the kernel image and PHYSTOP, and,
    in the page-table lab configuration, a counted LIFO list of 2 MiB
    superpages set aside at boot. Free lists are sequences of physical
    addresses, head first; the junk fills and the spinlocks are not
    modelled, and `end` (the first address after the kernel) is a
    parameter. */
module Kalloc {
  import opened Bytes

  const PGSIZE: nat := 4096
  const SUPERPGSIZE: nat := 0x20_0000
  const NSUPERPAGES: nat := 8
  const KERNBASE: nat := 0x8000_0000
  const PHYSTOP: nat := 0x8800_0000

  datatype Kmem = Kmem(free: seq<nat>)
  datatype SuperKmem = SuperKmem(free: seq<nat>, count: int)

  /** PGROUNDUP: the least multiple of PGSIZE at or above `a`. */
  function PgRoundUp(a: nat): (r: nat)
    ensures r % PGSIZE == 0 && a <= r < a + PGSIZE
  {
    ((a + PGSIZE - 1) / PGSIZE) * PGSIZE
  }

  /** SUPERPGROUNDUP: the least multiple of SUPERPGSIZE at or above `a`. */
  function SuperRoundUp(a: nat): (r: nat)
    ensures r % SUPERPGSIZE == 0 && a <= r < a + SUPERPGSIZE
  {
    ((a + SUPERPGSIZE - 1) / SUPERPGSIZE) * SUPERPGSIZE
  }

  /** The address `kfree` accepts: page-aligned, not inside the kernel
      image, below PHYSTOP. */
  predicate FreeOk(kend: nat, pa: nat) {
    pa % PGSIZE == 0 && pa >= kend && pa < PHYSTOP
  }

  /** `kfree(pa)`: panics (None) on a bad address, else pushes the page. */
  function KFree(k: Kmem, kend: nat, pa: nat): (r: Option<Kmem>)
    ensures r.None? <==> !FreeOk(kend, pa)
    ensures r.Some? ==> r.value.free == [pa] + k.free
  {
    if pa % PGSIZE != 0 || pa < kend || pa >= PHYSTOP then None
    else Some(Kmem([pa] + k.free))
  }

  /** `kalloc()`: pops the head page, or returns 0 with nothing changed
      when the list is empty. */
  function KAlloc(k: Kmem): (r: (Kmem, nat))
    ensures r.1 == 0 <==> k.free == [] || k.free[0] == 0
    ensures k.free == [] ==> r.0 == k
    ensures k.free != [] ==> [r.1] + r.0.free == k.free
  {
    if k.free == [] then (k, 0) else (Kmem(k.free[1..]), k.free[0])
  }

  /** Freeing a page and allocating returns that page and the list as it
      was: the allocator is last in, first out. */
  lemma FreeThenAlloc(k: Kmem, kend: nat, pa: nat)
    requires FreeOk(kend, pa)
    ensures KFree(k, kend, pa).Some? && KAlloc(KFree(k, kend, pa).value) == (k, pa)
  {
  }

  /** Every page an allocator whose pages were all accepted by `kfree`
      hands out is non-zero, so 0 means exactly "out of memory". */
  lemma AllocZeroIffEmpty(k: Kmem, kend: nat)
    requires forall i :: 0 <= i < |k.free| ==> FreeOk(kend, k.free[i]) && k.free[i] >= KERNBASE
    ensures KAlloc(k).1 == 0 <==> k.free == []
  {
  }

  /** The pages from `b - PGSIZE` down to `a`: the order in which a loop
      pushing `a, a + PGSIZE, ..., b - PGSIZE` leaves them on a LIFO list. */
  function Desc(a: nat, b: nat): (r: seq<nat>)
    requires a <= b && (b - a) % PGSIZE == 0
    ensures |r| == (b - a) / PGSIZE
    decreases b - a
  {
    if a == b then [] else [b - PGSIZE] + Desc(a, b - PGSIZE)
  }

  /** Membership in `Desc`: exactly the addresses a + i*PGSIZE below `b`. */
  lemma {:induction false} DescMembers(a: nat, b: nat, x: nat)
    requires a <= b && (b - a) % PGSIZE == 0
    ensures x in Desc(a, b) <==> a <= x < b && (x - a) % PGSIZE == 0
    decreases b - a
  {
    if a != b {
      DescMembers(a, b - PGSIZE, x);
      if a <= x < b && (x - a) % PGSIZE == 0 && x != b - PGSIZE {
        ModGap(x - a, b - a);
      }
    }
  }

  /** Strictly decreasing addresses: in particular no address twice. */
  predicate Descending(s: seq<nat>) {
    forall i, j :: 0 <= i < j < |s| ==> s[i] > s[j]
  }

  /** The pages `Desc` lists come out highest first, each once. */
  lemma {:induction false} DescDescending(a: nat, b: nat)
    requires a <= b && (b - a) % PGSIZE == 0
    ensures Descending(Desc(a, b))
    decreases b - a
  {
    if a != b {
      var t := Desc(a, b - PGSIZE);
      DescDescending(a, b - PGSIZE);
      forall j | 0 <= j < |t| ensures t[j] < b - PGSIZE {
        DescMembers(a, b - PGSIZE, t[j]);
      }
    }
  }

  /** Two descending lists, every element of the first above every element
      of the second, concatenate to a descending list. */
  lemma DescendingConcat(s: seq<nat>, t: seq<nat>, bound: nat)
    requires Descending(s) && Descending(t)
    requires forall x :: x in s ==> x >= bound
    requires forall y :: y in t ==> y < bound
    ensures Descending(s + t)
  {
    var u := s + t;
    forall i, j | 0 <= i < j < |u| ensures u[i] > u[j] {
      if j < |s| {
        assert u[i] == s[i] && u[j] == s[j];
      } else if i < |s| {
        assert u[i] == s[i] && s[i] in s;
        assert u[j] == t[j - |s|] && t[j - |s|] in t;
      } else {
        assert u[i] == t[i - |s|] && u[j] == t[j - |s|];
      }
    }
  }

  /** Two different multiples of PGSIZE are at least PGSIZE apart. */
  lemma ModGap(u: nat, v: nat)
    requires u < v && u % PGSIZE == 0 && v % PGSIZE == 0
    ensures u + PGSIZE <= v
  {
  }

  /** A whole page of the range [start, stop): aligned, at or above
      PGROUNDUP(start), and ending by `stop`. */
  predicate InRange(start: nat, stop: nat, p: nat) {
    p % PGSIZE == 0 && PgRoundUp(start) <= p && p + PGSIZE <= stop
  }

  /** `freerange(start, stop)`: frees every whole page of the range in
      ascending order; the first page `kfree` rejects panics. */
  method FreeRange(k: Kmem, kend: nat, start: nat, stop: nat) returns (r: Option<Kmem>)
    ensures r.None? <==> exists p :: InRange(start, stop, p) && !FreeOk(kend, p)
    ensures r.Some? ==>
              && |r.value.free| >= |k.free| && r.value.free[|r.value.free| - |k.free|..] == k.free
              && (forall x: nat :: x in r.value.free[..|r.value.free| - |k.free|] <==> InRange(start, stop, x))
              && Descending(r.value.free[..|r.value.free| - |k.free|])
  {
    var a := PgRoundUp(start);
    var p := a;
    var cur := k;
    while p + PGSIZE <= stop
      invariant a <= p && (p - a) % PGSIZE == 0 && p % PGSIZE == 0
      invariant p <= stop || p == a
      invariant cur.free == Desc(a, p) + k.free
      invariant forall q: nat :: InRange(start, stop, q) && q < p ==> FreeOk(kend, q)
      decreases stop - p
    {
      var next := KFree(cur, kend, p);
      if next.None? {
        assert InRange(start, stop, p);
        return None;
      }
      cur := next.value;
      p := p + PGSIZE;
    }
    DescIsRange(start, stop, p);
    DescDescending(a, p);
    assert cur.free[..|cur.free| - |k.free|] == Desc(a, p);
    assert cur.free[|cur.free| - |k.free|..] == k.free;
    return Some(cur);
  }

  /** When the loop stops at `p`, the pages it pushed are exactly the whole
      pages of the range. */
  lemma DescIsRange(start: nat, stop: nat, p: nat)
    requires PgRoundUp(start) <= p && (p - PgRoundUp(start)) % PGSIZE == 0 && p % PGSIZE == 0
    requires p + PGSIZE > stop && (p <= stop || p == PgRoundUp(start))
    ensures forall x: nat :: x in Desc(PgRoundUp(start), p) <==> InRange(start, stop, x)
  {
    var a := PgRoundUp(start);
    forall x: nat ensures x in Desc(a, p) <==> InRange(start, stop, x) {
      DescMembers(a, p, x);
      if x in Desc(a, p) {
        AlignedStep(a, x);
      }
    }
  }

  lemma AlignedStep(a: nat, x: nat)
    requires a % PGSIZE == 0 && a <= x && (x - a) % PGSIZE == 0
    ensures x % PGSIZE == 0
  {
  }

  /** The superpage list's counter matches its length. */
  predicate SuperWf(s: SuperKmem) {
    s.count == |s.free|
  }

  /** `superalloc()`: pops the head superpage and decrements the count, or
      returns 0 with nothing changed when the list is empty. */
  function SuperAlloc(s: SuperKmem): (r: (SuperKmem, nat))
    ensures SuperWf(s) ==> SuperWf(r.0)
    ensures s.free == [] ==> r == (s, 0)
    ensures s.free != [] ==> [r.1] + r.0.free == s.free && r.0.count == s.count - 1
  {
    if s.free == [] then (s, 0) else (SuperKmem(s.free[1..], s.count - 1), s.free[0])
  }

  /** The address `superfree` accepts: 2 MiB-aligned, not inside the
      kernel image, below PHYSTOP. */
  predicate SuperFreeOk(kend: nat, pa: nat) {
    pa % SUPERPGSIZE == 0 && pa >= kend && pa < PHYSTOP
  }

  /** `superfree(pa)`: panics (None) on a bad address, else pushes the
      superpage and increments the count. */
  function SuperFree(s: SuperKmem, kend: nat, pa: nat): (r: Option<SuperKmem>)
    ensures r.None? <==> !SuperFreeOk(kend, pa)
    ensures r.Some? ==> SuperWf(r.value) == SuperWf(s)
    ensures r.Some? ==> r.value.free == [pa] + s.free && r.value.count == s.count + 1
  {
    if pa % SUPERPGSIZE != 0 || pa < kend || pa >= PHYSTOP then None
    else Some(SuperKmem([pa] + s.free, s.count + 1))
  }

  /** Freeing a superpage and allocating one returns it and the allocator
      as it was. */
  lemma SuperFreeThenAlloc(s: SuperKmem, kend: nat, pa: nat)
    requires SuperFreeOk(kend, pa)
    ensures SuperFree(s, kend, pa).Some? && SuperAlloc(SuperFree(s, kend, pa).value) == (s, pa)
  {
  }

  /** A sequence of superpage operations, each an allocation or a free. */
  datatype SuperOp = SAlloc | SFree(pa: nat)

  /** Runs superpage operations; None once a free panics. */
  function SuperRun(s: SuperKmem, kend: nat, ops: seq<SuperOp>): (r: Option<SuperKmem>)
    decreases |ops|
  {
    if |ops| == 0 then Some(s)
    else match SuperRun(s, kend, ops[..|ops| - 1])
      case None => None
      case Some(s1) =>
        match ops[|ops| - 1]
        case SAlloc => Some(SuperAlloc(s1).0)
        case SFree(pa) => SuperFree(s1, kend, pa)
  }

  /** The counter always equals the list's length, whatever sequence of
      allocations and frees runs. */
  lemma {:induction false} SuperCountInvariant(s: SuperKmem, kend: nat, ops: seq<SuperOp>)
    requires SuperWf(s)
    ensures SuperRun(s, kend, ops).Some? ==> SuperWf(SuperRun(s, kend, ops).value)
    decreases |ops|
  {
    if |ops| > 0 {
      SuperCountInvariant(s, kend, ops[..|ops| - 1]);
    }
  }

  /** `kinit()` in the page-table lab configuration. When NSUPERPAGES
      superpages starting at the first 2 MiB boundary after the kernel fit
      below PHYSTOP, they go on the superpage list and the page list gets
      the whole pages on either side of that region; otherwise every whole
      page after the kernel goes on the page list. `kinit` never panics. */
  method KInit(kend: nat) returns (k: Kmem, s: SuperKmem)
    ensures SuperWf(s) && Descending(k.free)
    ensures var lo := SuperRoundUp(kend);
            var hi := lo + NSUPERPAGES * SUPERPGSIZE;
            && (hi <= PHYSTOP ==>
                  && |s.free| == NSUPERPAGES
                  && (forall i :: 0 <= i < |s.free| ==> s.free[i] % SUPERPGSIZE == 0 && lo <= s.free[i] < hi)
                  && (forall i, j :: 0 <= i < j < |s.free| ==> s.free[i] != s.free[j])
                  && (forall x: nat :: x in k.free <==>
                        x % PGSIZE == 0 && PgRoundUp(kend) <= x && x + PGSIZE <= PHYSTOP
                        && (x + PGSIZE <= lo || hi <= x)))
            && (hi > PHYSTOP ==>
                  && s.free == []
                  && forall x: nat :: x in k.free <==> InRange(kend, PHYSTOP, x))
  {
    var lo := SuperRoundUp(kend);
    var hi := lo + NSUPERPAGES * SUPERPGSIZE;
    if hi <= PHYSTOP {
      k, s := KInitSplit(kend, lo, hi);
    } else {
      s := SuperKmem([], 0);
      k := KInitWhole(kend);
    }
  }

  /** The `kinit` path that reserves the superpage region [lo, hi). */
  method KInitSplit(kend: nat, lo: nat, hi: nat) returns (k: Kmem, s: SuperKmem)
    requires lo == SuperRoundUp(kend) && hi == lo + NSUPERPAGES * SUPERPGSIZE && hi <= PHYSTOP
    ensures SuperWf(s) && |s.free| == NSUPERPAGES
    ensures forall i :: 0 <= i < |s.free| ==> s.free[i] % SUPERPGSIZE == 0 && lo <= s.free[i] < hi
    ensures forall i, j :: 0 <= i < j < |s.free| ==> s.free[i] != s.free[j]
    ensures forall x: nat :: x in k.free <==>
              x % PGSIZE == 0 && PgRoundUp(kend) <= x && x + PGSIZE <= PHYSTOP && (x + PGSIZE <= lo || hi <= x)
    ensures Descending(k.free)
  {
    s := SuperReserve(lo);
    SuperListFacts(lo, s.free);
    SuperAligned(lo);
    SuperAligned(hi);
    var r1 := FreeRange(Kmem([]), kend, kend, lo);
    RangeFreeable(kend, kend, lo);
    var r2 := FreeRange(r1.value, kend, hi, PHYSTOP);
    RangeFreeable(kend, hi, PHYSTOP);
    k := r2.value;
    TwoRanges(kend, lo, hi, r1.value.free, k.free);
    var n1 := r1.value.free;
    var n2 := k.free[..|k.free| - |n1|];
    assert n1[..|n1| - 0] == n1;
    assert k.free == n2 + n1;
    forall x | x in n2 ensures x >= hi {
      assert InRange(hi, PHYSTOP, x);
    }
    forall y | y in n1 ensures y < hi {
      assert y in n1[..|n1| - 0];
      assert InRange(kend, lo, y);
    }
    DescendingConcat(n2, n1, hi);
  }

  /** Every whole page of a range above the kernel and below PHYSTOP may
      be freed. */
  lemma RangeFreeable(kend: nat, start: nat, stop: nat)
    requires kend <= start && stop <= PHYSTOP
    ensures forall p: nat :: InRange(start, stop, p) ==> FreeOk(kend, p)
  {
  }

  /** A superpage boundary is a page boundary. */
  lemma SuperAligned(x: nat)
    requires x % SUPERPGSIZE == 0
    ensures x % PGSIZE == 0
  {
    var q := x / SUPERPGSIZE;
    assert x == PGSIZE * (512 * q);
  }

  /** The `kinit` path without superpages: every whole page after the
      kernel goes on the page list. */
  method KInitWhole(kend: nat) returns (k: Kmem)
    ensures forall x: nat :: x in k.free <==> InRange(kend, PHYSTOP, x)
    ensures Descending(k.free)
  {
    var r := FreeRange(Kmem([]), kend, kend, PHYSTOP);
    assert r.Some?;
    k := r.value;
    assert k.free[..|k.free| - 0] == k.free;
  }

  /** The loop of `kinit` pushing the superpages of [lo, lo + 16 MiB) in
      ascending order. */
  method SuperReserve(lo: nat) returns (s: SuperKmem)
    ensures SuperWf(s) && |s.free| == NSUPERPAGES
    ensures forall i :: 0 <= i < |s.free| ==> s.free[i] == lo + NSUPERPAGES * SUPERPGSIZE - (i + 1) * SUPERPGSIZE
  {
    var hi := lo + NSUPERPAGES * SUPERPGSIZE;
    s := SuperKmem([], 0);
    var pa := lo;
    while pa < hi
      invariant lo <= pa <= hi && (pa - lo) % SUPERPGSIZE == 0
      invariant SuperWf(s) && |s.free| == (pa - lo) / SUPERPGSIZE
      invariant forall i :: 0 <= i < |s.free| ==> s.free[i] == pa - (i + 1) * SUPERPGSIZE
      decreases hi - pa
    {
      s := SuperKmem([pa] + s.free, s.count + 1);
      pa := pa + SUPERPGSIZE;
    }
  }

  /** The page list `kinit` builds from the two ranges around the
      superpage region holds exactly the pages outside the region. */
  lemma TwoRanges(kend: nat, lo: nat, hi: nat, n1: seq<nat>, all: seq<nat>)
    requires lo % PGSIZE == 0 && hi % PGSIZE == 0 && kend <= lo <= hi <= PHYSTOP
    requires forall x: nat :: x in n1[..|n1| - 0] <==> InRange(kend, lo, x)
    requires |all| >= |n1| && all[|all| - |n1|..] == n1
    requires forall x: nat :: x in all[..|all| - |n1|] <==> InRange(hi, PHYSTOP, x)
    ensures forall x: nat :: x in all <==>
              x % PGSIZE == 0 && PgRoundUp(kend) <= x && x + PGSIZE <= PHYSTOP && (x + PGSIZE <= lo || hi <= x)
  {
    assert all == all[..|all| - |n1|] + n1;
    assert n1[..|n1| - 0] == n1;
    forall x: nat ensures x in all <==>
              x % PGSIZE == 0 && PgRoundUp(kend) <= x && x + PGSIZE <= PHYSTOP && (x + PGSIZE <= lo || hi <= x) {
      SplitRange(kend, lo, hi, x);
    }
  }

  /** The eight pushed superpages, highest first, are aligned, inside the
      region, and pairwise different. */
  lemma SuperListFacts(lo: nat, l: seq<nat>)
    requires lo % SUPERPGSIZE == 0 && |l| == NSUPERPAGES
    requires forall i :: 0 <= i < |l| ==> l[i] == lo + NSUPERPAGES * SUPERPGSIZE - (i + 1) * SUPERPGSIZE
    ensures forall i :: 0 <= i < |l| ==> l[i] % SUPERPGSIZE == 0 && lo <= l[i] < lo + NSUPERPAGES * SUPERPGSIZE
    ensures forall i, j :: 0 <= i < j < |l| ==> l[i] != l[j]
  {
  }

  /** A whole page lies below the region or above it exactly when it is a
      page of [kend, lo) or of [hi, PHYSTOP). */
  lemma SplitRange(kend: nat, lo: nat, hi: nat, x: nat)
    requires lo % PGSIZE == 0 && hi % PGSIZE == 0 && kend <= lo <= hi <= PHYSTOP
    ensures (InRange(kend, lo, x) || InRange(hi, PHYSTOP, x)) <==>
            x % PGSIZE == 0 && PgRoundUp(kend) <= x && x + PGSIZE <= PHYSTOP && (x + PGSIZE <= lo || hi <= x)
  {
    assert PgRoundUp(hi) == hi;
    RoundUpLeast(kend, hi);
  }

  /** PGROUNDUP(a) is the least aligned address at or above `a`. */
  lemma RoundUpLeast(a: nat, y: nat)
    requires y % PGSIZE == 0 && a <= y
    ensures PgRoundUp(a) <= y
  {
    if PgRoundUp(a) > y {
      ModGap(y, PgRoundUp(a));
    }
  }
}

=== FILE: Net.dfy ===
/** The rest of kernel/net.c: `sys_send` building a UDP frame and handing
    it to the driver, `arp_rx` answering the first ARP query, and `net_rx`
    dispatching an inbound frame by its Ethernet type. The network state is
    the socket table, the one-shot "ARP seen" flag and the transmit ring. */
module Net {
  import opened Bytes
  import opened Checksum
  import opened Wire
  import opened E1000
  import opened Sockets

  const PGSIZE: nat := 4096

  datatype NetState = NetState(socks: seq<Sock>, arpSeen: bool, tx: TxRing)

  ghost predicate NetWf(st: NetState) {
    TableWf(st.socks) && TxWf(st.tx)
  }

  /** The ring after `e1000_transmit`; the callers ignore its return value,
      so a full ring leaves the ring as it was (and the frame is not sent). */
  function Enqueue(r: TxRing, buf: nat, len: int): (r': TxRing)
    requires TxWf(r)
    ensures TxWf(r')
    ensures Done(r.desc[r.tdt].status) ==>
              r'.tdt == (r.tdt + 1) % TX_RING_SIZE && r'.bufs[r.tdt] == buf
              && r'.desc[r.tdt].length == Trunc16(len)
    ensures !Done(r.desc[r.tdt].status) ==> r' == r
  {
    match Transmit(r, buf, len)
    case TxFull => r
    case TxQueued(ring, _) => ring
  }

  /** A C `int`: the value reduced to the signed 32-bit range. */
  function Int32(x: int): (r: int)
    ensures -0x8000_0000 <= r < 0x8000_0000
    ensures (r - x) % U32 == 0
    ensures -0x8000_0000 <= x < 0x8000_0000 ==> r == x
  {
    var v := x % U32;
    if v >= 0x8000_0000 then v - U32 else v
  }

  /** The length check of `sys_send` as written: `len + sizeof` headers is
      computed unsigned and stored in an `int`, then compared with PGSIZE.
      It admits every length whose true total is at most a page, and also
      every one whose total reaches 2^31 and so turns negative. */
  predicate SendAdmitsAsWritten(len: int): (b: bool)
    requires -0x8000_0000 <= len < 0x8000_0000
    ensures b <==> len + HDRS_LEN <= PGSIZE || len + HDRS_LEN >= 0x8000_0000
  {
    Int32(len + HDRS_LEN) <= PGSIZE
  }

  /** The check as written lets a negative length through (and copyin then
      receives it as the unsigned length 2^64 - 1), and lets the largest
      `int` through because the sum wraps to a negative `int`. */
  lemma SendGuardAsWrittenAdmitsBadLengths()
    ensures SendAdmitsAsWritten(-1) && (-1) % U64 == U64 - 1
    ensures SendAdmitsAsWritten(0x7fff_ffff) && 0x7fff_ffff + HDRS_LEN > PGSIZE
  {
  }

  /** The intended check: a non-negative payload that fits in one page
      together with the headers. */
  predicate SendAdmits(len: int) {
    0 <= len && len + HDRS_LEN <= PGSIZE
  }

  /** The two checks agree on every non-negative length that does not wrap;
      an admitted length also keeps the 16-bit IP and UDP length fields
      exact. */
  lemma SendAdmitsAgrees(len: int)
    requires 0 <= len < 0x8000_0000 - HDRS_LEN
    ensures SendAdmits(len) <==> SendAdmitsAsWritten(len)
    ensures SendAdmits(len) ==>
              (IP_LEN + UDP_LEN + len) % U16 == IP_LEN + UDP_LEN + len && (len + UDP_LEN) % U16 == len + UDP_LEN
  {
  }

  datatype SendResult = SendResult(ret: int, tx: TxRing, frame: Option<seq<byte>>)

  /** `sys_send(sport, dst, dport, buf, len)`. `page` is what `kalloc`
      returns (0 when memory is exhausted) and `user` the readable user
      bytes at `buf`: `copyin` fails when fewer than `len` are readable.
      `frame` is what was handed to the driver. */
  function Send(tx: TxRing, sport: int, dst: int, dport: int, len: int, page: nat, user: seq<byte>): (r: SendResult)
    requires TxWf(tx)
    ensures TxWf(r.tx)
    ensures r.ret == 0 || r.ret == -1
    ensures r.ret == 0 <==> SendAdmits(len) && page != 0 && len <= |user|
    ensures r.ret == -1 ==> r.tx == tx && r.frame.None?
    ensures r.ret == 0 ==>
              && r.frame.Some? && 0 <= len <= |user|
              && r.frame.value == UdpFrame(sport, dst, dport, user[..len])
              && var f := r.frame.value;
              && |f| == HDRS_LEN + len <= PGSIZE
              && f[ETH_LEN] == 0x45 && f[ETH_LEN + 8] == IP_TTL
              && Get16(f, ETH_LEN + 2) == IP_LEN + UDP_LEN + len
              && f[..6] == HOST_MAC && f[6..12] == LOCAL_MAC && EthType(f) == ETHTYPE_IP
              && IpProto(f) == IPPROTO_UDP && IpSrc(f) == LOCAL_IP && IpDst(f) == dst % U32
              && InCksumValue(f[ETH_LEN..ETH_LEN + IP_LEN]) == 0
              && UdpSport(f) == sport % U16 && UdpDport(f) == dport % U16
              && UdpUlen(f) == len + UDP_LEN
              && f[HDRS_LEN..] == user[..len]
              && r.tx == Enqueue(tx, page, HDRS_LEN + len)
  {
    if !SendAdmits(len) then SendResult(-1, tx, None)
    else if page == 0 then SendResult(-1, tx, None)
    else if len > |user| then SendResult(-1, tx, None)
    else
      var payload := user[..len];
      SentFrame(sport, dst, dport, payload);
      SendResult(0, Enqueue(tx, page, HDRS_LEN + len), Some(UdpFrame(sport, dst, dport, payload)))
  }

  /** The frame for an admitted payload carries every field `sys_send`
      writes: addresses, version/IHL, TTL, protocol, total length, a
      verifying IP checksum, ports, UDP length and the payload. */
  lemma SentFrame(sport: int, dst: int, dport: int, payload: seq<byte>)
    requires SendAdmits(|payload|)
    ensures var f := UdpFrame(sport, dst, dport, payload);
            && |f| == HDRS_LEN + |payload| <= PGSIZE
            && f[ETH_LEN] == 0x45 && f[ETH_LEN + 8] == IP_TTL
            && Get16(f, ETH_LEN + 2) == IP_LEN + UDP_LEN + |payload|
            && f[..6] == HOST_MAC && f[6..12] == LOCAL_MAC && EthType(f) == ETHTYPE_IP
            && IpProto(f) == IPPROTO_UDP && IpSrc(f) == LOCAL_IP && IpDst(f) == dst % U32
            && InCksumValue(f[ETH_LEN..ETH_LEN + IP_LEN]) == 0
            && UdpSport(f) == sport % U16 && UdpDport(f) == dport % U16
            && UdpUlen(f) == |payload| + UDP_LEN
            && f[HDRS_LEN..] == payload
  {
    var f := UdpFrame(sport, dst, dport, payload);
    UdpFrameFields(sport, dst, dport, payload);
    IpHeaderFields(|payload|, dst);
    SendAdmitsAgrees(|payload|);
    var h := f[ETH_LEN..ETH_LEN + IP_LEN];
    assert f[ETH_LEN] == h[0] && f[ETH_LEN + 8] == h[8];
    Get16Shift(f, ETH_LEN, 2);
    assert f[ETH_LEN..][..IP_LEN] == h;
  }

  datatype NetRxResult = NetPanic | NetOk(st: NetState, reply: Option<seq<byte>>)

  /** `arp_rx(q)`: only the first ARP packet is answered; a failed `kalloc`
      for the reply panics. `page` is what that `kalloc` returns. */
  function ArpRx(st: NetState, q: seq<byte>, page: nat): (r: NetRxResult)
    requires NetWf(st) && |q| >= ETH_LEN + ARP_LEN
    ensures r.NetPanic? <==> !st.arpSeen && page == 0
    ensures r.NetOk? ==> NetWf(r.st) && r.st.arpSeen && r.st.socks == st.socks
    ensures r.NetOk? ==> (r.reply.Some? <==> !st.arpSeen)
    ensures r.NetOk? && st.arpSeen ==> r.st == st
    ensures r.NetOk? && r.reply.Some? ==>
              var a := r.reply.value;
              && |a| == ETH_LEN + ARP_LEN
              && a == ArpReply(q)
              && a[..6] == q[6..12] && a[6..12] == LOCAL_MAC && EthType(a) == ETHTYPE_ARP
              && Get16(a, 14) == ARP_HRD_ETHER && Get16(a, 16) == ETHTYPE_IP && a[18] == 6 && a[19] == 4
              && Get16(a, 20) == ARP_OP_REPLY && a[22..28] == LOCAL_MAC && Get32(a, 28) == LOCAL_IP
              && a[32..38] == q[6..12] && a[38..42] == q[28..32]
              && r.st.tx == Enqueue(st.tx, page, ETH_LEN + ARP_LEN)
  {
    if st.arpSeen then NetOk(st, None)
    else if page == 0 then NetPanic
    else
      ArpReplyFields(q);
      NetOk(st.(arpSeen := true, tx := Enqueue(st.tx, page, ETH_LEN + ARP_LEN)), Some(ArpReply(q)))
  }

  /** `net_rx(f)`: an ARP frame goes to `arp_rx`, an IPv4 frame to `ip_rx`,
      anything else (or anything too short for its header) is freed.
      `page` feeds `arp_rx`'s `kalloc`, `pktOk` that of `ip_rx`. */
  function NetRx(st: NetState, f: seq<byte>, page: nat, pktOk: bool): (r: NetRxResult)
    requires NetWf(st)
    ensures r.NetOk? ==> NetWf(r.st)
    ensures r.NetPanic? ==> |f| >= ETH_LEN + ARP_LEN && EthType(f) == ETHTYPE_ARP
    ensures IsArp(f) ==> r == ArpRx(st, f, page)
    ensures !IsArp(f) ==> r.NetOk? && r.reply.None? && r.st.tx == st.tx && r.st.arpSeen == st.arpSeen
    ensures !IsArp(f) && IsIp(f) ==> r.st.socks == IpRx(st.socks, f, pktOk).table
    ensures !IsArp(f) && !IsIp(f) ==> r.st == st
  {
    if IsArp(f) then ArpRx(st, f, page)
    else if IsIp(f) then NetOk(st.(socks := IpRx(st.socks, f, pktOk).table), None)
    else NetOk(st, None)
  }

  predicate IsArp(f: seq<byte>) {
    |f| >= ETH_LEN + ARP_LEN && EthType(f) == ETHTYPE_ARP
  }

  predicate IsIp(f: seq<byte>) {
    |f| >= ETH_LEN + IP_LEN && EthType(f) == ETHTYPE_IP
  }

  /** However many ARP queries arrive, at most one reply is ever sent: after
      the first successful `arp_rx` every later one is a no-op. */
  lemma ArpRepliesOnce(st: NetState, q1: seq<byte>, q2: seq<byte>, p1: nat, p2: nat)
    requires NetWf(st) && |q1| >= ETH_LEN + ARP_LEN && |q2| >= ETH_LEN + ARP_LEN
    requires ArpRx(st, q1, p1).NetOk?
    ensures var st1 := ArpRx(st, q1, p1).st;
            ArpRx(st1, q2, p2) == NetOk(st1, None)
  {
  }

  /** Sending then receiving on the same machine: a frame built by `send`
      and delivered back through `net_rx` is queued on the socket bound to
      its destination port, and `recv` there yields the sender's port, the
      kernel's address and the first min(len, maxlen) payload bytes. */
  lemma SendRecvRoundTrip(st: NetState, sport: int, dst: int, dport: int, len: int, page: nat,
                          user: seq<byte>, rxPage: nat, maxlen: int, i: nat)
    requires NetWf(st) && 0 <= sport < U16 && 0 <= dport < U16 && 0 <= maxlen
    requires i < |st.socks| && st.socks[i].used && st.socks[i].port == dport && st.socks[i].queue == []
    requires Send(st.tx, sport, dst, dport, len, page, user).ret == 0
    ensures var s := Send(st.tx, sport, dst, dport, len, page, user);
            var n := if len < maxlen then len else maxlen;
            && s.frame.Some?
            && var d := NetRx(st.(tx := s.tx), s.frame.value, rxPage, true);
            && d.NetOk?
            && var r := Sockets.Recv(d.st.socks, dport, maxlen, true);
            && r.Dequeued? && r.ret == n && 0 <= n <= len
            && r.pkt.srcPort == sport && r.pkt.srcIp == LOCAL_IP
            && r.payload == user[..n]
            && r.table == st.socks
  {
    var s := Send(st.tx, sport, dst, dport, len, page, user);
    DeliverAndReceive(st.(tx := s.tx), s.frame.value, sport, dport, len, user, rxPage, maxlen, i);
  }

  /** The receive half of the round trip, for any frame carrying the fields
      `send` writes. */
  lemma DeliverAndReceive(st: NetState, f: seq<byte>, sport: int, dport: int, len: int,
                          user: seq<byte>, rxPage: nat, maxlen: int, i: nat)
    requires NetWf(st) && 0 <= maxlen && 0 <= len <= |user|
    requires |f| == HDRS_LEN + len && EthType(f) == ETHTYPE_IP && IpProto(f) == IPPROTO_UDP
    requires IpSrc(f) == LOCAL_IP && UdpSport(f) == sport && UdpDport(f) == dport
    requires UdpUlen(f) == len + UDP_LEN && f[HDRS_LEN..] == user[..len]
    requires i < |st.socks| && st.socks[i].used && st.socks[i].port == dport && st.socks[i].queue == []
    ensures var n := if len < maxlen then len else maxlen;
            && var d := NetRx(st, f, rxPage, true);
            && d.NetOk?
            && var r := Sockets.Recv(d.st.socks, dport, maxlen, true);
            && r.Dequeued? && r.ret == n
            && r.pkt.srcPort == sport && r.pkt.srcIp == LOCAL_IP
            && r.payload == user[..n]
            && r.table == st.socks
  {
    assert !IsArp(f) && IsIp(f);
    var t1 := st.socks[i := st.socks[i].(queue := [PacketOf(f)], queueLen := 1)];
    assert NetRx(st, f, rxPage, true) == NetOk(st.(socks := t1), None) by {
      QueuedOnEmpty(st.socks, f, i);
    }
    var r := Sockets.Recv(t1, dport, maxlen, true);
    assert r.Dequeued? && r.pkt == PacketOf(f) && r.table == st.socks by {
      DequeueOnly(t1, i, maxlen);
      assert t1[i := t1[i].(queue := [], queueLen := 0)] == st.socks;
    }
    var n := if len < maxlen then len else maxlen;
    assert r.ret == n && r.payload == f[HDRS_LEN..HDRS_LEN + n];
    PayloadPrefix(f, user, len, n);
  }

  /** The first `n` payload bytes of a frame carrying `user[..len]` are the
      user's first `n` bytes. */
  lemma PayloadPrefix(f: seq<byte>, user: seq<byte>, len: nat, n: nat)
    requires |f| == HDRS_LEN + len && len <= |user| && n <= len
    requires f[HDRS_LEN..] == user[..len]
    ensures f[HDRS_LEN..HDRS_LEN + n] == user[..n]
  {
    var tail := f[HDRS_LEN..];
    assert tail[..n] == f[HDRS_LEN..HDRS_LEN + n];
    assert user[..len][..n] == user[..n];
  }

  /** A UDP frame for a bound port with an empty queue becomes that queue's
      only packet. */
  lemma QueuedOnEmpty(t: seq<Sock>, f: seq<byte>, i: nat)
    requires TableWf(t) && |f| >= HDRS_LEN && IpProto(f) == IPPROTO_UDP
    requires i < |t| && t[i].used && t[i].port == UdpDport(f) && t[i].queue == []
    ensures IpRx(t, f, true).table == t[i := t[i].(queue := [PacketOf(f)], queueLen := 1)]
  {
    var x := IpRx(t, f, true);
    assert Bound(t, UdpDport(f));
    assert forall k :: 0 <= k < |t| && t[k].used && t[k].port == UdpDport(f) ==> k == i;
    assert x.queuedAt.Some?;
    var k := x.queuedAt.value;
    assert k == i by {
      assert t[k].used && t[k].port == UdpDport(f);
    }
    assert t[i].queue + [PacketOf(f)] == [PacketOf(f)];
  }

  /** Receiving from a socket holding one packet returns it and empties the
      queue. */
  lemma DequeueOnly(t: seq<Sock>, i: nat, maxlen: int)
    requires TableWf(t) && 0 <= maxlen && i < |t| && t[i].used && |t[i].queue| == 1
    ensures var r := Sockets.Recv(t, t[i].port, maxlen, true);
            && r.Dequeued? && r.pkt == t[i].queue[0]
            && r.table == t[i := t[i].(queue := [], queueLen := 0)]
            && r.ret == RecvCopyLen(r.pkt, maxlen)
  {
    var r := Sockets.Recv(t, t[i].port, maxlen, true);
    var k :| 0 <= k < |t| && t[k].used && t[k].port == t[i].port && |t[k].queue| > 0
             && r.pkt == t[k].queue[0]
             && r.table == t[k := t[k].(queue := t[k].queue[1..], queueLen := t[k].queueLen - 1)];
    assert k == i;
  }
}

=== FILE: Sockets.dfy ===
/** The UDP socket layer of kernel/net.c: a fixed table of SOCK_MAX sockets,
    each bound to one port and holding a FIFO of at most QUEUE_MAX received
    packets. `bind` claims a slot, `ip_rx` demultiplexes an inbound frame to
    the socket bound to its destination port, and `recv` dequeues the oldest
    packet and copies its payload out.

    The network lock, the sleep/wakeup pair and the user-memory copies are
    not modelled: a receive on an empty queue returns `WouldBlock` (where the
    kernel sleeps), and whether `kalloc`/`copyout` succeed is a parameter. */
module Sockets {
  import opened Bytes
  import opened Wire

  const SOCK_MAX: nat := 16
  const QUEUE_MAX: nat := 16

  /** A queued datagram: the whole frame buffer, its length and the sender
      address and port captured (in host order) at enqueue time. */
  datatype Packet = Packet(buf: seq<byte>, len: int, srcIp: nat, srcPort: nat)

  /** A socket slot; `queueLen` is kept alongside the list as in the kernel. */
  datatype Sock = Sock(used: bool, port: int, queue: seq<Packet>, queueLen: int)

  /** A queued packet was accepted by `ip_rx`: it holds a complete
      Ethernet+IP+UDP header. */
  ghost predicate PacketWf(p: Packet) {
    |p.buf| >= HDRS_LEN && p.len == |p.buf|
  }

  /** The table invariant: SOCK_MAX slots; every queue's length counter
      matches the list and stays within QUEUE_MAX; bound ports are 16-bit;
      no two used slots share a port. */
  ghost predicate TableWf(t: seq<Sock>) {
    && |t| == SOCK_MAX
    && (forall i :: 0 <= i < |t| ==>
          && t[i].queueLen == |t[i].queue| <= QUEUE_MAX
          && (t[i].used ==> 0 <= t[i].port < U16)
          && forall k :: 0 <= k < |t[i].queue| ==> PacketWf(t[i].queue[k]))
    && forall i, j :: 0 <= i < j < |t| && t[i].used && t[j].used ==> t[i].port != t[j].port
  }

  /** `netinit`: every slot unused with an empty queue. */
  function NetInit(): (t: seq<Sock>)
    ensures TableWf(t)
    ensures forall i :: 0 <= i < |t| ==> !t[i].used && t[i].queue == []
  {
    seq(SOCK_MAX, _ => Sock(false, 0, [], 0))
  }

  /** The first used slot at or after `from` bound to `port` (the kernel's
      linear scan). */
  function FindPort(t: seq<Sock>, port: int, from: nat): (r: Option<nat>)
    requires from <= |t|
    ensures r.Some? ==> from <= r.value < |t| && t[r.value].used && t[r.value].port == port
                        && forall j :: from <= j < r.value ==> !(t[j].used && t[j].port == port)
    ensures r.None? ==> forall j :: from <= j < |t| ==> !(t[j].used && t[j].port == port)
    decreases |t| - from
  {
    if from == |t| then None
    else if t[from].used && t[from].port == port then Some(from)
    else FindPort(t, port, from + 1)
  }

  /** The first unused slot at or after `from`. */
  function FindFree(t: seq<Sock>, from: nat): (r: Option<nat>)
    requires from <= |t|
    ensures r.Some? ==> from <= r.value < |t| && !t[r.value].used
                        && forall j :: from <= j < r.value ==> t[j].used
    ensures r.None? ==> forall j :: from <= j < |t| ==> t[j].used
    decreases |t| - from
  {
    if from == |t| then None
    else if !t[from].used then Some(from)
    else FindFree(t, from + 1)
  }

  predicate Bound(t: seq<Sock>, port: int) {
    exists i :: 0 <= i < |t| && t[i].used && t[i].port == port
  }

  datatype BindResult = BindResult(ret: int, table: seq<Sock>)

  /** `sys_bind(port)`. */
  function Bind(t: seq<Sock>, port: int): (r: BindResult)
    requires TableWf(t)
    ensures TableWf(r.table)
    ensures r.ret == 0 || r.ret == -1
    ensures r.ret == -1 <==>
              (port < 0 || port > 65535 || Bound(t, port) || forall i :: 0 <= i < |t| ==> t[i].used)
    ensures r.ret == -1 ==> r.table == t
    ensures r.ret == 0 ==>
              exists i :: 0 <= i < |t| && !t[i].used && (forall j :: 0 <= j < i ==> t[j].used)
                          && r.table == t[i := Sock(true, port, [], 0)]
  {
    if port < 0 || port > 65535 then BindResult(-1, t)
    else if FindPort(t, port, 0).Some? then BindResult(-1, t)
    else match FindFree(t, 0)
      case None => BindResult(-1, t)
      case Some(i) => BindResult(0, t[i := Sock(true, port, [], 0)])
  }

  /** `sys_unbind` is a stub in the kernel: it changes nothing and returns 0. */
  function Unbind(t: seq<Sock>, port: int): (r: BindResult)
    ensures r.ret == 0 && r.table == t
  {
    BindResult(0, t)
  }

  /** Binding a port twice without an unbind in between fails the second
      time (the stub unbind does not help either). */
  lemma BindTwiceFails(t: seq<Sock>, port: int)
    requires TableWf(t)
    requires Bind(t, port).ret == 0
    ensures Bind(Bind(t, port).table, port).ret == -1
    ensures Bind(Unbind(Bind(t, port).table, port).table, port).ret == -1
  {
    var t1 := Bind(t, port).table;
    var i :| 0 <= i < |t| && !t[i].used && t1 == t[i := Sock(true, port, [], 0)];
    assert t1[i].used && t1[i].port == port;
  }

  datatype IpRxResult = IpRxResult(table: seq<Sock>, queuedAt: Option<nat>)

  /** The packet entry `ip_rx` queues for frame `f`. */
  function PacketOf(f: seq<byte>): Packet
    requires |f| >= HDRS_LEN
  {
    Packet(f, |f|, IpSrc(f), UdpSport(f))
  }

  /** `ip_rx(buf, len)` for a frame `f` of length len (at least an Ethernet
      and an IP header, which `net_rx` guarantees). `pktOk` says whether the
      `kalloc` for the queue entry succeeds. */
  function IpRx(t: seq<Sock>, f: seq<byte>, pktOk: bool): (r: IpRxResult)
    requires TableWf(t) && |f| >= ETH_LEN + IP_LEN
    ensures TableWf(r.table)
    ensures r.queuedAt.None? <==>
              (|| IpProto(f) != IPPROTO_UDP
               || |f| < HDRS_LEN
               || !Bound(t, UdpDport(f))
               || (exists i :: 0 <= i < |t| && t[i].used && t[i].port == UdpDport(f)
                                && t[i].queueLen >= QUEUE_MAX)
               || !pktOk)
    ensures r.queuedAt.None? ==> r.table == t
    ensures r.queuedAt.Some? ==>
              var i := r.queuedAt.value;
              && |f| >= HDRS_LEN
              && i < |t| && t[i].used && t[i].port == UdpDport(f)
              && r.table == t[i := t[i].(queue := t[i].queue + [PacketOf(f)],
                                         queueLen := t[i].queueLen + 1)]
  {
    if IpProto(f) != IPPROTO_UDP then IpRxResult(t, None)
    else if |f| < HDRS_LEN then IpRxResult(t, None)
    else
      var dport := UdpDport(f);
      match FindPort(t, dport, 0)
      case None => IpRxResult(t, None)
      case Some(i) =>
        if t[i].queueLen >= QUEUE_MAX then IpRxResult(t, None)
        else if !pktOk then IpRxResult(t, None)
        else
          var s := t[i];
          IpRxResult(t[i := s.(queue := s.queue + [PacketOf(f)], queueLen := s.queueLen + 1)], Some(i))
  }

  /** The length `recv` copies, as written: ulen - 8 bounded by maxlen, with
      no bound from the frame's real length and no floor at 0. */
  function RecvCopyLenAsWritten(ulen: int, maxlen: int): (n: int)
    ensures n <= maxlen && n <= ulen - UDP_LEN
    ensures n == maxlen || n == ulen - UDP_LEN
  {
    var udpPayloadLen := ulen - UDP_LEN;
    if udpPayloadLen < maxlen then udpPayloadLen else maxlen
  }

  /** The declared UDP length of a frame need not match the frame: with a
      declared length below 8 the as-written copy length is negative (and
      `copyout` takes it as a huge unsigned length); with a large declared
      length it runs past the 42-byte frame that carried it. */
  lemma RecvCopyLenAsWrittenOverruns()
    ensures RecvCopyLenAsWritten(0, 100) == -8
    ensures var f := seq(HDRS_LEN, _ => 0xff);
            UdpUlen(f) == 0xffff && RecvCopyLenAsWritten(UdpUlen(f), 100) > |f| - HDRS_LEN
  {
  }

  /** The copy length with the declared payload length clamped to the bytes
      actually present in the frame, then bounded by maxlen. */
  function RecvCopyLen(p: Packet, maxlen: int): (n: nat)
    requires PacketWf(p) && maxlen >= 0
    ensures n <= maxlen && HDRS_LEN + n <= |p.buf|
    ensures UDP_LEN <= UdpUlen(p.buf) && UdpUlen(p.buf) - UDP_LEN <= |p.buf| - HDRS_LEN ==>
              n == RecvCopyLenAsWritten(UdpUlen(p.buf), maxlen)
  {
    var declared := UdpUlen(p.buf) - UDP_LEN;
    var present := |p.buf| - HDRS_LEN;
    var avail := if declared < 0 then 0 else if declared > present then present else declared;
    if avail < maxlen then avail else maxlen
  }

  datatype RecvResult =
    | RecvError
    | WouldBlock
    | Dequeued(table: seq<Sock>, pkt: Packet, ret: int, payload: seq<byte>)

  /** `sys_recv(dport, ..., maxlen)`. `copyOk` says whether the three
      `copyout`s succeed; when they fail the packet has still been dequeued
      and freed, and the call returns -1. */
  function Recv(t: seq<Sock>, dport: int, maxlen: int, copyOk: bool): (r: RecvResult)
    requires TableWf(t)
    ensures r.RecvError? <==> (dport < 0 || dport > 65535 || maxlen < 0 || !Bound(t, dport))
    ensures r.WouldBlock? <==>
              (0 <= dport <= 65535 && maxlen >= 0 &&
               exists i :: 0 <= i < |t| && t[i].used && t[i].port == dport && t[i].queue == [])
    ensures r.Dequeued? ==>
              && TableWf(r.table) && 0 <= maxlen
              && exists i :: 0 <= i < |t| && t[i].used && t[i].port == dport && |t[i].queue| > 0
                             && r.pkt == t[i].queue[0]
                             && r.table == t[i := t[i].(queue := t[i].queue[1..],
                                                        queueLen := t[i].queueLen - 1)]
    ensures r.Dequeued? ==> (r.ret == -1 <==> !copyOk)
    ensures r.Dequeued? && copyOk ==>
              && 0 <= r.ret <= maxlen && r.ret == |r.payload|
              && HDRS_LEN + r.ret <= |r.pkt.buf|
              && r.payload == r.pkt.buf[HDRS_LEN..HDRS_LEN + r.ret]
    ensures r.Dequeued? && copyOk ==> r.ret == RecvCopyLen(r.pkt, maxlen)
  {
    if dport < 0 || dport > 65535 || maxlen < 0 then RecvError
    else match FindPort(t, dport, 0)
      case None => RecvError
      case Some(i) =>
        if t[i].queue == [] then WouldBlock
        else
          var p := t[i].queue[0];
          var t' := t[i := t[i].(queue := t[i].queue[1..], queueLen := t[i].queueLen - 1)];
          if !copyOk then Dequeued(t', p, -1, [])
          else
            var n := RecvCopyLen(p, maxlen);
            Dequeued(t', p, n, p.buf[HDRS_LEN..HDRS_LEN + n])
  }

  /** Operations on one socket's port: an inbound frame or a receive. */
  datatype SockOp = Arrive(f: seq<byte>, pktOk: bool) | Take(maxlen: int, copyOk: bool)

  /** Runs `ops` against the table with receives on `port`; returns the
      final table, the packets the receives dequeued, and the packets
      `ip_rx` queued on slot `i`. */
  function Run(t: seq<Sock>, port: int, i: nat, ops: seq<SockOp>): (res: (seq<Sock>, seq<Packet>, seq<Packet>))
    requires TableWf(t)
    ensures TableWf(res.0)
    ensures forall j :: 0 <= j < |t| ==> res.0[j].used == t[j].used && res.0[j].port == t[j].port
    decreases |ops|
  {
    if |ops| == 0 then (t, [], [])
    else
      var (t1, got, put) := Run(t, port, i, ops[..|ops| - 1]);
      match ops[|ops| - 1]
      case Arrive(f, ok) =>
        if |f| < ETH_LEN + IP_LEN then (t1, got, put)
        else
          var r := IpRx(t1, f, ok);
          (r.table, got, if r.queuedAt == Some(i) then put + [PacketOf(f)] else put)
      case Take(maxlen, ok) =>
        var r := Recv(t1, port, maxlen, ok);
        if r.Dequeued? then (r.table, got + [r.pkt], put) else (t1, got, put)
  }

  /** FIFO delivery: on the socket bound to `port`, the packets received so
      far followed by those still queued are exactly the packets that were
      queued before followed by those `ip_rx` accepted since, in arrival
      order. */
  lemma {:induction false} FifoDelivery(t: seq<Sock>, port: int, i: nat, ops: seq<SockOp>)
    requires TableWf(t) && i < |t| && t[i].used && t[i].port == port
    ensures var (t', got, put) := Run(t, port, i, ops);
            got + t'[i].queue == t[i].queue + put
    decreases |ops|
  {
    if |ops| > 0 {
      var pre := ops[..|ops| - 1];
      FifoDelivery(t, port, i, pre);
      var (t1, got, put) := Run(t, port, i, pre);
      match ops[|ops| - 1]
      case Arrive(f, ok) =>
        if |f| >= ETH_LEN + IP_LEN {
          ArriveKeepsOrder(t1, f, ok, i, got, put, t[i].queue);
        }
      case Take(maxlen, ok) =>
        TakeKeepsOrder(t1, port, maxlen, ok, i, got, put, t[i].queue);
    }
  }

  lemma ArriveKeepsOrder(t1: seq<Sock>, f: seq<byte>, ok: bool, i: nat,
                         got: seq<Packet>, put: seq<Packet>, q0: seq<Packet>)
    requires TableWf(t1) && |f| >= ETH_LEN + IP_LEN && i < |t1|
    requires got + t1[i].queue == q0 + put
    ensures var r := IpRx(t1, f, ok);
            got + r.table[i].queue == q0 + (if r.queuedAt == Some(i) then put + [PacketOf(f)] else put)
  {
    var r := IpRx(t1, f, ok);
    if r.queuedAt == Some(i) {
      assert r.table[i].queue == t1[i].queue + [PacketOf(f)];
      assert got + r.table[i].queue == (got + t1[i].queue) + [PacketOf(f)];
    } else if r.queuedAt.Some? {
      assert r.table[i] == t1[i];
    }
  }

  lemma TakeKeepsOrder(t1: seq<Sock>, port: int, maxlen: int, ok: bool, i: nat,
                       got: seq<Packet>, put: seq<Packet>, q0: seq<Packet>)
    requires TableWf(t1) && i < |t1| && t1[i].used && t1[i].port == port
    requires got + t1[i].queue == q0 + put
    ensures var r := Recv(t1, port, maxlen, ok);
            r.Dequeued? ==> (got + [r.pkt]) + r.table[i].queue == q0 + put
  {
    var r := Recv(t1, port, maxlen, ok);
    if r.Dequeued? {
      var k :| 0 <= k < |t1| && t1[k].used && t1[k].port == port && |t1[k].queue| > 0
               && r.pkt == t1[k].queue[0]
               && r.table == t1[k := t1[k].(queue := t1[k].queue[1..], queueLen := t1[k].queueLen - 1)];
      assert k == i;
      assert t1[i].queue == [r.pkt] + r.table[i].queue;
      assert (got + [r.pkt]) + r.table[i].queue == got + t1[i].queue;
    }
  }

  /** A frame for a port whose queue is already full is dropped and the
      queue length stays put. */
  lemma FullQueueDrops(t: seq<Sock>, f: seq<byte>, pktOk: bool, i: nat)
    requires TableWf(t) && |f| >= HDRS_LEN && i < |t|
    requires t[i].used && t[i].port == UdpDport(f) && t[i].queueLen == QUEUE_MAX
    ensures IpRx(t, f, pktOk).table == t
  {
  }

  /** Receiving on a port nobody bound fails at once (it does not block). */
  lemma RecvUnboundFails(t: seq<Sock>, dport: int, maxlen: int, copyOk: bool)
    requires TableWf(t) && !Bound(t, dport)
    ensures Recv(t, dport, maxlen, copyOk) == RecvError
  {
  }
}

=== FILE: SysFile.dfy ===
/** The file-descriptor helpers and the memory-mapped file system calls of
    kernel/sysfile.c (mmap lab): argfd, fdalloc, sys_mmap, sys_munmap and
    the page-fault handler that fills a mapped page from its file.
    A process is reduced to its size, its open-file table, its VMA table
    and the set of user pages that currently have a valid PTE; open files
    are records of their mode bits. The inode's size when munmap runs, and
    the outcomes of the kernel allocator, readi and mappages, are passed
    in. */
module SysFile {
  import opened Bytes
  import Kalloc

  const NOFILE: nat := 16
  const NVMA: nat := 16
  const MAXVA: nat := 0x40_0000_0000
  const TRAMPOLINE: nat := MAXVA - Kalloc.PGSIZE
  const TRAPFRAME: nat := TRAMPOLINE - Kalloc.PGSIZE
  /** The all-ones uint64 that sys_mmap returns on failure. */
  const MAP_FAILED: nat := U64 - 1

  const PROT_READ: int := 1
  const PROT_WRITE: int := 2
  const PROT_EXEC: int := 4
  const MAP_SHARED: int := 1

  const PTE_R: int := 2
  const PTE_W: int := 4
  const PTE_X: int := 8
  const PTE_U: int := 16

  datatype File = File(readable: bool, writable: bool)

  datatype Vma = Vma(used: bool, addr: nat, len: nat, prot: int, flags: int, f: File, offset: nat)

  datatype Proc = Proc(sz: nat, ofile: seq<Option<File>>, vmas: seq<Vma>, mapped: set<nat>)

  ghost predicate ProcWf(p: Proc) {
    |p.ofile| == NOFILE && |p.vmas| == NVMA
  }

  /** Bit `k` (0..4) of a two's-complement integer; Dafny's division by a
      positive constant floors, so this is also right for negative `x`. */
  predicate Bit(x: int, k: nat)
    requires k < 5
  {
    var d := if k == 0 then 1 else if k == 1 then 2 else if k == 2 then 4 else if k == 3 then 8 else 16;
    (x / d) % 2 == 1
  }

  // ---------------------------------------------------------------- argfd, fdalloc

  /** argfd: the open file behind descriptor `fd`, or None when `fd` is
      out of range or not open. */
  function ArgFd(ofile: seq<Option<File>>, fd: int): (r: Option<File>)
    requires |ofile| == NOFILE
    ensures r.Some? <==> 0 <= fd < NOFILE && ofile[fd].Some?
    ensures r.Some? ==> Some(r.value) == ofile[fd]
  {
    if fd < 0 || fd >= NOFILE then None else ofile[fd]
  }

  /** fdalloc: install `f` in the lowest free descriptor, or report -1
      when all NOFILE descriptors are in use. */
  method FdAlloc(ofile: seq<Option<File>>, f: File) returns (ofile': seq<Option<File>>, fd: int)
    requires |ofile| == NOFILE
    ensures fd == -1 <==> forall j :: 0 <= j < NOFILE ==> ofile[j].Some?
    ensures fd == -1 ==> ofile' == ofile
    ensures fd != -1 ==> 0 <= fd < NOFILE && ofile[fd].None?
                         && (forall j :: 0 <= j < fd ==> ofile[j].Some?)
                         && ofile' == ofile[fd := Some(f)]
    ensures fd != -1 ==> |ofile'| == NOFILE && ArgFd(ofile', fd) == Some(f)
  {
    fd := 0;
    while fd < NOFILE
      invariant 0 <= fd <= NOFILE
      invariant forall j :: 0 <= j < fd ==> ofile[j].Some?
    {
      if ofile[fd].None? {
        ofile' := ofile[fd := Some(f)];
        return;
      }
      fd := fd + 1;
    }
    ofile' := ofile;
    fd := -1;
  }

  // ---------------------------------------------------------------- VMA table

  /** Whether `v` is in use and its range [addr, addr+len) holds `va`. */
  predicate Contains(v: Vma, va: int) {
    v.used && v.addr <= va < v.addr + v.len
  }

  /** The slot of the first used VMA holding `va`, searching from `from`:
      the lookup shared by sys_munmap and handle_mmap_fault. */
  function FindVma(vmas: seq<Vma>, va: int, from: nat): (r: Option<nat>)
    requires from <= |vmas|
    ensures r.None? <==> forall j :: from <= j < |vmas| ==> !Contains(vmas[j], va)
    ensures r.Some? ==> from <= r.value < |vmas| && Contains(vmas[r.value], va)
                        && forall j :: from <= j < r.value ==> !Contains(vmas[j], va)
    decreases |vmas| - from
  {
    if from == |vmas| then None
    else if Contains(vmas[from], va) then Some(from)
    else FindVma(vmas, va, from + 1)
  }

  /** The first unused VMA slot at or after `from`. */
  function FreeVma(vmas: seq<Vma>, from: nat): (r: Option<nat>)
    requires from <= |vmas|
    ensures r.None? <==> forall j :: from <= j < |vmas| ==> vmas[j].used
    ensures r.Some? ==> from <= r.value < |vmas| && !vmas[r.value].used
                        && forall j :: from <= j < r.value ==> vmas[j].used
    decreases |vmas| - from
  {
    if from == |vmas| then None
    else if !vmas[from].used then Some(from)
    else FreeVma(vmas, from + 1)
  }

  /** Whether the used VMA `v` intersects [va, va+sz). */
  predicate Overlaps(v: Vma, va: int, sz: int) {
    v.used && !(va + sz <= v.addr || va >= v.addr + v.len)
  }

  /** Whether [va, va+sz) is unusable for a new mapping: it meets a used
      VMA or runs into the trapframe page. */
  predicate Conflict(vmas: seq<Vma>, va: int, sz: int) {
    (exists j :: 0 <= j < |vmas| && Overlaps(vmas[j], va, sz)) || va + sz > TRAPFRAME
  }

  /** The candidate start addresses sys_mmap tries: page-aligned and at
      most MAXVA - PGSIZE. */
  predicate Candidate(w: int) {
    0 <= w <= TRAMPOLINE && w % Kalloc.PGSIZE == 0
  }

  /** Whether some candidate at or above `psz + sz` is free. */
  ghost predicate Room(vmas: seq<Vma>, psz: nat, sz: nat) {
    exists w :: Candidate(w) && psz + sz <= w && !Conflict(vmas, w, sz)
  }

  /** Used VMAs never share an address. */
  ghost predicate Disjoint(vmas: seq<Vma>) {
    forall i, j :: 0 <= i < |vmas| && 0 <= j < |vmas| && i != j && vmas[i].used && vmas[j].used ==>
      vmas[i].addr + vmas[i].len <= vmas[j].addr || vmas[j].addr + vmas[j].len <= vmas[i].addr
  }

  /** Every used VMA lies between the top of the heap and the trapframe,
      and no two overlap. */
  ghost predicate VmasWf(p: Proc) {
    Disjoint(p.vmas)
    && forall j :: 0 <= j < |p.vmas| && p.vmas[j].used ==>
         p.sz <= p.vmas[j].addr && p.vmas[j].addr + p.vmas[j].len <= TRAPFRAME
  }

  /** The inner loop of sys_mmap's address search. */
  method CheckConflict(vmas: seq<Vma>, va: int, sz: int) returns (conflict: bool)
    ensures conflict <==> Conflict(vmas, va, sz)
  {
    conflict := false;
    var i := 0;
    while i < |vmas|
      invariant 0 <= i <= |vmas|
      invariant forall j :: 0 <= j < i ==> !Overlaps(vmas[j], va, sz)
    {
      if Overlaps(vmas[i], va, sz) {
        conflict := true;
        break;
      }
      i := i + 1;
    }
    if va + sz > TRAPFRAME {
      conflict := true;
    }
  }

  /** The outer loop of sys_mmap's address search: walk down one page at a
      time from MAXVA - PGSIZE while the start stays at or above the heap
      top plus the mapping size, and stop at the first free region. The
      result is the highest free candidate; below `psz + sz` means none. */
  method FindVa(vmas: seq<Vma>, psz: nat, sz: nat) returns (va: int)
    ensures va >= psz + sz ==> Candidate(va) && !Conflict(vmas, va, sz)
    ensures va >= psz + sz ==> forall w: int :: Candidate(w) && va < w ==> Conflict(vmas, w, sz)
    ensures va < psz + sz ==> forall w: int :: Candidate(w) && psz + sz <= w ==> Conflict(vmas, w, sz)
  {
    va := TRAMPOLINE;
    while va >= psz + sz
      invariant va <= TRAMPOLINE && va % Kalloc.PGSIZE == 0
      invariant va >= 0 || va + Kalloc.PGSIZE >= psz + sz
      invariant forall w: int :: Candidate(w) && va < w && psz + sz <= w ==> Conflict(vmas, w, sz)
      decreases va + Kalloc.PGSIZE
    {
      var conflict := CheckConflict(vmas, va, sz);
      if !conflict {
        break;
      }
      forall w: int | Candidate(w) && va - Kalloc.PGSIZE < w && psz + sz <= w
        ensures Conflict(vmas, w, sz)
      {
        if w < va {
          Kalloc.ModGap(w, va);
        }
      }
      va := va - Kalloc.PGSIZE;
    }
  }

  /** A file may back a mapping when it is readable and, for a shared
      mapping with write permission, also writable. */
  predicate MayMap(f: File, prot: int, flags: int) {
    f.readable && (flags == MAP_SHARED && Bit(prot, 1) ==> f.writable)
  }

  /** sys_mmap: map `len` bytes of the file open at `fd` at the highest
      free page-aligned address below the trapframe, recording the mapping
      in the first unused VMA. Pages are filled lazily by HandleMmapFault. */
  method Mmap(p: Proc, addr: nat, len: nat, prot: int, flags: int, fd: int, offset: nat)
    returns (p': Proc, ret: nat)
    requires ProcWf(p)
    ensures ret != MAP_FAILED <==>
              addr == 0 && len > 0 && ArgFd(p.ofile, fd).Some?
              && MayMap(ArgFd(p.ofile, fd).value, prot, flags)
              && FreeVma(p.vmas, 0).Some?
              && Room(p.vmas, p.sz, Kalloc.PgRoundUp(len))
    ensures ret == MAP_FAILED ==> p' == p
    ensures ret != MAP_FAILED ==>
              var sz := Kalloc.PgRoundUp(len);
              && Candidate(ret) && p.sz + sz <= ret && ret + sz <= TRAPFRAME
              && (forall j :: 0 <= j < |p.vmas| ==> !Overlaps(p.vmas[j], ret, sz))
              && (forall w: int :: Candidate(w) && ret < w ==> Conflict(p.vmas, w, sz))
              && p' == p.(vmas := p.vmas[FreeVma(p.vmas, 0).value :=
                                         Vma(true, ret, sz, prot, flags, ArgFd(p.ofile, fd).value, offset)])
    ensures VmasWf(p) ==> VmasWf(p')
  {
    p', ret := p, MAP_FAILED;
    if addr != 0 || len == 0 {
      return;
    }
    var file := ArgFd(p.ofile, fd);
    if file.None? || !MayMap(file.value, prot, flags) {
      return;
    }
    var slot := FreeVma(p.vmas, 0);
    if slot.None? {
      return;
    }
    var sz := Kalloc.PgRoundUp(len);
    var va := FindVa(p.vmas, p.sz, sz);
    if va < p.sz + sz {
      assert !Room(p.vmas, p.sz, sz);
      return;
    }
    var v := Vma(true, va, sz, prot, flags, file.value, offset);
    p' := p.(vmas := p.vmas[slot.value := v]);
    ret := va;
    assert Room(p.vmas, p.sz, sz);
    InsertKeepsWf(p, slot.value, v);
  }

  /** Recording a VMA that meets no used VMA and sits between the heap top
      and the trapframe keeps the table well formed. */
  lemma InsertKeepsWf(p: Proc, i: nat, v: Vma)
    requires i < |p.vmas| && !p.vmas[i].used && v.used
    requires p.sz <= v.addr && v.addr + v.len <= TRAPFRAME
    requires forall j :: 0 <= j < |p.vmas| ==> !Overlaps(p.vmas[j], v.addr, v.len)
    ensures VmasWf(p) ==> VmasWf(p.(vmas := p.vmas[i := v]))
  {
  }

  // ---------------------------------------------------------------- munmap

  /** PGROUNDDOWN. */
  function PgRoundDown(a: nat): (r: nat)
    ensures r % Kalloc.PGSIZE == 0 && r <= a < r + Kalloc.PGSIZE
  {
    (a / Kalloc.PGSIZE) * Kalloc.PGSIZE
  }

  /** The file offset that backs address `va` of mapping `v`, computed in
      uint64 as the source does. */
  function FileOffset(v: Vma, va: nat): (r: nat)
    ensures 0 <= v.offset + va - v.addr < U64 ==> r == v.offset + va - v.addr
    ensures r < U64 && (r - (v.offset + va - v.addr)) % U64 == 0
  {
    (v.offset + va - v.addr) % U64
  }

  /** The guard of sys_munmap: the range must start at the VMA's start or
      end at its end. */
  predicate MunmapGuard(v: Vma, addr: nat, len: nat) {
    addr == v.addr || addr + len == v.addr + v.len
  }

  /** The VMA bookkeeping at the end of sys_munmap, as written: fields are
      uint64, so `vma->len -= len` wraps when a range that starts at the
      VMA's start is longer than the VMA. */
  function UnmapVmaAsWritten(v: Vma, addr: nat, len: nat): (r: Vma)
    ensures addr == v.addr && len == v.len ==> !r.used
    ensures r.used ==> r.len < U64 && r.f == v.f && r.flags == v.flags
  {
    if addr == v.addr && len == v.len then v.(used := false)
    else if addr == v.addr then
      v.(addr := (v.addr + len) % U64, len := (v.len - len) % U64, offset := (v.offset + len) % U64)
    else v.(len := (v.len - len) % U64)
  }

  /** The bookkeeping with the range limited to the VMA, as the guard's
      comment intends (whole region, a prefix, or a suffix). What is left
      is exactly the old range minus [addr, addr+len), and every remaining
      address keeps its file offset. */
  function UnmapVma(v: Vma, addr: nat, len: nat): (r: Vma)
    requires Contains(v, addr) && MunmapGuard(v, addr, len) && addr + len <= v.addr + v.len
    ensures forall x: int :: Contains(r, x) <==> Contains(v, x) && !(addr <= x < addr + len)
    ensures forall x: nat :: Contains(r, x) ==> r.offset + (x - r.addr) == v.offset + (x - v.addr)
    ensures r.used ==> r.len > 0
    ensures r.f == v.f && r.flags == v.flags && r.prot == v.prot
  {
    if addr == v.addr && len == v.len then v.(used := false)
    else if addr == v.addr then v.(addr := v.addr + len, len := v.len - len, offset := v.offset + len)
    else v.(len := v.len - len)
  }

  /** The two agree whenever the range stays inside a VMA whose fields fit
      in 64 bits. */
  lemma UnmapVmaAgrees(v: Vma, addr: nat, len: nat)
    requires Contains(v, addr) && MunmapGuard(v, addr, len) && addr + len <= v.addr + v.len
    requires v.addr + v.len < U64 && v.offset + v.len < U64
    ensures UnmapVmaAsWritten(v, addr, len) == UnmapVma(v, addr, len)
  {
  }

  /** The VMA lookup as the source performs it: the end `addr + len` is a
      uint64 sum, so it wraps when the length is close to 2^64. */
  predicate ContainsAsWritten(v: Vma, va: nat) {
    v.used && v.addr <= va && va < (v.addr + v.len) % U64
  }

  /** As written, unmapping two pages from the start of a one-page VMA
      passes the guard and leaves a VMA of length 2^64 - 4096 whose uint64
      end wraps below its start: the slot stays in use (its file is never
      closed) but no address passes the source's lookup any more. */
  lemma MunmapAsWrittenWraps()
    ensures var v := Vma(true, 0x1000_0000, 4096, PROT_READ, MAP_SHARED, File(true, true), 0);
            var r := UnmapVmaAsWritten(v, 0x1000_0000, 8192);
            && ContainsAsWritten(v, 0x1000_0000) && MunmapGuard(v, 0x1000_0000, 8192)
            && r.used && r.len == U64 - 4096
            && (r.addr + r.len) % U64 < r.addr
            && forall x: nat :: !ContainsAsWritten(r, x)
  {
  }

  /** The aligned pages `va`, `va + PGSIZE`, ... below `end` that are
      mapped, in increasing order. */
  function MappedFrom(mapped: set<nat>, va: nat, end: nat): (r: seq<nat>)
    decreases end - va
  {
    if va >= end then []
    else (if va in mapped then [va] else []) + MappedFrom(mapped, va + Kalloc.PGSIZE, end)
  }

  /** Stepping one page along the grid through `va`. */
  lemma GridStep(va: nat, x: nat)
    requires va < x
    ensures (x - va) % Kalloc.PGSIZE == 0 <==> x >= va + Kalloc.PGSIZE && (x - (va + Kalloc.PGSIZE)) % Kalloc.PGSIZE == 0
  {
    var d := x - va;
    if d < Kalloc.PGSIZE {
      assert d % Kalloc.PGSIZE == d;
    } else {
      assert (d - Kalloc.PGSIZE) % Kalloc.PGSIZE == d % Kalloc.PGSIZE;
    }
  }

  /** MappedFrom lists exactly the mapped pages of [va, end) on the page
      grid through `va`. */
  lemma {:induction false} MappedFromMembers(mapped: set<nat>, va: nat, end: nat)
    ensures forall x: nat :: x in MappedFrom(mapped, va, end) <==>
              x in mapped && va <= x < end && (x - va) % Kalloc.PGSIZE == 0
    decreases end - va
  {
    if va < end {
      var rest := MappedFrom(mapped, va + Kalloc.PGSIZE, end);
      assert MappedFrom(mapped, va, end) == (if va in mapped then [va] else []) + rest;
      MappedFromMembers(mapped, va + Kalloc.PGSIZE, end);
      forall x: nat ensures x in MappedFrom(mapped, va, end) <==>
                              x in mapped && va <= x < end && (x - va) % Kalloc.PGSIZE == 0
      {
        if va < x {
          GridStep(va, x);
        }
      }
    }
  }

  /** ... and lists them in strictly increasing order. */
  lemma {:induction false} MappedFromSorted(mapped: set<nat>, va: nat, end: nat)
    ensures forall i, j :: 0 <= i < j < |MappedFrom(mapped, va, end)| ==>
              MappedFrom(mapped, va, end)[i] < MappedFrom(mapped, va, end)[j]
    decreases end - va
  {
    if va < end {
      var rest := MappedFrom(mapped, va + Kalloc.PGSIZE, end);
      MappedFromSorted(mapped, va + Kalloc.PGSIZE, end);
      MappedFromMembers(mapped, va + Kalloc.PGSIZE, end);
      assert forall k :: 0 <= k < |rest| ==> rest[k] in rest;
    }
  }

  /** The first `n` elements of `s`, or all of it. */
  function Cap(s: seq<nat>, n: nat): (r: seq<nat>)
    ensures |r| <= n && r <= s
    ensures |s| <= n ==> r == s
    ensures |s| > n ==> |r| == n
  {
    if |s| <= n then s else s[..n]
  }

  lemma CapFull(d: seq<nat>, x: seq<nat>)
    requires |d| == 16
    ensures Cap(d + x, 16) == d
  {
    assert (d + x)[..16] == d;
  }

  /** The dirty-page scan of sys_munmap: the mapped pages of [start, end),
      at most 16 of them, lowest first. */
  method CollectDirty(mapped: set<nat>, start: nat, end: nat) returns (pages: seq<nat>)
    ensures pages == Cap(MappedFrom(mapped, start, end), 16)
  {
    pages := [];
    var va := start;
    while va < end
      invariant start <= va
      invariant |pages| <= 16
      invariant Cap(pages + MappedFrom(mapped, va, end), 16) == Cap(MappedFrom(mapped, start, end), 16)
      decreases end - va
    {
      if va in mapped {
        if |pages| < 16 {
          assert pages + MappedFrom(mapped, va, end)
              == (pages + [va]) + MappedFrom(mapped, va + Kalloc.PGSIZE, end);
          pages := pages + [va];
        } else {
          CapFull(pages, MappedFrom(mapped, va, end));
          CapFull(pages, MappedFrom(mapped, va + Kalloc.PGSIZE, end));
        }
      } else {
        assert MappedFrom(mapped, va, end) == MappedFrom(mapped, va + Kalloc.PGSIZE, end);
      }
      va := va + Kalloc.PGSIZE;
    }
    assert pages + [] == pages;
  }

  /** How many bytes of a dirty page go back to the file: the page, cut at
      the end of the file so that write-back never grows it. */
  function WriteBackLen(offset: nat, size: nat): (r: nat)
    ensures r <= Kalloc.PGSIZE
    ensures r > 0 <==> offset < size
    ensures offset + r <= size || r == 0
    ensures offset + Kalloc.PGSIZE <= size ==> r == Kalloc.PGSIZE
    ensures offset < size < offset + Kalloc.PGSIZE ==> offset + r == size
  {
    if offset < size then (if size - offset > Kalloc.PGSIZE then Kalloc.PGSIZE else size - offset) else 0
  }

  datatype Write = Write(offset: nat, bytes: nat)

  /** The write-back of one dirty page of `v` into a file of `size`
      bytes: the page's file offset and how many bytes go back. */
  function PageWrite(v: Vma, size: nat, page: nat): Write {
    var off := FileOffset(v, page);
    Write(off, WriteBackLen(off, size))
  }

  /** The writei calls for the collected pages of `v`, in page order: one
      per page whose file offset is inside the file; a page at or past the
      end of the file is skipped. */
  function Writes(v: Vma, size: nat, pages: seq<nat>): (r: seq<Write>)
    ensures |r| <= |pages|
    ensures forall k :: 0 <= k < |r| ==>
              && r[k].bytes == WriteBackLen(r[k].offset, size)
              && 0 < r[k].bytes <= Kalloc.PGSIZE && r[k].offset + r[k].bytes <= size
  {
    if pages == [] then []
    else
      var w := PageWrite(v, size, pages[0]);
      (if w.bytes > 0 then [w] else []) + Writes(v, size, pages[1..])
  }

  /** The writes are exactly the non-empty write-backs of the pages. */
  lemma {:induction false} WritesMembers(v: Vma, size: nat, pages: seq<nat>)
    ensures forall w :: w in Writes(v, size, pages) <==>
              w.bytes > 0 && exists j :: 0 <= j < |pages| && w == PageWrite(v, size, pages[j])
    decreases |pages|
  {
    if pages != [] {
      var tail := pages[1..];
      WritesMembers(v, size, tail);
      var w0 := PageWrite(v, size, pages[0]);
      assert Writes(v, size, pages) == (if w0.bytes > 0 then [w0] else []) + Writes(v, size, tail);
      forall w ensures w in Writes(v, size, pages) <==>
                 w.bytes > 0 && exists j :: 0 <= j < |pages| && w == PageWrite(v, size, pages[j]) {
        if w.bytes > 0 && exists j :: 0 <= j < |pages| && w == PageWrite(v, size, pages[j]) {
          var j :| 0 <= j < |pages| && w == PageWrite(v, size, pages[j]);
          if j > 0 {
            assert tail[j - 1] == pages[j];
          }
        }
        if w in Writes(v, size, tail) {
          var j :| 0 <= j < |tail| && w == PageWrite(v, size, tail[j]);
          assert tail[j] == pages[j + 1];
        }
      }
    }
  }

  /** Pages whose file offsets are all at or past the end of the file
      produce no writes. */
  lemma NoWritesPastEnd(v: Vma, size: nat, pages: seq<nat>)
    requires forall j :: 0 <= j < |pages| ==> FileOffset(v, pages[j]) >= size
    ensures Writes(v, size, pages) == []
  {
    WritesMembers(v, size, pages);
  }

  /** The pages' file offsets strictly increase. */
  predicate OffsetsIncrease(v: Vma, pages: seq<nat>) {
    forall i, j :: 0 <= i < j < |pages| ==> FileOffset(v, pages[i]) < FileOffset(v, pages[j])
  }

  /** When the pages' file offsets increase, the writes are exactly those
      of a prefix of the pages, in order, and every page after that prefix
      lies at or past the end of the file. */
  lemma {:induction false} WritesPrefix(v: Vma, size: nat, pages: seq<nat>)
    requires OffsetsIncrease(v, pages)
    ensures forall k :: 0 <= k < |Writes(v, size, pages)| ==> Writes(v, size, pages)[k] == PageWrite(v, size, pages[k])
    ensures forall k :: |Writes(v, size, pages)| <= k < |pages| ==> FileOffset(v, pages[k]) >= size
    decreases |pages|
  {
    if pages != [] {
      var tail := pages[1..];
      var w := PageWrite(v, size, pages[0]);
      var r := Writes(v, size, pages);
      var rest := Writes(v, size, tail);
      assert r == (if w.bytes > 0 then [w] else []) + rest;
      if w.bytes > 0 {
        TailIncreasing(v, pages);
        WritesPrefix(v, size, tail);
        forall k | 0 <= k < |r| ensures r[k] == PageWrite(v, size, pages[k]) {
          if k > 0 {
            assert r[k] == rest[k - 1] && tail[k - 1] == pages[k];
          }
        }
        forall k | |r| <= k < |pages| ensures FileOffset(v, pages[k]) >= size {
          assert tail[k - 1] == pages[k];
        }
      } else {
        forall j | 0 <= j < |tail| ensures FileOffset(v, tail[j]) >= size {
          assert tail[j] == pages[j + 1];
          assert FileOffset(v, pages[0]) < FileOffset(v, pages[j + 1]);
        }
        NoWritesPastEnd(v, size, tail);
        forall k | 0 <= k < |pages| ensures FileOffset(v, pages[k]) >= size {
          if k > 0 {
            assert FileOffset(v, pages[0]) < FileOffset(v, pages[k]);
          }
        }
      }
    }
  }

  lemma TailIncreasing(v: Vma, pages: seq<nat>)
    requires pages != [] && OffsetsIncrease(v, pages)
    ensures OffsetsIncrease(v, pages[1..])
  {
    forall i, j | 0 <= i < j < |pages[1..]| ensures FileOffset(v, pages[1..][i]) < FileOffset(v, pages[1..][j]) {
      assert pages[1..][i] == pages[i + 1] && pages[1..][j] == pages[j + 1];
    }
  }

  /** The dirty pages munmap collects from a mapping it can reach without
      wrapping have strictly increasing file offsets. */
  lemma DirtyOffsetsIncrease(v: Vma, mapped: set<nat>, start: nat, end: nat)
    requires v.addr <= start && v.offset + end <= U64 + v.addr
    ensures OffsetsIncrease(v, Cap(MappedFrom(mapped, start, end), 16))
  {
    var all := MappedFrom(mapped, start, end);
    var pages := Cap(all, 16);
    MappedFromSorted(mapped, start, end);
    MappedFromMembers(mapped, start, end);
    forall i, j | 0 <= i < j < |pages| ensures FileOffset(v, pages[i]) < FileOffset(v, pages[j]) {
      assert pages[i] == all[i] && pages[j] == all[j];
      assert all[i] in all && all[j] in all;
    }
  }

  /** munmap's write-back for a mapping reachable without wrapping: the
      k-th write is the k-th collected dirty page's, and the pages left
      without a write lie at or past the end of the file. */
  lemma SharedWriteBack(v: Vma, mapped: set<nat>, size: nat, start: nat, end: nat)
    requires v.addr <= start && v.offset + end <= U64 + v.addr
    ensures var pages := Cap(MappedFrom(mapped, start, end), 16);
            var w := Writes(v, size, pages);
            && (forall k :: 0 <= k < |w| ==> w[k] == PageWrite(v, size, pages[k]))
            && (forall k :: |w| <= k < |pages| ==> FileOffset(v, pages[k]) >= size)
  {
    var pages := Cap(MappedFrom(mapped, start, end), 16);
    DirtyOffsetsIncrease(v, mapped, start, end);
    WritesPrefix(v, size, pages);
  }

  /** The pages of `mapped` outside [start, end). */
  function Unmapped(mapped: set<nat>, start: nat, end: nat): (r: set<nat>)
    ensures forall x :: x in r <==> x in mapped && !(start <= x < end)
  {
    set x | x in mapped && !(start <= x < end)
  }

  /** sys_munmap with the range limited to the VMA that holds `addr`: write
      back at most 16 mapped pages of a shared mapping, cut at `fileSize`,
      the size of the file's inode when munmap runs, then drop the PTEs of
      the range, and shrink or free the VMA. */
  method Munmap(p: Proc, addr: nat, len: nat, fileSize: nat) returns (p': Proc, ret: int, writes: seq<Write>)
    requires ProcWf(p)
    ensures ret == -1 <==>
              FindVma(p.vmas, addr, 0).None?
              || !MunmapGuard(p.vmas[FindVma(p.vmas, addr, 0).value], addr, len)
              || addr + len > p.vmas[FindVma(p.vmas, addr, 0).value].addr
                              + p.vmas[FindVma(p.vmas, addr, 0).value].len
    ensures ret == -1 ==> p' == p && writes == []
    ensures ret == 0 ==>
              var i := FindVma(p.vmas, addr, 0).value;
              var v := p.vmas[i];
              && p'.sz == p.sz && p'.ofile == p.ofile
              && p'.vmas == p.vmas[i := UnmapVma(v, addr, len)]
              && p'.mapped == Unmapped(p.mapped, PgRoundDown(addr), Kalloc.PgRoundUp(addr + len))
              && |writes| <= 16
              && (v.flags != MAP_SHARED ==> writes == [])
              && (v.flags == MAP_SHARED ==>
                    writes == Writes(v, fileSize, Cap(MappedFrom(p.mapped, PgRoundDown(addr), Kalloc.PgRoundUp(addr + len)), 16)))
              && (forall k :: 0 <= k < |writes| ==> writes[k].offset + writes[k].bytes <= fileSize)
    ensures ret == -1 || ret == 0
    ensures ret == 0 && VmasWf(p) ==> VmasWf(p')
  {
    p', ret, writes := p, -1, [];
    var found := FindVma(p.vmas, addr, 0);
    if found.None? {
      return;
    }
    var i := found.value;
    var v := p.vmas[i];
    if !MunmapGuard(v, addr, len) || addr + len > v.addr + v.len {
      return;
    }
    var start := PgRoundDown(addr);
    var end := Kalloc.PgRoundUp(addr + len);
    if v.flags == MAP_SHARED {
      var pages := CollectDirty(p.mapped, start, end);
      writes := Writes(v, fileSize, pages);
    }
    var v' := UnmapVma(v, addr, len);
    p' := p.(vmas := p.vmas[i := v'], mapped := Unmapped(p.mapped, start, end));
    ret := 0;
    ShrinkKeepsWf(p, i, v');
  }

  /** Replacing a VMA by one that holds a subset of its addresses keeps the
      table well formed. */
  lemma ShrinkKeepsWf(p: Proc, i: nat, v': Vma)
    requires i < |p.vmas| && p.vmas[i].used
    requires v'.used ==> v'.len > 0
    requires forall x: int :: Contains(v', x) ==> Contains(p.vmas[i], x)
    ensures VmasWf(p) ==> VmasWf(p.(vmas := p.vmas[i := v']))
  {
    var v := p.vmas[i];
    if VmasWf(p) && v'.used {
      assert Contains(v', v'.addr);
      assert Contains(v', v'.addr + v'.len - 1);
      assert v.addr <= v'.addr && v'.addr + v'.len <= v.addr + v.len;
    }
  }

  // ---------------------------------------------------------------- page faults

  /** The PTE permission bits for a mapping's PROT bits: user access plus
      R, W and X exactly when PROT_READ, PROT_WRITE and PROT_EXEC are set. */
  function Perm(prot: int): (r: int)
    ensures Bit(r, 4) && !Bit(r, 0)
    ensures Bit(r, 1) == Bit(prot, 0) && Bit(r, 2) == Bit(prot, 1) && Bit(r, 3) == Bit(prot, 2)
    ensures 0 <= r < 32
  {
    PTE_U + (if Bit(prot, 0) then PTE_R else 0) + (if Bit(prot, 1) then PTE_W else 0)
          + (if Bit(prot, 2) then PTE_X else 0)
  }

  /** The PROT bits a PTE's permission bits grant. */
  function ProtOf(perm: int): (r: int)
    ensures 0 <= r < 8
  {
    (perm / 2) % 8
  }

  /** Reading the permissions back yields the mapping's three PROT bits. */
  lemma PermRoundTrip(prot: int)
    ensures ProtOf(Perm(prot)) == prot % 8
  {
    var b0 := if Bit(prot, 0) then 1 else 0;
    var b1 := if Bit(prot, 1) then 1 else 0;
    var b2 := if Bit(prot, 2) then 1 else 0;
    LowBits(prot);
    assert Perm(prot) == 16 + 2 * (b0 + 2 * b1 + 4 * b2);
  }

  lemma LowBits(x: int)
    ensures x % 8 == (if Bit(x, 0) then 1 else 0) + 2 * (if Bit(x, 1) then 1 else 0)
                     + 4 * (if Bit(x, 2) then 1 else 0)
  {
    var q := x / 8;
    var m := x % 8;
    assert x == 8 * q + m;
    assert x / 2 == 4 * q + m / 2;
    assert x / 4 == 2 * q + m / 4;
  }

  datatype FaultResult = FaultFail | FaultMapped(p: Proc, vma: nat, page: nat, fileOffset: nat, perm: int)

  /** handle_mmap_fault: fill the page holding `va` from the file behind
      its VMA. `pa` is what kalloc returned (0 when memory is exhausted),
      `readOk` whether readi succeeded and `mapOk` whether mappages did. */
  function HandleMmapFault(p: Proc, va: nat, pa: nat, readOk: bool, mapOk: bool): (r: FaultResult)
    requires ProcWf(p)
    ensures r.FaultFail? <==>
              FindVma(p.vmas, va, 0).None? || PgRoundDown(va) in p.mapped || pa == 0 || !readOk || !mapOk
    ensures r.FaultMapped? ==>
              && r.vma == FindVma(p.vmas, va, 0).value
              && Contains(p.vmas[r.vma], va)
              && r.page == PgRoundDown(va) && r.page !in p.mapped
              && r.p == p.(mapped := p.mapped + {r.page})
              && r.fileOffset == FileOffset(p.vmas[r.vma], r.page)
              && ProtOf(r.perm) == p.vmas[r.vma].prot % 8 && Bit(r.perm, 4)
              && r.perm == Perm(p.vmas[r.vma].prot)
  {
    var found := FindVma(p.vmas, va, 0);
    if found.None? then FaultFail
    else
      var v := p.vmas[found.value];
      var page := PgRoundDown(va);
      if page in p.mapped || pa == 0 || !readOk || !mapOk then FaultFail
      else
        PermRoundTrip(v.prot);
        FaultMapped(p.(mapped := p.mapped + {page}), found.value, page, FileOffset(v, page), Perm(v.prot))
  }

  /** Once a fault has filled a page, a second fault on any address of that
      page is refused as a protection fault. */
  lemma FaultTwiceFails(p: Proc, va: nat, va2: nat, pa: nat, pa2: nat, readOk: bool, mapOk: bool)
    requires ProcWf(p)
    requires HandleMmapFault(p, va, pa, readOk, mapOk).FaultMapped?
    requires PgRoundDown(va2) == PgRoundDown(va)
    ensures HandleMmapFault(HandleMmapFault(p, va, pa, readOk, mapOk).p, va2, pa2, true, true).FaultFail?
  {
  }

  /** For an aligned mapping inside 64 bits, the page a fault fills is read
      from the file offset that backs it, and lies within the mapping. */
  lemma FaultReadsBackingOffset(p: Proc, va: nat, pa: nat)
    requires ProcWf(p)
    requires HandleMmapFault(p, va, pa, true, true).FaultMapped?
    ensures var r := HandleMmapFault(p, va, pa, true, true);
            var v := p.vmas[r.vma];
            v.addr % Kalloc.PGSIZE == 0 && v.offset + v.len < U64 ==>
              v.addr <= r.page < v.addr + v.len && r.fileOffset == v.offset + (r.page - v.addr)
  {
    var r := HandleMmapFault(p, va, pa, true, true);
    var v := p.vmas[r.vma];
    if v.addr % Kalloc.PGSIZE == 0 && v.offset + v.len < U64 {
      if r.page < v.addr {
        Kalloc.ModGap(r.page, v.addr);
      }
    }
  }

  /** A fault on `va` followed by munmap(addr, len): when munmap succeeds
      the faulted page stays mapped exactly when it lies outside the
      page-rounded range, and when munmap fails it stays mapped. */
  method FaultThenMunmap(p: Proc, va: nat, pa: nat, addr: nat, len: nat, fileSize: nat) returns (p': Proc, ret: int)
    requires ProcWf(p) && HandleMmapFault(p, va, pa, true, true).FaultMapped?
    ensures var page := PgRoundDown(va);
            && (ret == 0 ==> (page in p'.mapped <==> !(PgRoundDown(addr) <= page < Kalloc.PgRoundUp(addr + len))))
            && (ret == -1 ==> page in p'.mapped)
  {
    var f := HandleMmapFault(p, va, pa, true, true);
    var w;
    p', ret, w := Munmap(f.p, addr, len, fileSize);
  }
}

=== FILE: Wire.dfy ===
/** Wire formats of kernel/net.c as byte layouts: the Ethernet II header,
    the option-less IPv4 header (RFC 791, section 3.1), the UDP header
    (RFC 768, "Format") and the Ethernet/IPv4 ARP packet (RFC 826, "Packet
    format"). All multi-byte fields are in network byte order, except the IP
    checksum, which the kernel stores little-endian (see Checksum). */
module Wire {
  import opened Bytes
  import opened Checksum

  const ETH_LEN: nat := 14
  const IP_LEN: nat := 20
  const UDP_LEN: nat := 8
  const ARP_LEN: nat := 28
  /** Offset of the UDP payload in a frame. */
  const HDRS_LEN: nat := 42

  const ETHTYPE_IP: nat := 0x0800
  const ETHTYPE_ARP: nat := 0x0806
  const IPPROTO_UDP: nat := 17
  const ARP_HRD_ETHER: nat := 1
  const ARP_OP_REPLY: nat := 2
  const IP_TTL: nat := 100

  /** 52:54:00:12:34:56, the kernel's own Ethernet address. */
  const LOCAL_MAC: seq<byte> := [0x52, 0x54, 0x00, 0x12, 0x34, 0x56]
  /** 52:55:0a:00:02:02, the single peer (the emulator's host side). */
  const HOST_MAC: seq<byte> := [0x52, 0x55, 0x0a, 0x00, 0x02, 0x02]
  /** 10.0.2.15 */
  const LOCAL_IP: nat := 0x0A00_020F

  function EthHeader(dhost: seq<byte>, shost: seq<byte>, etype: nat): (r: seq<byte>)
    requires |dhost| == 6 && |shost| == 6
    ensures |r| == ETH_LEN
  {
    dhost + shost + Be16(etype)
  }

  /** The IP header as `sys_send` fills it before the checksum: the
      checksum field (bytes 10-11) is still zero from the page memset. */
  function IpHeaderUnsummed(payloadLen: int, dst: int): (r: seq<byte>)
    ensures |r| == IP_LEN
  {
    [0x45, 0] + Be16(IP_LEN + UDP_LEN + payloadLen) + [0, 0, 0, 0, IP_TTL, IPPROTO_UDP, 0, 0]
    + Be32(LOCAL_IP) + Be32(dst)
  }

  /** The IP header with `in_cksum` of the unsummed header stored in the
      checksum field through an `unsigned short`. */
  function IpHeader(payloadLen: int, dst: int): (r: seq<byte>)
    ensures |r| == IP_LEN
  {
    var h := IpHeaderUnsummed(payloadLen, dst);
    var c := StoreLE16(InCksumValue(h));
    h[10 := c[0]][11 := c[1]]
  }

  /** The UDP header: ports, length including the 8-byte header, and a zero
      (unused) checksum. */
  function UdpHeader(sport: int, dport: int, payloadLen: int): (r: seq<byte>)
    ensures |r| == UDP_LEN
  {
    Be16(sport) + Be16(dport) + Be16(payloadLen + UDP_LEN) + [0, 0]
  }

  /** The frame `sys_send` hands to the driver (its first `total` bytes). */
  function UdpFrame(sport: int, dst: int, dport: int, payload: seq<byte>): (r: seq<byte>)
    ensures |r| == HDRS_LEN + |payload|
  {
    EthHeader(HOST_MAC, LOCAL_MAC, ETHTYPE_IP) + IpHeader(|payload|, dst)
    + UdpHeader(sport, dport, |payload|) + payload
  }

  // Field readers used by the receive path; offsets are those of the
  // struct overlays eth, ip and udp placed back to back.

  function EthType(f: seq<byte>): nat
    requires |f| >= ETH_LEN
  {
    Get16(f, 12)
  }

  function IpProto(f: seq<byte>): nat
    requires |f| >= ETH_LEN + IP_LEN
  {
    f[ETH_LEN + 9]
  }

  function IpSrc(f: seq<byte>): nat
    requires |f| >= ETH_LEN + IP_LEN
  {
    Get32(f, ETH_LEN + 12)
  }

  function IpDst(f: seq<byte>): nat
    requires |f| >= ETH_LEN + IP_LEN
  {
    Get32(f, ETH_LEN + 16)
  }

  function UdpSport(f: seq<byte>): nat
    requires |f| >= HDRS_LEN
  {
    Get16(f, ETH_LEN + IP_LEN)
  }

  function UdpDport(f: seq<byte>): nat
    requires |f| >= HDRS_LEN
  {
    Get16(f, ETH_LEN + IP_LEN + 2)
  }

  function UdpUlen(f: seq<byte>): nat
    requires |f| >= HDRS_LEN
  {
    Get16(f, ETH_LEN + IP_LEN + 4)
  }

  /** The ARP reply `arp_rx` builds for an inbound ARP frame `q`: Ethernet
      destination and target hardware address are the querier's source
      address; the sender is the kernel's own MAC/IP; the target protocol
      address is copied from the query's sender protocol address. */
  function ArpReply(q: seq<byte>): (r: seq<byte>)
    requires |q| >= ETH_LEN + ARP_LEN
    ensures |r| == ETH_LEN + ARP_LEN
  {
    EthHeader(q[6..12], LOCAL_MAC, ETHTYPE_ARP) + ArpBody(q)
  }

  /** The IP header `sys_send` writes carries version 4 / IHL 5, TTL 100,
      protocol UDP, the total length 28 + len, the kernel's address as source
      and the destination address, and its checksum verifies: running
      `in_cksum` over the finished header yields 0. The stored checksum bytes
      are the network-order RFC 1071 checksum of the zero-summed header. */
  lemma IpHeaderFields(payloadLen: int, dst: int)
    ensures var h := IpHeader(payloadLen, dst);
            && h[0] == 0x45 && h[8] == IP_TTL && h[9] == IPPROTO_UDP
            && Get16(h, 2) == (IP_LEN + UDP_LEN + payloadLen) % U16
            && Get32(h, 12) == LOCAL_IP && Get32(h, 16) == dst % U32
            && InCksumValue(h) == 0
    ensures var h0 := IpHeaderUnsummed(payloadLen, dst);
            WordSumBE(h0) < U32 && IpHeader(payloadLen, dst)[10..12] == Be16(RfcChecksum(h0))
  {
    var h0 := IpHeaderUnsummed(payloadLen, dst);
    var h := IpHeader(payloadLen, dst);
    assert h0 == [0x45, 0] + Be16(IP_LEN + UDP_LEN + payloadLen)
                 + [0, 0, 0, 0, IP_TTL, IPPROTO_UDP, 0, 0] + Be32(LOCAL_IP) + Be32(dst);
    Get16At([0x45, 0], IP_LEN + UDP_LEN + payloadLen, h0[4..]);
    assert h0 == [0x45, 0] + Be16(IP_LEN + UDP_LEN + payloadLen) + h0[4..];
    Get32At(h0[..12], LOCAL_IP, h0[16..]);
    assert h0 == h0[..12] + Be32(LOCAL_IP) + h0[16..];
    Get32At(h0[..16], dst, []);
    assert h0 == h0[..16] + Be32(dst) + [];
    assert h0[10] == 0 && h0[11] == 0;
    ChecksumVerifies(h0, 10);
    ByteOrderIndependent(h0);
    assert h[10..12] == StoreLE16(InCksumValue(h0));
    assert h[..10] == h0[..10] && h[12..] == h0[12..];
    assert Get16(h, 2) == Get16(h0, 2);
    assert Get32(h, 12) == Get32(h0, 12);
    assert Get32(h, 16) == Get32(h0, 16);
  }

  lemma EthHeaderFields(dhost: seq<byte>, shost: seq<byte>, etype: nat)
    requires |dhost| == 6 && |shost| == 6
    ensures var e := EthHeader(dhost, shost, etype);
            e[..6] == dhost && e[6..12] == shost && Get16(e, 12) == etype % U16
  {
    var e := EthHeader(dhost, shost, etype);
    Get16At(dhost + shost, etype, []);
    assert e == dhost + shost + Be16(etype) + [];
  }

  lemma UdpHeaderFields(sport: int, dport: int, payloadLen: int)
    ensures var u := UdpHeader(sport, dport, payloadLen);
            && Get16(u, 0) == sport % U16 && Get16(u, 2) == dport % U16
            && Get16(u, 4) == (payloadLen + UDP_LEN) % U16
  {
    var u := UdpHeader(sport, dport, payloadLen);
    Get16At([], sport, u[2..]);
    assert u == [] + Be16(sport) + u[2..];
    Get16At(u[..2], dport, u[4..]);
    assert u == u[..2] + Be16(dport) + u[4..];
    Get16At(u[..4], payloadLen + UDP_LEN, u[6..]);
    assert u == u[..4] + Be16(payloadLen + UDP_LEN) + u[6..];
  }

  lemma Get16Shift(f: seq<byte>, a: nat, off: nat)
    requires a + off + 2 <= |f|
    ensures Get16(f, a + off) == Get16(f[a..], off)
  {
  }

  lemma Get32Shift(f: seq<byte>, a: nat, off: nat)
    requires a + off + 4 <= |f|
    ensures Get32(f, a + off) == Get32(f[a..], off)
  {
  }

  /** Decoding the frame `sys_send` builds recovers every field it wrote. */
  lemma UdpFrameFields(sport: int, dst: int, dport: int, payload: seq<byte>)
    ensures var f := UdpFrame(sport, dst, dport, payload);
            && f[..6] == HOST_MAC && f[6..12] == LOCAL_MAC && EthType(f) == ETHTYPE_IP
            && f[ETH_LEN..ETH_LEN + IP_LEN] == IpHeader(|payload|, dst)
            && IpProto(f) == IPPROTO_UDP && IpSrc(f) == LOCAL_IP && IpDst(f) == dst % U32
            && UdpSport(f) == sport % U16 && UdpDport(f) == dport % U16
            && UdpUlen(f) == (|payload| + UDP_LEN) % U16
            && f[HDRS_LEN..] == payload
  {
    var e := EthHeader(HOST_MAC, LOCAL_MAC, ETHTYPE_IP);
    var h := IpHeader(|payload|, dst);
    var u := UdpHeader(sport, dport, |payload|);
    var f := UdpFrame(sport, dst, dport, payload);
    assert f[..14] == e && f[14..34] == h && f[34..42] == u && f[42..] == payload by {
      assert f == e + h + u + payload;
    }
    assert f[..6] == HOST_MAC && f[6..12] == LOCAL_MAC && EthType(f) == ETHTYPE_IP by {
      EthHeaderFields(HOST_MAC, LOCAL_MAC, ETHTYPE_IP);
      assert f[..6] == e[..6] && f[6..12] == e[6..12];
      Get16Shift(f[..14], 0, 12);
    }
    assert IpProto(f) == IPPROTO_UDP && IpSrc(f) == LOCAL_IP && IpDst(f) == dst % U32 by {
      IpHeaderFields(|payload|, dst);
      assert f[23] == h[9];
      Get32Shift(f, 14, 12);
      Get32Shift(f, 14, 16);
      assert f[14..][..20] == h;
    }
    assert UdpSport(f) == sport % U16 && UdpDport(f) == dport % U16
           && UdpUlen(f) == (|payload| + UDP_LEN) % U16 by {
      UdpHeaderFields(sport, dport, |payload|);
      Get16Shift(f, 34, 0);
      Get16Shift(f, 34, 2);
      Get16Shift(f, 34, 4);
      assert f[34..][..8] == u;
    }
  }

  /** The ARP reply answers the querier: it is addressed (Ethernet and ARP
      target) to the query's source MAC, names the kernel as sender, is an
      RFC 826 reply for Ethernet/IPv4, and echoes the querier's IP address as
      target protocol address. */
  lemma ArpReplyFields(q: seq<byte>)
    requires |q| >= ETH_LEN + ARP_LEN
    ensures var r := ArpReply(q);
            && r[..6] == q[6..12] && r[6..12] == LOCAL_MAC && EthType(r) == ETHTYPE_ARP
            && Get16(r, 14) == ARP_HRD_ETHER && Get16(r, 16) == ETHTYPE_IP
            && r[18] == 6 && r[19] == 4 && Get16(r, 20) == ARP_OP_REPLY
            && r[22..28] == LOCAL_MAC && Get32(r, 28) == LOCAL_IP
            && r[32..38] == q[6..12] && r[38..42] == q[28..32]
  {
    var r := ArpReply(q);
    var e := EthHeader(q[6..12], LOCAL_MAC, ETHTYPE_ARP);
    var a := ArpBody(q);
    assert r[..14] == e && r[14..] == a by {
      assert r == e + a;
    }
    assert r[..6] == q[6..12] && r[6..12] == LOCAL_MAC && EthType(r) == ETHTYPE_ARP by {
      EthHeaderFields(q[6..12], LOCAL_MAC, ETHTYPE_ARP);
      assert r[..6] == e[..6] && r[6..12] == e[6..12];
      Get16Shift(r[..14], 0, 12);
    }
    assert Get16(r, 14) == ARP_HRD_ETHER && Get16(r, 16) == ETHTYPE_IP
           && r[18] == 6 && r[19] == 4 && Get16(r, 20) == ARP_OP_REPLY by {
      ArpBodyFields(q);
      Get16Shift(r, 14, 0);
      Get16Shift(r, 14, 2);
      Get16Shift(r, 14, 6);
    }
    assert r[22..28] == LOCAL_MAC && Get32(r, 28) == LOCAL_IP
           && r[32..38] == q[6..12] && r[38..42] == q[28..32] by {
      ArpBodyFields(q);
      Get32Shift(r, 14, 14);
      assert r[22..28] == a[8..14] && r[32..38] == a[18..24] && r[38..42] == a[24..28];
    }
  }

  /** The 28-byte ARP packet of the reply. */
  function ArpBody(q: seq<byte>): (a: seq<byte>)
    requires |q| >= ETH_LEN + ARP_LEN
    ensures |a| == ARP_LEN
  {
    Be16(ARP_HRD_ETHER) + Be16(ETHTYPE_IP) + [6, 4] + Be16(ARP_OP_REPLY)
    + LOCAL_MAC + Be32(LOCAL_IP) + q[6..12] + q[28..32]
  }

  lemma ArpBodyFields(q: seq<byte>)
    requires |q| >= ETH_LEN + ARP_LEN
    ensures var a := ArpBody(q);
            && Get16(a, 0) == ARP_HRD_ETHER && Get16(a, 2) == ETHTYPE_IP && Get16(a, 6) == ARP_OP_REPLY
            && a[4] == 6 && a[5] == 4
            && a[8..14] == LOCAL_MAC && Get32(a, 14) == LOCAL_IP
            && a[18..24] == q[6..12] && a[24..28] == q[28..32]
  {
    var a := ArpBody(q);
    var h := Be16(ARP_HRD_ETHER) + Be16(ETHTYPE_IP) + [6, 4] + Be16(ARP_OP_REPLY);
    var ip := Be32(LOCAL_IP);
    assert a == h + LOCAL_MAC + ip + q[6..12] + q[28..32];
    assert h == [0, 1, 8, 0, 6, 4, 0, 2];
    assert ip == [10, 0, 2, 15];
    assert a[..8] == h && a[8..14] == LOCAL_MAC && a[14..18] == ip;
    assert a[18..24] == q[6..12] && a[24..28] == q[28..32];
    assert a[0] == 0 && a[1] == 1 && a[2] == 8 && a[3] == 0 && a[6] == 0 && a[7] == 2;
    assert a[14] == 10 && a[15] == 0 && a[16] == 2 && a[17] == 15;
  }
}

=== FILE: Xargs.dfy ===
/** user/xargs.c: run a command once per line of standard input, with the
    line appended as one extra argument. Standard input is a finite string,
    fork and exec are assumed to succeed, and the result is the list of
    argument vectors handed to exec, in order. */
module Xargs {
  const MAXARG: nat := 32
  /** Size of the line buffer; one byte is kept for the terminating NUL. */
  const MAX_LINE_LEN: nat := 512

  /** Whether `s` contains no newline. */
  predicate NoNl(s: string) {
    '\n' !in s
  }

  /** The lines, each followed by a newline. */
  function JoinNl(lines: seq<string>): (r: string)
  {
    if lines == [] then [] else lines[0] + "\n" + JoinNl(lines[1..])
  }

  lemma JoinNlCons(l: string, lines: seq<string>)
    ensures JoinNl([l] + lines) == l + "\n" + JoinNl(lines)
  {
    assert ([l] + lines)[1..] == lines;
  }

  lemma {:induction false} JoinNlSnoc(lines: seq<string>, l: string)
    ensures JoinNl(lines + [l]) == JoinNl(lines) + l + "\n"
  {
    if lines != [] {
      assert (lines + [l])[1..] == lines[1..] + [l];
      JoinNlSnoc(lines[1..], l);
    } else {
      assert [l][1..] == [];
    }
  }

  /** `input` is `lines`, each ended by a newline, followed by a tail with
      no newline. */
  ghost predicate SplitOf(input: string, lines: seq<string>, tail: string) {
    (forall k :: 0 <= k < |lines| ==> NoNl(lines[k])) && NoNl(tail) && input == JoinNl(lines) + tail
  }

  /** The index of the first newline of `s`, or |s| when there is none. */
  function NlIndex(s: string): (k: nat)
    ensures k <= |s| && (k < |s| ==> s[k] == '\n') && NoNl(s[..k])
  {
    if s == [] then 0
    else if s[0] == '\n' then 0
    else 1 + NlIndex(s[1..])
  }

  /** Standard input cut at newlines: the complete lines, and what follows
      the last newline. */
  function Split(s: string): (r: (seq<string>, string))
    ensures SplitOf(s, r.0, r.1)
    decreases |s|
  {
    var k := NlIndex(s);
    if k == |s| then ([], s)
    else
      var rest := Split(s[k + 1..]);
      SplitStep(s, k, rest.0, rest.1);
      ([s[..k]] + rest.0, rest.1)
  }

  lemma SplitStep(s: string, k: nat, lines: seq<string>, tail: string)
    requires k < |s| && s[k] == '\n' && NoNl(s[..k])
    requires SplitOf(s[k + 1..], lines, tail)
    ensures SplitOf(s, [s[..k]] + lines, tail)
  {
    JoinNlCons(s[..k], lines);
    assert s == s[..k] + "\n" + s[k + 1..];
    var ls := [s[..k]] + lines;
    forall j | 0 <= j < |ls| ensures NoNl(ls[j]) {
      if j > 0 { assert ls[j] == lines[j - 1]; }
    }
  }

  /** The first newline of `l + "\n" + rest` is the one after `l`. */
  lemma NlIndexAfter(l: string, rest: string)
    requires NoNl(l)
    ensures NlIndex(l + "\n" + rest) == |l|
  {
    var s := l + "\n" + rest;
    var k := NlIndex(s);
    assert s[|l|] == '\n';
  }

  /** There is only one way to cut a string at its newlines. */
  lemma {:induction false} SplitUnique(s: string, lines: seq<string>, tail: string)
    requires SplitOf(s, lines, tail)
    ensures Split(s) == (lines, tail)
    decreases |s|
  {
    if lines == [] {
      assert s == tail;
    } else {
      var l := lines[0];
      var rest := JoinNl(lines[1..]) + tail;
      assert lines == [l] + lines[1..];
      JoinNlCons(l, lines[1..]);
      assert s == l + "\n" + rest;
      assert NoNl(l);
      NlIndexAfter(l, rest);
      var k := |l|;
      assert s[..k] == l;
      assert s[k + 1..] == rest;
      assert SplitOf(rest, lines[1..], tail) by {
        forall j | 0 <= j < |lines[1..]| ensures NoNl(lines[1..][j]) {
          assert lines[1..][j] == lines[j + 1];
        }
      }
      SplitUnique(rest, lines[1..], tail);
      assert Split(s) == ([s[..k]] + Split(s[k + 1..]).0, Split(s[k + 1..]).1);
    }
  }

  /** The part of a line that fits in the buffer: the first 511 characters. */
  function Keep(l: string): (r: string)
    ensures r <= l && |r| <= MAX_LINE_LEN - 1
    ensures |l| <= MAX_LINE_LEN - 1 ==> r == l
    ensures |l| > MAX_LINE_LEN - 1 ==> |r| == MAX_LINE_LEN - 1
  {
    if |l| <= MAX_LINE_LEN - 1 then l else l[..MAX_LINE_LEN - 1]
  }

  /** The C string held in a buffer: everything before the first NUL. */
  function CStr(s: string): (r: string)
    ensures r <= s && (forall k :: 0 <= k < |r| ==> r[k] != '\0')
    ensures |r| < |s| ==> s[|r|] == '\0'
  {
    if s == [] || s[0] == '\0' then [] else [s[0]] + CStr(s[1..])
  }

  /** The argument a line contributes. */
  function Arg(l: string): string {
    CStr(Keep(l))
  }

  /** One exec argument vector per line: the command and its fixed
      arguments, then the line. */
  function PerLine(base: seq<string>, lines: seq<string>): (r: seq<seq<string>>)
    ensures |r| == |lines|
    ensures forall k :: 0 <= k < |r| ==> r[k] == base + [Arg(lines[k])]
  {
    seq(|lines|, k requires 0 <= k < |lines| => base + [Arg(lines[k])])
  }

  lemma PerLineSnoc(base: seq<string>, lines: seq<string>, l: string)
    ensures PerLine(base, lines + [l]) == PerLine(base, lines) + [base + [Arg(l)]]
  {
  }

  /** A newline closes the current line. */
  lemma NewlineStep(done: string, lines: seq<string>, tail: string)
    requires SplitOf(done, lines, tail)
    ensures SplitOf(done + "\n", lines + [tail], [])
  {
    JoinNlSnoc(lines, tail);
    var ls := lines + [tail];
    forall j | 0 <= j < |ls| ensures NoNl(ls[j]) {
      if j < |lines| { assert ls[j] == lines[j]; }
    }
  }

  /** Any other character extends it. */
  lemma CharStep(done: string, lines: seq<string>, tail: string, ch: char)
    requires SplitOf(done, lines, tail) && ch != '\n'
    ensures SplitOf(done + [ch], lines, tail + [ch])
  {
  }

  /** The commands xargs runs for `input`: one per complete line, and one
      for the text after the last newline when there is any. */
  function Commands(argv: seq<string>, input: string): (r: seq<seq<string>>)
    requires |argv| >= 2
  {
    var (lines, tail) := Split(input);
    PerLine(argv[1..], lines) + (if tail != [] then [argv[1..] + [Arg(tail)]] else [])
  }

  /** main: the exit status and the exec argument vectors, in order. The
      kernel's exec passes at most MAXARG - 1 arguments, so argv[argc] is
      always a valid slot of child_argv. */
  method Xargs(argv: seq<string>, input: string) returns (status: int, cmds: seq<seq<string>>)
    requires |argv| < MAXARG
    ensures |argv| < 2 ==> status == 1 && cmds == []
    ensures |argv| >= 2 ==> status == 0 && cmds == Commands(argv, input)
  {
    if |argv| < 2 {
      return 1, [];
    }
    var base := argv[1..];
    var cur: string := [];
    cmds := [];
    ghost var raw: seq<string> := [];
    ghost var rawTail: string := [];
    var i := 0;
    while i < |input|
      invariant 0 <= i <= |input|
      invariant SplitOf(input[..i], raw, rawTail)
      invariant cur == Keep(rawTail)
      invariant cmds == PerLine(base, raw)
    {
      var ch := input[i];
      assert input[..i + 1] == input[..i] + [ch];
      if ch == '\n' {
        cmds := cmds + [base + [CStr(cur)]];
        NewlineStep(input[..i], raw, rawTail);
        PerLineSnoc(base, raw, rawTail);
        raw := raw + [rawTail];
        rawTail := [];
        cur := [];
      } else {
        if |cur| < MAX_LINE_LEN - 1 {
          cur := cur + [ch];
        }
        CharStep(input[..i], raw, rawTail, ch);
        rawTail := rawTail + [ch];
      }
      i := i + 1;
    }
    assert input[..i] == input;
    SplitUnique(input, raw, rawTail);
    assert |cur| > 0 <==> rawTail != [];
    if |cur| > 0 {
      cmds := cmds + [base + [CStr(cur)]];
    }
    status := 0;
  }

  /** The number of newlines in `s`. */
  function Newlines(s: string): nat {
    multiset(s)['\n']
  }

  /** xargs runs one command per newline, plus one when the input does not
      end in a newline and is not empty after the last one. */
  lemma CommandCount(argv: seq<string>, input: string)
    requires |argv| >= 2
    ensures |Commands(argv, input)| == Newlines(input) + (if Split(input).1 != [] then 1 else 0)
  {
    LinesAreNewlines(input, Split(input).0, Split(input).1);
  }

  lemma {:induction false} LinesAreNewlines(s: string, lines: seq<string>, tail: string)
    requires SplitOf(s, lines, tail)
    ensures |lines| == Newlines(s)
    decreases |lines|
  {
    if lines == [] {
      assert s == tail;
    } else {
      var rest := JoinNl(lines[1..]) + tail;
      assert lines == [lines[0]] + lines[1..];
      JoinNlCons(lines[0], lines[1..]);
      assert s == lines[0] + ("\n" + rest);
      assert SplitOf(rest, lines[1..], tail) by {
        forall j | 0 <= j < |lines[1..]| ensures NoNl(lines[1..][j]) {
          assert lines[1..][j] == lines[j + 1];
        }
      }
      LinesAreNewlines(rest, lines[1..], tail);
      assert multiset(s) == multiset(lines[0]) + (multiset("\n") + multiset(rest));
      assert NoNl(lines[0]);
      assert multiset(lines[0])['\n'] == 0;
    }
  }

  /** Every command keeps xargs' own arguments in front and ends with a NUL-free
      argument of at most 511 characters taken from the start of its line. */
  lemma CommandShape(argv: seq<string>, input: string, k: nat)
    requires |argv| >= 2 && k < |Commands(argv, input)|
    ensures var c := Commands(argv, input)[k];
            && |c| == |argv| && c[..|argv| - 1] == argv[1..]
            && |c[|argv| - 1]| <= MAX_LINE_LEN - 1 && '\0' !in c[|argv| - 1]
            && (k < |Split(input).0| ==> c[|argv| - 1] <= Split(input).0[k])
            && (k == |Split(input).0| ==> c[|argv| - 1] <= Split(input).1)
  {
    var c := Commands(argv, input)[k];
    var l := if k < |Split(input).0| then Split(input).0[k] else Split(input).1;
    assert c == argv[1..] + [Arg(l)];
  }

  /** A line of the input that ends with a newline is run even when it is
      empty; an empty tail is not. */
  lemma EmptyLineRuns(argv: seq<string>, a: string, b: string)
    requires |argv| >= 2 && NoNl(a)
    ensures Commands(argv, a + "\n" + b)[0] == argv[1..] + [Arg(a)]
    ensures |Commands(argv, a + "\n")| == 1
  {
    var (ls, t) := Split(b);
    JoinNlSnoc([], a);
    assert JoinNl([a] + ls) == a + "\n" + JoinNl(ls) by {
      assert ([a] + ls)[1..] == ls;
    }
    SplitUnique(a + "\n" + b, [a] + ls, t);
    assert JoinNl([a]) + [] == a + "\n";
    SplitUnique(a + "\n", [a], []);
  }
}
